=== FILE: README.md ===
# SlideSmith core, modelled in Dafny

SlideSmith turns a five-field brief (topic, audience, objective, situation,
insights) into a five-slide deck. It uses a language model and a stock-photo
search to do this. The user edits the deck, keeps numbered versions of it,
exports it as a PowerPoint file and finds saved decks again on a dashboard.
This project models the deterministic rules under that interface as pure
functions over immutable datatypes, and proves what they promise.

The modelled rules are:

- the version store (`src/lib/database.ts`), as two in-memory tables of
  presentation headers and version rows;
- deck assembly, in the server function, in the client fallback and in the
  offline mock;
- the photo-search and slide-regeneration endpoints;
- the application shell's step machine and its working copy of versions;
- the deck and slide editors;
- the export layout plan;
- the dashboard list;
- the three brief forms;
- the onboarding tour;
- the loading screen.

Network replies, generated ids, clock readings and random draws are
parameters. Every call to a database table takes a flag that says whether the
request succeeded.

Modules, one per source file, plus four shared ones:

| module | file | models |
|---|---|---|
| `Types` | types.dfy | the records of `src/lib/types.ts`, `Option`, `Outcome` (a value or an error message) |
| `Seqs` | seqs.dfy | `filter`, `map` and a stable insertion sort, with their laws |
| `Text` | text.dfy | `trim`, `split`, `join`, `includes`, ASCII `toLowerCase` and decimal numerals over `seq<char>` |
| `Upstream` | upstream.dfy | the replies of the chat and photo services, referral links, preflight and error responses |
| `VersionStore` | version_store.dfy | `src/lib/database.ts` |
| `Session` | session.dfy | `src/App.tsx` |
| `DeckEditor` | deck_editor.dfy | `src/components/DeckEditor.tsx` |
| `SlideEditor` | slide_editor.dfy | `src/components/SlideEditorPanel.tsx` |
| `ExportLayout` | export_layout.dfy | `src/lib/pptxGenerator.ts` |
| `GeneratePresentation` | generate_presentation.dfy | `supabase/functions/generate-presentation/index.ts` |
| `OpenAIClient` | openai_client.dfy | `src/lib/openai.ts` |
| `MockAI` | mock_ai.dfy | `src/lib/mockAI.ts` |
| `PhotoSearch` | photo_search.dfy | `supabase/functions/fetch-unsplash-image/index.ts` |
| `RegenerateSlide` | regenerate_slide.dfy | `supabase/functions/regenerate-slide-text/index.ts` |
| `Dashboard` | dashboard.dfy | `src/components/Dashboard.tsx` |
| `BriefForm` | brief_form.dfy | `src/components/BriefForm.tsx` and what the three forms share |
| `BriefFormEnhanced` | brief_form_enhanced.dfy | `src/components/BriefFormEnhanced.tsx` |
| `BriefFormImproved` | brief_form_improved.dfy | `src/components/BriefFormImproved.tsx` |
| `OnboardingTour` | onboarding_tour.dfy | `src/components/OnboardingTour.tsx` |
| `LoadingState` | loading_state.dfy | `src/components/LoadingState.tsx` |

The version store's invariant is `VersionStore.Valid`:

- header ids are distinct;
- in every presentation's history, version numbers start at 1 and strictly
  increase in insertion order;
- at most one row is current, and that row is the newest.

`VersionStore.Settled` is the stricter invariant that every successful call
keeps: `Valid`, and every non-empty history has exactly one current row, its
newest.

Several checks below are stated in both directions:

- each operation preserves `Valid`;
- what an operation writes is what a later load reads;
- the dashboard's local list updates equal a reload of the store.

## Model

| member | source | states |
|---|---|---|
| VersionStore.SavePresentation | src/lib/database.ts:26-60 | the header insert's failure reports "Failed to save presentation" and changes nothing. Otherwise the header (brief fields, not a favourite, created = updated = now) is appended. A failed version insert reports "Failed to save presentation version" and keeps the header. Success appends version 1, flagged current, and returns the header id |
| VersionStore.SaveCreatesFirstVersion | src/lib/database.ts:26-60 | under a fresh id, a successful save gives the presentation a history of exactly one row: number 1, current, holding the deck. Every other history is unchanged |
| VersionStore.SaveKeepsValid | src/lib/database.ts:26-60 | saving under a fresh id keeps the store valid, whichever request fails |
| VersionStore.FailedSaveLeavesHeader | src/lib/database.ts:42-57 | when the version insert fails, the call reports an error, yet the new header stays in the table with no version |
| VersionStore.UpdatePresentation | src/lib/database.ts:62-77 | on success only the brief fields of the header with that id change. No row is added or removed and versions are untouched. Failure reports "Failed to update presentation" and changes nothing |
| VersionStore.UpdateKeepsValid | src/lib/database.ts:62-77 | updating a brief keeps the store valid |
| VersionStore.NextNumber | src/lib/database.ts:80-87 | the new number exceeds every existing number. It is 1 for an empty history and otherwise one past an existing number, so it is max + 1 |
| VersionStore.ClearFlags | src/lib/database.ts:89-92 | the bulk update keeps every row, in place, and drops the current flag exactly of the rows of that presentation |
| VersionStore.SaveNewVersion | src/lib/database.ts:79-110 | the corrected call: it succeeds exactly when the read, the clear and the insert all succeed, and returns the new id. A failed read or clear changes nothing. Otherwise it behaves as the code does |
| VersionStore.NewVersionHistory | src/lib/database.ts:79-110 | after success, the history is the old one with flags cleared, plus the new row numbered max + 1, which is the only current row. A failed insert leaves the history with no current row. Other presentations' histories are unchanged |
| VersionStore.NewVersionExtends | src/lib/database.ts:79-110 | a new version never shortens, reorders or renumbers a history |
| VersionStore.NewVersionKeepsValid | src/lib/database.ts:79-110 | a new version keeps the store valid (unique, increasing numbers; at most one current row, the newest) |
| VersionStore.SaveKeepsSettled | src/lib/database.ts:29-59 | saving under a fresh id keeps exactly one current version per non-empty history, whichever request fails |
| VersionStore.HeaderEditsKeepSettled | src/lib/database.ts:62-184 | updating a brief, deleting a presentation and setting a favourite flag each keep exactly one current version per non-empty history |
| VersionStore.NewVersionKeepsSettled | src/lib/database.ts:80-107 | a successful new version, or one whose read or clear fails, keeps exactly one current version per history. An insert that fails after a successful clear leaves a non-empty history with no current row |
| VersionStore.ConsecutiveNumbers | src/lib/database.ts:80-107 | a history numbered 1..k becomes 1..k+1 |
| VersionStore.LoadedRows | src/lib/database.ts:123-128 | the rows loaded for a presentation are a permutation of its history, sorted by ascending version number |
| VersionStore.LoadPresentation | src/lib/database.ts:112-146 | success needs exactly one header and a non-empty history. Errors are "Failed to load presentation" (header) and "Failed to load presentation versions" (no rows). It yields the header's brief, every deck in ascending number order, and the first current row's deck or else the last deck |
| VersionStore.LoadOpensNewest | src/lib/database.ts:123-145 | in a valid store, the loaded rows are the history in insertion order, and the deck opened is the newest |
| VersionStore.LoadAfterSave | src/lib/database.ts:26-146 | a presentation just saved opens with the brief and the deck it was saved with, and with that single version |
| VersionStore.LoadAfterNewVersion | src/lib/database.ts:79-146 | after a new version, the presentation opens on the new deck, after all the earlier decks in order |
| VersionStore.LoadAllPresentations | src/lib/database.ts:148-162 | the listing holds exactly the caller's headers, as a permutation of them, newest update first. Failure reports "Failed to load presentations" |
| VersionStore.DeletePresentation | src/lib/database.ts:164-173 | success removes exactly the headers with that id and keeps every other header. Every remaining header comes from the old table, and the count drops by the number of matching headers. Version rows are left alone. Failure reports and changes nothing |
| VersionStore.DeleteKeepsOrder | src/lib/database.ts:164-173 | the remaining headers keep their table order: any relation between every earlier and later header still holds after the delete |
| VersionStore.DeleteThenLoadFails | src/lib/database.ts:164-173 | a deleted presentation can no longer be opened, and the store stays valid |
| VersionStore.ToggleFavorite | src/lib/database.ts:175-184 | success sets the flag of the header with that id to exactly the given value and changes nothing else. Failure reports "Failed to update favorite status" |
| VersionStore.ToggleIdempotent | src/lib/database.ts:175-184 | setting the flag twice equals setting it once, and the store stays valid |
| VersionStore.SaveNewVersionAsWritten | src/lib/database.ts:79-110 | the code as written: only the insert's failure is reported. A failed read numbers the row 1, and a failed clear leaves the old flag standing |
| VersionStore.AsWrittenDuplicatesNumber | src/lib/database.ts:80-87 | on a valid store with version 1, a failed read followed by a successful insert reports success. The history then has exactly two rows, both numbered 1, and the store is no longer valid |
| VersionStore.AsWrittenTwoCurrents | src/lib/database.ts:89-92 | on the same store, a failed clear followed by a successful insert reports success and leaves two current rows |
| Session.Find | src/App.tsx:22 | the lookup finds a version with the id and none exactly when no version has it |
| Session.CurrentDeck | src/App.tsx:22 | the current deck is a stored version with the current id; there is none without a current id |
| Session.Start | src/App.tsx:24-26 | Start opens the brief step and changes nothing else |
| Session.OpenPrivacy | src/App.tsx:28-31 | opening the privacy page remembers the step it was opened from |
| Session.PrivacyRoundTrip | src/App.tsx:28-35 | Back from the privacy page returns to exactly the step it was opened from |
| Session.Home | src/App.tsx:37-39 | the home link shows the landing page and changes nothing else |
| Session.BeginGeneration | src/App.tsx:41-44 | submitting records the brief and shows the generating step |
| Session.SubmitBrief | src/App.tsx:41-55 | a submission always records the brief and never touches the privacy page's return step |
| Session.FinishGeneration | src/App.tsx:45-54 | a generated deck becomes the only version and the current deck, and the editor opens. A failure returns to the brief step and keeps the versions and the current deck. The brief and the privacy page's return step are kept either way |
| Session.SubmitOpensDeck | src/App.tsx:41-49 | a generated deck opens the editor with that deck as the only version and as the current deck |
| Session.SubmitFailureKeepsWork | src/App.tsx:50-54 | a failed generation returns to the brief step with versions and the current id unchanged |
| Session.SubmitWithOfflineGenerator | src/App.tsx:8-49 | with the offline generator, submitting opens the editor on a deck with the brief's topic, and exports five slides, each with its stock image |
| Session.UpdateDeck | src/App.tsx:57-59 | an edit replaces exactly the versions with the edited deck's id; length, order and the rest of the state are kept |
| Session.EditShowsInCurrent | src/App.tsx:22-59 | editing the current deck makes the edit current and leaves every other version as it was |
| Session.SaveVersion | src/App.tsx:61-74 | with a current deck, a copy under the new id and time stamp is appended and made current. Without one, nothing happens |
| Session.SavedVersionIsIndependent | src/App.tsx:57-74 | after a save, editing the copy leaves every earlier version untouched |
| Session.Export | src/App.tsx:76-85 | export happens exactly when there is a current deck, and plans that deck under its topic's file name |
| Session.SwitchVersion | src/App.tsx:124 | picking a version makes it current and changes nothing else |
| Session.Leave | src/App.tsx:128-133 | confirming "Leave" returns to the brief step and keeps the versions; it is the same step change as `Start` |
| Session.Handle | src/App.tsx:24-133 | only a generation, an edit or a saved version changes the stored versions |
| Session.HandleKeepsConsistent | src/App.tsx:120 | no event the interface can raise leads to the editor step (or to a privacy page that returns to it) without a current deck |
| Session.RunKeepsConsistent | src/App.tsx:120 | the same holds for any run of possible events |
| Session.InitialIsConsistent | src/App.tsx:16-20 | the application starts consistent and without a current deck |
| DeckEditor.SyncActiveSlide | src/components/DeckEditor.tsx:47-54 | an empty deck leaves the selection. A selection matching a slide stays. Otherwise it moves to the first slide, so a non-empty deck always selects an existing slide |
| DeckEditor.SyncIsStable | src/components/DeckEditor.tsx:47-54 | running the effect again changes nothing |
| DeckEditor.ActiveSlide | src/components/DeckEditor.tsx:56-60 | the slide shown is the first slide with the selected id (no earlier slide has it), or else the first slide. There is none exactly when the deck is empty |
| DeckEditor.UpdateSlide | src/components/DeckEditor.tsx:62-67 | exactly the slides with the edited id are replaced; count, order and the deck's other fields are kept |
| DeckEditor.EditedSlideIsShown | src/components/DeckEditor.tsx:47-67 | after editing a slide the editor shows the edit and the selection does not move |
| DeckEditor.VersionOptions | src/components/DeckEditor.tsx:126-130 | one option per version, in order, keyed and valued by the deck id and labelled "Version i+1" |
| DeckEditor.LabelsDistinct | src/components/DeckEditor.tsx:126-130 | different positions get different labels |
| SlideEditor.EditTitle | src/components/SlideEditorPanel.tsx:16-18 | a title edit changes the title and nothing else |
| SlideEditor.EditNotes | src/components/SlideEditorPanel.tsx:25-27 | a notes edit changes the notes and nothing else |
| SlideEditor.ParseBullets | src/components/SlideEditorPanel.tsx:20-23 | the bullets are lines of the text, none blank and none containing a newline, and every non-blank line is kept |
| SlideEditor.ParseSplitsAtNewline | src/components/SlideEditorPanel.tsx:20-23 | the lines before a line break are parsed first, then the lines after it: order and multiplicity are kept |
| SlideEditor.ParseOneLine | src/components/SlideEditorPanel.tsx:20-23 | a single line gives itself, once and unchanged, when it is not blank, and nothing when it is |
| SlideEditor.EditBullets | src/components/SlideEditorPanel.tsx:20-23 | a bullets edit sets the parsed lines and changes nothing else |
| SlideEditor.ParseShowsRoundTrip | src/components/SlideEditorPanel.tsx:21-58 | bullets without newlines or blanks, joined by newlines and parsed back, are the same bullets |
| SlideEditor.ParseIsStable | src/components/SlideEditorPanel.tsx:21-58 | parsed bullets are always typeable, so a second trip through the box changes nothing |
| SlideEditor.RetypingIsNoChange | src/components/SlideEditorPanel.tsx:20-58 | committing the box's own text leaves a typeable slide unchanged |
| ExportLayout.ShownImage | src/lib/pptxGenerator.ts:61 | a slide shows an image exactly when its URL is present and non-empty |
| ExportLayout.CaptionNamesPhotographer | src/lib/pptxGenerator.ts:69-81 | the caption "Photo by … on Unsplash" names the photographer, who can be read back from it |
| ExportLayout.PlanSlide | src/lib/pptxGenerator.ts:26-87 | every slide is on the dark master, with a title block and then a bullet block holding the slide's title and bullets. The picture is there iff an image URL is non-empty. The caption is there iff the picture and an attribution both are. The elements are exactly title, bullets, then the picture, then the caption, and nothing else. Notes are attached iff non-empty |
| ExportLayout.FileNameNamesTopic | src/lib/pptxGenerator.ts:91 | the file name "SlideSmith - <topic>.pptx" gives back the topic |
| ExportLayout.ExportDeck | src/lib/pptxGenerator.ts:8-91 | the 16:9 layout, title = topic, subject = "Presentation for " + audience, one planned slide per deck slide in order, and the topic's file name |
| ExportLayout.ExportIsReadable | src/lib/pptxGenerator.ts:26-87 | from each planned slide one reads back exactly the slide's title, bullets, shown image, credited photographer and notes |
| ExportLayout.PlanIgnoresHiddenFields | src/lib/pptxGenerator.ts:26-87 | the slide id, the image keyword and the attribution links never reach the file |
| GeneratePresentation.FetchImage | supabase/functions/generate-presentation/index.ts:59-113 | the lookup yields an image exactly when a key is configured and an OK reply has results. It then gives the first result's URL and name, and both links with the referral suffix. Every other case yields nothing and raises nothing |
| GeneratePresentation.BriefSection | supabase/functions/generate-presentation/index.ts:134-140 | a single-line brief's section splits into the five field lines, in order |
| GeneratePresentation.PromptCarriesBrief | supabase/functions/generate-presentation/index.ts:134-140 | the prompt's brief section carries every field of a single-line brief, with empty insights reading "Not provided" |
| GeneratePresentation.AssembleSlide | supabase/functions/generate-presentation/index.ts:203-218 | a slide carries its draft unchanged and its id. It has an attribution exactly when the lookup found an image, and a URL exactly when that image's URL is non-empty |
| GeneratePresentation.Slides | supabase/functions/generate-presentation/index.ts:203-218 | one slide per draft, in order, each assembled from its own lookup |
| GeneratePresentation.AssembleDeck | supabase/functions/generate-presentation/index.ts:220-226 | the deck takes the given id and time, the brief's topic and audience, and the assembled slides |
| GeneratePresentation.Handle | supabase/functions/generate-presentation/index.ts:115-249 | OPTIONS gets 200 with no body. Otherwise 200 carries a deck and 500 an error. A missing chat key gives the key error. A deck is returned exactly when the key, the request and the chat reply are all fine. A refused chat gives its message or "Failed to generate presentation" |
| GeneratePresentation.DraftsArriveUnchanged | supabase/functions/generate-presentation/index.ts:203-218 | the drafts can be read back from the deck's slides, in order |
| GeneratePresentation.NoPhotoKeyNoImages | supabase/functions/generate-presentation/index.ts:61-64 | without a photo key no slide gets an image or a credit |
| GeneratePresentation.LookupsAreIndependent | supabase/functions/generate-presentation/index.ts:206-216 | a failed lookup costs only its own slide's image; every other slide is unchanged |
| GeneratePresentation.CreditWithoutImage | supabase/functions/generate-presentation/index.ts:87-104 | a hit whose URL is empty yields a slide with a credit and no image |
| OpenAIClient.FetchImage | src/lib/openai.ts:12-37 | a hit gives the first result's URL; anything else gives "" |
| OpenAIClient.AssembleSlide | src/lib/openai.ts:110-122 | a slide carries its draft and id, an image exactly when the URL is non-empty, and never a credit |
| OpenAIClient.GenerateDeck | src/lib/openai.ts:39-134 | a missing key fails before anything else. A deck comes back exactly when the chat completes. Refusals and failures surface their messages. The deck has the brief's topic and audience and one slide per draft in order |
| OpenAIClient.ClientMatchesServer | src/lib/openai.ts:39-134 | with both keys configured, the client and the server fail alike, and the client's deck is the server's deck without the photo credits |
| MockAI.MockDrafts | src/lib/mockAI.ts:19-85 | five drafts, each with four bullets |
| MockAI.GenerateDeck | src/lib/mockAI.ts:11-89 | five slides with the brief's topic and audience; slide i carries mock draft i and stock image i, with no credit |
| MockAI.OpeningShowsBrief | src/lib/mockAI.ts:20-27 | slide 1 is titled "Executive Summary: " + topic and names the audience and situation |
| MockAI.BodyShowsBrief | src/lib/mockAI.ts:33-65 | slide 2 opens with the situation, slide 4 with "Primary Objective: " + objective |
| MockAI.InsightsShowBrief | src/lib/mockAI.ts:46-52 | slide 3 opens with the insights, or with the default finding when they are empty |
| MockAI.MockIsAClientDeck | src/lib/mockAI.ts:11-89 | the mock deck is what the client would assemble from the mock drafts and a search returning the stock images |
| PhotoSearch.StatusErrorNamesStatus | supabase/functions/fetch-unsplash-image/index.ts:48-50 | "Unsplash API error: <status>" names the status, which can be read back |
| PhotoSearch.Handle | supabase/functions/fetch-unsplash-image/index.ts:11-99 | OPTIONS gets 200. A missing key gives 500. A missing or empty keyword gives 400 "Keyword is required". An OK reply without results gives 404. A hit gives 200 with the first result's URL and referral links. Every other failure gives 500 with a non-empty message |
| PhotoSearch.AgreesWithGeneratorLookup | supabase/functions/fetch-unsplash-image/index.ts:40-74 | the endpoint finds an image exactly when the generator's lookup does, and returns the same URL, name and pages (the referral suffixes differ) |
| RegenerateSlide.NumberedLines | supabase/functions/regenerate-slide-text/index.ts:38 | bullet k is rendered as "k+1. bullet", in order |
| RegenerateSlide.NumberedListRoundTrip | supabase/functions/regenerate-slide-text/index.ts:38 | the numbered list of single-line bullets reads back as the same bullets |
| RegenerateSlide.ContextSection | supabase/functions/regenerate-slide-text/index.ts:40 | the context line appears exactly for a non-empty context and carries it after its label |
| RegenerateSlide.SlideSectionLines | supabase/functions/regenerate-slide-text/index.ts:36-40 | read line by line, the slide part shows the title, the "Bullets:" header, one numbered line per bullet in order, the notes, and then either nothing or a blank line and the labelled context |
| RegenerateSlide.Handle | supabase/functions/regenerate-slide-text/index.ts:18-110 | OPTIONS gets 200. A missing key gives the key error with 500. A reply is returned unchanged exactly when the request and the chat are fine. A refusal gives its message or "Failed to regenerate text" |
| Upstream.AttributionOf | supabase/functions/fetch-unsplash-image/index.ts:54-74 | the credit names the photographer, and both links are the pages with the referral suffix |
| Dashboard.FilterPresentations | src/components/Dashboard.tsx:60-75 | the cards shown are exactly the loaded records passing both the favourites filter and the case-insensitive search, as one filter of the loaded list: same order, same multiplicity, nothing added |
| Dashboard.CardsKeepLoadedOrder | src/components/Dashboard.tsx:60-75 | the cards of two stretches of the loaded list are the first stretch's cards followed by the second's |
| Dashboard.ShowsEverythingByDefault | src/components/Dashboard.tsx:60-75 | with neither filter the whole loaded list shows, in order |
| Dashboard.FilterKeepsNewestFirst | src/components/Dashboard.tsx:60-75 | filtering keeps the newest-first order |
| Dashboard.LoadedListIsNewestFirst | src/components/Dashboard.tsx:47-75 | what the dashboard shows after loading is newest first |
| Dashboard.SearchIgnoresCase | src/components/Dashboard.tsx:67-72 | a query and its lower-cased form show the same cards |
| Dashboard.LoadIntoList | src/components/Dashboard.tsx:47-58 | a successful load shows the store's list; a failure keeps the previous list and reports "Failed to load presentations" |
| Dashboard.DeleteFromList | src/components/Dashboard.tsx:77-88 | an unconfirmed delete does nothing and a failed one reports. A successful one drops exactly the cards with the id and reports "Presentation deleted" |
| Dashboard.DeleteMatchesReload | src/components/Dashboard.tsx:77-88 | after a confirmed delete the list equals a reload of the store |
| Dashboard.ToggleInList | src/components/Dashboard.tsx:90-101 | a successful toggle flips exactly the matching card's flag and says which way. A failure changes nothing and reports |
| Dashboard.ToggleMatchesReload | src/components/Dashboard.tsx:90-101 | after a toggle the list equals a reload of the store, order included |
| Dashboard.ToggleShowsInFavorites | src/components/Dashboard.tsx:90-101 | a starred card shows under the favourites filter; an unstarred one does not |
| Dashboard.AgeOf | src/components/Dashboard.tsx:103-115 | under a day gives whole hours, under a week whole days (1 to 6), otherwise the date, with the bounds of each unit |
| Dashboard.FormatDate | src/components/Dashboard.tsx:103-115 | an update a week old or more shows the locale date. A younger one shows a label ending in " ago" |
| Dashboard.FormatDateNamesDays | src/components/Dashboard.tsx:103-115 | an update one to six days old reads "Nd ago" with N its whole days |
| Dashboard.FormatDateNamesHours | src/components/Dashboard.tsx:103-115 | an update under a day old reads "Nh ago" with N its whole hours |
| BriefForm.InitialBrief | src/components/BriefForm.tsx:54-60 | the form starts from the brief handed in, or with every field empty |
| BriefForm.Change | src/components/BriefForm.tsx:62-64 | typing sets the named field and leaves the others |
| BriefForm.ChangeRoundTrip | src/components/BriefForm.tsx:62-64 | retyping a field's value changes nothing, and the later of two edits wins |
| BriefForm.Suggest | src/components/BriefForm.tsx:66-75 | topic and audience take the suggestion. The other fields take it when empty, and otherwise keep their text followed by one space and the suggestion. Other fields are kept |
| BriefForm.SuggestionEndsField | src/components/BriefForm.tsx:66-75 | the clicked suggestion always ends the field |
| BriefForm.SuggestionCompletes | src/components/BriefForm.tsx:66-75 | a non-blank suggestion leaves its field non-blank |
| BriefForm.ReplacingTwiceIsOnce | src/components/BriefForm.tsx:67-68 | clicking a topic or audience chip twice is clicking it once |
| BriefForm.Suggestions | src/components/BriefForm.tsx:18-51 | every field offers four or five chips |
| BriefForm.Autofill | src/components/BriefForm.tsx:77-86 | with draw i, every field takes entry i of its chips, wrapped to the list's length |
| BriefForm.ChipIsNotBlank | src/components/BriefForm.tsx:18-51 | no chip is white space |
| BriefForm.AutofillCompletesEveryField | src/components/BriefForm.tsx:77-86 | after autofill every field is non-blank and holds one of its own chips |
| BriefForm.ChipLabel | src/components/BriefForm.tsx:104 | a chip of at most 40 characters shows whole. A longer one shows its first 40 characters and "...", 43 in all |
| BriefForm.LabelsStayDistinct | src/components/BriefForm.tsx:104 | labels are at most 43 characters, and chips differing in their first 40 characters get different labels |
| BriefForm.CountWhere | src/components/BriefFormEnhanced.tsx:111 | the count is at most the list's length; it equals the length iff every field passes, and 0 iff none does |
| BriefFormEnhanced.IsFieldComplete | src/components/BriefFormEnhanced.tsx:106-108 | a field is complete exactly when some character of it is not white space |
| BriefFormEnhanced.IsFormValid | src/components/BriefFormEnhanced.tsx:110-113 | the form is valid exactly when topic, audience, objective and situation are all complete |
| BriefFormEnhanced.CompletedCount | src/components/BriefFormEnhanced.tsx:110-111 | 0 to 4 complete required fields, 4 exactly when the form is valid |
| BriefFormEnhanced.Progress | src/components/BriefFormEnhanced.tsx:112 | 25 per complete required field, at most 100, and 100 exactly when the form is valid |
| BriefFormEnhanced.ValidIffRequiredComplete | src/components/BriefFormEnhanced.tsx:106-113 | the form is valid iff every field but insights has non-white-space text |
| BriefFormEnhanced.EmptyBarMeansNothingDone | src/components/BriefFormEnhanced.tsx:110-112 | the bar is empty iff no required field is complete |
| BriefFormEnhanced.InsightsAreOptional | src/components/BriefFormEnhanced.tsx:110-113 | insights never change validity or progress |
| BriefFormEnhanced.CompletingAdvances | src/components/BriefFormEnhanced.tsx:75-112 | completing a required field adds 25 to the bar and emptying one takes 25 off |
| BriefFormEnhanced.AutofillIsValid | src/components/BriefFormEnhanced.tsx:90-113 | autofill leaves a valid form with a full bar |
| BriefFormImproved.Change | src/components/BriefFormImproved.tsx:74-87 | typing sets the field and marks it exactly when the value is not blank; other marks stay |
| BriefFormImproved.Suggest | src/components/BriefFormImproved.tsx:89-101 | a chip merges as in the other forms and marks its field; other marks stay |
| BriefFormImproved.Autofill | src/components/BriefFormImproved.tsx:103-114 | autofill fills the brief and marks all five fields |
| BriefFormImproved.ChangeKeepsTracking | src/components/BriefFormImproved.tsx:74-87 | typing keeps the marks equal to the non-blank fields |
| BriefFormImproved.SuggestKeepsTracking | src/components/BriefFormImproved.tsx:89-101 | so does clicking a chip |
| BriefFormImproved.AutofillTracks | src/components/BriefFormImproved.tsx:103-114 | so does autofill |
| BriefFormImproved.IsFormValid | src/components/BriefFormImproved.tsx:122 | the submit test passes exactly when every field but insights is non-empty, white space counting as content |
| BriefFormImproved.LaxerThanEnhanced | src/components/BriefFormImproved.tsx:122 | every brief the enhanced form accepts is accepted here. Four one-space fields are accepted here but not there |
| BriefFormImproved.StartAsWritten | src/components/BriefFormImproved.tsx:63-72 | as written, the form starts with no field marked, even on a filled brief |
| BriefFormImproved.ProgressAsWritten | src/components/BriefFormImproved.tsx:121 | as written, the bar is 25 per marked field, insights included |
| BriefFormImproved.CountLineAsWritten | src/components/BriefFormImproved.tsx:250 | as written, the line counts every marked field "of 4" |
| BriefFormImproved.AutofillOverfillsAsWritten | src/components/BriefFormImproved.tsx:103-121 | as written, autofill reads "5 of 4 required fields completed" and sets the bar to 125% |
| BriefFormImproved.ReopenedShowsNothingAsWritten | src/components/BriefFormImproved.tsx:63-122 | as written, a form reopened on a valid brief would submit, yet shows an empty bar |
| BriefFormImproved.CompleteFields | src/components/BriefFormImproved.tsx:78-86 | the fields whose text is not white space |
| BriefFormImproved.Start | src/components/BriefFormImproved.tsx:63-72 | corrected: the marks start from the brief handed in and agree with it |
| BriefFormImproved.RequiredDone | src/components/BriefFormImproved.tsx:121 | corrected: the count covers only the four required fields, so it is at most 4 |
| BriefFormImproved.Progress | src/components/BriefFormImproved.tsx:121 | corrected: 25 per marked required field, at most 100 |
| BriefFormImproved.CountLineFixed | src/components/BriefFormImproved.tsx:250 | corrected: the line shows the required count |
| BriefFormImproved.TrackedProgressAgrees | src/components/BriefFormImproved.tsx:121 | while the marks agree with the brief, the corrected bar equals the enhanced form's bar, and is full iff that form is valid |
| BriefFormImproved.ReopenedShowsProgress | src/components/BriefFormImproved.tsx:63-122 | corrected: a form reopened on a valid brief shows a full bar, would submit, and its marks agree with the brief |
| BriefFormImproved.AutofillFillsTheBar | src/components/BriefFormImproved.tsx:103-121 | corrected: autofill reads 4 of 4 with a full bar |
| OnboardingTour.Next | src/components/OnboardingTour.tsx:44-50 | Next moves one card on before the last card, and completes the tour on it |
| OnboardingTour.Back | src/components/OnboardingTour.tsx:52-56 | Back moves one card back, and does nothing on the first |
| OnboardingTour.Complete | src/components/OnboardingTour.tsx:58-61 | finishing hides the tour and schedules the completion callback |
| OnboardingTour.Skip | src/components/OnboardingTour.tsx:63-66 | skipping hides the tour and schedules the skip callback |
| OnboardingTour.StartIsValid | src/components/OnboardingTour.tsx:41-42 | the tour opens visible on the first card |
| OnboardingTour.StepsKeepValid | src/components/OnboardingTour.tsx:44-66 | the step stays within the five cards, and the tour is visible exactly until an ending is scheduled |
| OnboardingTour.BackUndoesNext | src/components/OnboardingTour.tsx:44-56 | Back undoes Next before the last card, and Next undoes Back after the first |
| OnboardingTour.ButtonsMatchActions | src/components/OnboardingTour.tsx:135-152 | the button reads "Get Started" exactly when pressing it ends the tour, and Back shows exactly when it moves |
| OnboardingTour.CounterNamesCard | src/components/OnboardingTour.tsx:102 | different cards show different "Step i of 5" counters |
| OnboardingTour.PressNext | src/components/OnboardingTour.tsx:44-61 | pressing Next k times from the start shows card k for k ≤ 4, and completes the tour on the fifth press |
| LoadingState.Tick | src/components/LoadingState.tsx:19 | a tick moves one step on before the last step and stays there after |
| LoadingState.AfterSaturates | src/components/LoadingState.tsx:14-19 | after t ticks the step is min(t, 4) |
| LoadingState.Run | src/components/LoadingState.tsx:14-22 | the loop of ticks ends on step min(t, 4) |
| LoadingState.Progress | src/components/LoadingState.tsx:15 | the bar is (index + 1) / 5 of the width: 20 to 100, and 100 exactly on the last step |
| LoadingState.Caption | src/components/LoadingState.tsx:50 | the caption is one of the five steps' captions |
| LoadingState.TickMovesTheBar | src/components/LoadingState.tsx:15-57 | before the last step a tick adds 20 to the bar and changes the counter; on the last step the bar stays full |

## Left out

- Network calls, `Deno.serve`, CORS headers and JSON parsing are not modelled. Replies of the chat and photo services and request bodies are abstract datatypes. A parsed body is `Parsed`, an unreadable one is `Malformed`.
- The Supabase client is replaced by two in-memory tables. Each request's success is a boolean parameter. The read-then-insert race between two concurrent `saveNewVersion` calls is not modelled: calls are sequential.
- The cascade delete of version rows lives in the database schema, which is not shown. `DeletePresentation` leaves version rows in place, and they become unreachable.
- VersionStore.UpdatePresentation: the model leaves `updated_at` unchanged, because `updatePresentation` does not set it. A database default or trigger that refreshes it would be in the schema, which is not shown. `ToggleFavorite` and `SaveNewVersion` likewise leave the header's `updated_at` as it was.
- Dashboard.ToggleMatchesReload: the list's order matches a reload only because a toggle leaves `updated_at` unchanged. A schema that refreshed `updated_at` on every update would move the toggled card to the top of a reload, but not of the local list.
- VersionStore.NewVersionKeepsValid: `Valid` allows a non-empty history with no current row. Two failure paths produce one. A `saveNewVersion` whose insert fails after a successful clear leaves the history with no current row (`NewVersionKeepsSettled` shows this). A `savePresentation` whose version insert fails leaves a header with no version (`FailedSaveLeavesHeader`). Every successful call keeps the stricter `Settled`.
- `crypto.randomUUID`, `new Date()` and `Math.random` are parameters: fresh ids, opaque time stamps and the autofill draw i in [0, 5). Freshness of ids is a hypothesis of the lemmas that need it.
- `setTimeout` and `setInterval` are not modelled. The mock's delay, the tour's 300 ms fade and the loading interval are discrete steps.
- The tour's callbacks are recorded as a scheduled ending rather than run.
- `src/lib/supabase.ts` is not part of this model. The user id is a parameter.
- PptxGenJS, `writeFile`, remote image inlining and every position, size, colour and font value are not modelled. The export is a layout plan of elements per slide.
- The prompt text is not modelled beyond the brief section, and neither is the fixed system message. The client's prompt (`src/lib/openai.ts:44-75`) has the same brief section as the server's, so `GeneratePresentation.PromptCarriesBrief` covers both. The regenerate endpoint's prompt is modelled only in its slide section.
- Errors thrown as values other than `Error` ("Unknown error") are not modelled. Every failure carries a message.
- Dashboard.AgeOf: hours and days are whole units rounded down, in integer milliseconds. The source divides floating-point milliseconds and rounds down too. The locale date text is a parameter, and invalid dates are not modelled.
- Dashboard.FilterPresentations: `toLowerCase` is modelled on ASCII letters only.
- BriefFormEnhanced.Progress: the form divides in floating point. For counts 0 to 4 the result is the exact integer modelled here.
- BriefForm's submit passes its brief on unchanged. This is modelled by `Session.SubmitBrief` taking the brief as given. Its Back button is the same step change as `Session.Home`.
- The improved form's HTML `required` attributes are not modelled. Its test is the one on the submit button's `disabled` flag (`src/components/BriefFormImproved.tsx:289`).
- UI-only state is not modelled: focused and expanded fields, tooltips, the sidebar, the tour's dots and card rendering, the slide preview's scaling, toasts and the confirmation dialog's chrome. The dialog's answer is a parameter.
- `SlidePreview`, `Hero`, `ExampleGallery`, `PrivacyPolicy`, `EditorHelpPanel`, `GlobalAlertProvider` and `main.tsx` are rendering or static content. They are not part of this model.
- Equal `updated_at` or equal version numbers are ordered by a stable sort. The database's order for ties is unspecified.
- A brief read from storage without insights is modelled with insights `""`.

## Findings

| source | as written | input that shows it | evidently intended | confidence | as-written member | corrected member |
|---|---|---|---|---|---|---|
| src/lib/database.ts:80-87 | `saveNewVersion` never checks the error of the read of the largest version number. A failed read leaves the data empty, and the next number becomes 1 | a presentation with version 1; the read fails, the clear and the insert succeed | report the failure and insert nothing, so numbers stay unique and increasing | not executed | VersionStore.AsWrittenDuplicatesNumber | VersionStore.NewVersionKeepsValid |
| src/lib/database.ts:89-92 | the error of the update that clears `is_current` is never checked, and the new row is inserted as current anyway | a presentation with current version 1; the clear fails, the read and the insert succeed. Two rows are current | report the failure and insert nothing, so the new version is the only current one | not executed | VersionStore.AsWrittenTwoCurrents | VersionStore.NewVersionHistory |
| src/components/BriefFormImproved.tsx:121 | progress and the "of 4" line count every marked field, insights included | press autofill: the line reads "5 of 4 required fields completed" and the bar is 125% wide | count only the four required fields | not executed | BriefFormImproved.AutofillOverfillsAsWritten | BriefFormImproved.AutofillFillsTheBar |
| src/components/BriefFormImproved.tsx:72 | the set of completed fields starts empty even when the form opens on a filled-in brief | render the form with `initialBrief` filling the four required fields: it reads "0 of 4" with an empty bar while submit is enabled | start the set from the fields the brief already fills | not executed | BriefFormImproved.ReopenedShowsNothingAsWritten | BriefFormImproved.ReopenedShowsProgress |

=== FILE: brief_form.dfy ===
/** What the three brief forms share: the brief's five fields, typing into
    one of them, the suggestion chips under each field (with their shortened
    labels) and the autofill button. */
module BriefForm {
  import opened Types
  import opened Text

  datatype Field = Topic | Audience | Objective | Situation | Insights

  const AllFields: set<Field> := {Topic, Audience, Objective, Situation, Insights}

  lemma FiveFields()
    ensures forall f :: f in AllFields
    ensures |AllFields| == 5
  {
    forall f
      ensures f in AllFields
    {
      match f
      case Topic =>
      case Audience =>
      case Objective =>
      case Situation =>
      case Insights =>
    }
  }

  function Get(b: Brief, f: Field): string {
    match f
    case Topic => b.topic
    case Audience => b.audience
    case Objective => b.objective
    case Situation => b.situation
    case Insights => b.insights
  }

  /** The form's starting brief: the one handed in (when returning to the
      form), or a brief with every field empty. */
  function InitialBrief(initial: Option<Brief>): (b: Brief)
    ensures initial.Some? ==> b == initial.value
    ensures initial.None? ==> forall f :: Get(b, f) == ""
  {
    if initial.Some? then initial.value else Brief("", "", "", "", "")
  }

  /** Typing into field `f`: it takes the typed value, the others stay. */
  function Change(b: Brief, f: Field, value: string): (r: Brief)
    ensures Get(r, f) == value
    ensures forall g :: g != f ==> Get(r, g) == Get(b, g)
  {
    match f
    case Topic => b.(topic := value)
    case Audience => b.(audience := value)
    case Objective => b.(objective := value)
    case Situation => b.(situation := value)
    case Insights => b.(insights := value)
  }

  /** A brief is determined by its five fields. */
  lemma SameFields(a: Brief, b: Brief)
    requires forall f :: Get(a, f) == Get(b, f)
    ensures a == b
  {
    assert Get(a, Topic) == Get(b, Topic) && Get(a, Audience) == Get(b, Audience);
    assert Get(a, Objective) == Get(b, Objective) && Get(a, Situation) == Get(b, Situation);
    assert Get(a, Insights) == Get(b, Insights);
  }

  /** Retyping a field's own value changes nothing, and of two edits of one
      field only the later one shows. */
  lemma ChangeRoundTrip(b: Brief, f: Field, first: string, second: string)
    ensures Change(b, f, Get(b, f)) == b
    ensures Change(Change(b, f, first), f, second) == Change(b, f, second)
  {
    SameFields(Change(b, f, Get(b, f)), b);
    SameFields(Change(Change(b, f, first), f, second), Change(b, f, second));
  }

  /** The four fields the forms require; insights are optional. */
  const RequiredFields: seq<Field> := [Topic, Audience, Objective, Situation]

  /** Where a required field sits in the list. */
  function Position(f: Field): nat {
    match f
    case Topic => 0
    case Audience => 1
    case Objective => 2
    case Situation => 3
    case Insights => 4
  }

  lemma OnlyInsightsOptional(f: Field)
    ensures f != Insights ==> Position(f) < |RequiredFields| && RequiredFields[Position(f)] == f
    ensures f != Insights ==> multiset(RequiredFields)[f] == 1
    ensures forall i :: 0 <= i < |RequiredFields| ==> RequiredFields[i] != Insights
  {
  }

  /** How many of `fields` pass `p`: the length of `fields.filter(p)`. */
  function CountWhere(p: Field -> bool, fields: seq<Field>): (n: nat)
    ensures n <= |fields|
    ensures n == |fields| <==> forall i :: 0 <= i < |fields| ==> p(fields[i])
    ensures n == 0 <==> forall i :: 0 <= i < |fields| ==> !p(fields[i])
    decreases |fields|
  {
    if |fields| == 0 then 0
    else (if p(fields[0]) then 1 else 0) + CountWhere(p, fields[1..])
  }

  /** Two tests that agree on the fields count the same. */
  lemma {:induction false} CountWhereAgrees(p: Field -> bool, q: Field -> bool, fields: seq<Field>)
    requires forall i :: 0 <= i < |fields| ==> p(fields[i]) == q(fields[i])
    ensures CountWhere(p, fields) == CountWhere(q, fields)
    decreases |fields|
  {
    if |fields| > 0 {
      CountWhereAgrees(p, q, fields[1..]);
    }
  }

  /** A test that newly passes one field counts that field once more for
      each time it is listed. */
  lemma {:induction false} CountWhereOneMore(p: Field -> bool, q: Field -> bool, fields: seq<Field>, f: Field)
    requires forall g :: g != f ==> p(g) == q(g)
    requires !p(f) && q(f)
    ensures CountWhere(q, fields) == CountWhere(p, fields) + multiset(fields)[f]
    decreases |fields|
  {
    if |fields| > 0 {
      CountWhereOneMore(p, q, fields[1..], f);
      assert fields == [fields[0]] + fields[1..];
    }
  }

  /** The progress bar's width for `n` of the four required fields,
      `n / 4 * 100`; for these counts the division is exact. */
  function Percent(n: nat): (percent: nat)
    ensures percent == 25 * n
  {
    assert n * 100 == (25 * n) * |RequiredFields|;
    n * 100 / |RequiredFields|
  }

  /** Topic and audience take a clicked suggestion as their whole value; the
      longer fields add it to what is there. */
  predicate Replaces(f: Field) {
    f == Topic || f == Audience
  }

  /** Clicking suggestion `value` under field `f`. A field that adds
      suggestions keeps its text and gains the suggestion after one space,
      unless it was empty. */
  function Suggest(b: Brief, f: Field, value: string): (r: Brief)
    ensures forall g :: g != f ==> Get(r, g) == Get(b, g)
    ensures Replaces(f) || Get(b, f) == "" ==> Get(r, f) == value
    ensures !Replaces(f) && Get(b, f) != "" ==> StripSuffix(" " + value, Get(r, f)) == Some(Get(b, f))
  {
    if Replaces(f) || Get(b, f) == "" then Change(b, f, value)
    else
      StripSuffixInverse(" " + value, Get(b, f));
      assert Get(b, f) + " " + value == Get(b, f) + (" " + value);
      Change(b, f, Get(b, f) + " " + value)
  }

  /** A clicked suggestion always ends the field's text. */
  lemma SuggestionEndsField(b: Brief, f: Field, value: string)
    ensures var text := Get(Suggest(b, f, value), f);
            |value| <= |text| && text[|text| - |value|..] == value
  {
    var text := Get(Suggest(b, f, value), f);
    if !Replaces(f) && Get(b, f) != "" {
      assert text == Get(b, f) + " " + value;
    }
  }

  /** A suggestion that is not all white space completes its field. */
  lemma SuggestionCompletes(b: Brief, f: Field, value: string)
    requires !IsBlank(value)
    ensures !IsBlank(Get(Suggest(b, f, value), f))
  {
    var text := Get(Suggest(b, f, value), f);
    SuggestionEndsField(b, f, value);
    BlankIffAllSpace(value);
    BlankIffAllSpace(text);
    var k :| 0 <= k < |value| && !IsSpace(value[k]);
    assert text[|text| - |value| + k] == value[k];
  }

  /** For topic and audience a second click of the same chip changes
      nothing. */
  lemma ReplacingTwiceIsOnce(b: Brief, f: Field, value: string)
    requires Replaces(f)
    ensures Suggest(Suggest(b, f, value), f, value) == Suggest(b, f, value)
  {
    ChangeRoundTrip(b, f, value, value);
  }

  const TopicSuggestions: seq<string> := [
    "Q3 Marketing Review",
    "New Product Launch",
    "Investor Pitch Deck",
    "Team All-Hands Update",
    "Budget Proposal 2024"
  ]

  const AudienceSuggestions: seq<string> := [
    "Board of Directors",
    "Executive Leadership Team",
    "Marketing Department",
    "Potential Clients",
    "Engineering Team"
  ]

  const ObjectiveSuggestions: seq<string> := [
    "Secure approval for $50k budget increase.",
    "Align team on the new roadmap priorities.",
    "Showcase 20% growth to secure Series A funding.",
    "Educate the team on the new compliance policies."
  ]

  const SituationSuggestions: seq<string> := [
    "Competitors just lowered their prices by 15%.",
    "We missed our Q2 targets due to supply chain issues.",
    "User engagement has dropped significantly this month.",
    "We have a unique opportunity to acquire a smaller rival."
  ]

  const InsightsSuggestions: seq<string> := [
    "Customer surveys show 80% demand for this feature.",
    "Market analysis predicts a 10% CAGR in this sector.",
    "Internal data suggests high churn in the first week.",
    "Our pilot program showed a 3x ROI."
  ]

  /** The chips offered under a field. */
  function Suggestions(f: Field): (chips: seq<string>)
    ensures 4 <= |chips| <= 5
  {
    match f
    case Topic => TopicSuggestions
    case Audience => AudienceSuggestions
    case Objective => ObjectiveSuggestions
    case Situation => SituationSuggestions
    case Insights => InsightsSuggestions
  }

  /** The number of topics, from which the autofill index is drawn. */
  const TopicCount: nat := |TopicSuggestions|

  /** Entry `i` of a field's chips, wrapping round the shorter lists. */
  function Pick(f: Field, i: nat): (chip: string)
  {
    Suggestions(f)[i % |Suggestions(f)|]
  }

  /** The autofill button, with its random draw `i` from [0, 5) passed in:
      every field takes the draw's entry (wrapped) of its own chips. */
  function Autofill(i: nat): (b: Brief)
    requires i < TopicCount
    ensures forall f :: Get(b, f) == Pick(f, i)
  {
    Brief(TopicSuggestions[i], Pick(Audience, i), Pick(Objective, i), Pick(Situation, i), Pick(Insights, i))
  }

  /** No chip is white space: each ends with a visible character. */
  lemma ChipsAreVisible(f: Field, k: nat)
    requires k < |Suggestions(f)|
    ensures |Suggestions(f)[k]| > 0 && !IsSpace(Suggestions(f)[k][|Suggestions(f)[k]| - 1])
  {
  }

  lemma ChipIsNotBlank(f: Field, k: nat)
    requires k < |Suggestions(f)|
    ensures !IsBlank(Suggestions(f)[k])
  {
    ChipsAreVisible(f, k);
    BlankIffAllSpace(Suggestions(f)[k]);
  }

  /** After autofill every field, insights included, is complete, and holds
      one of its own chips. */
  lemma AutofillCompletesEveryField(i: nat, f: Field)
    requires i < TopicCount
    ensures !IsBlank(Get(Autofill(i), f))
    ensures Get(Autofill(i), f) in Suggestions(f)
  {
    ChipIsNotBlank(f, i % |Suggestions(f)|);
  }

  /** The longest chip label before it is shortened. */
  const LabelLimit: nat := 40

  /** A chip's label: long suggestions show their first 40 characters and
      an ellipsis. */
  function ChipLabel(s: string): (shown: string)
    ensures |s| <= LabelLimit ==> shown == s
    ensures |s| > LabelLimit ==> |shown| == LabelLimit + 3 && shown[LabelLimit..] == "..."
    ensures |s| > LabelLimit ==> shown[..LabelLimit] == s[..LabelLimit]
  {
    if |s| > LabelLimit then s[..LabelLimit] + "..." else s
  }

  /** The part of a suggestion its label always shows. */
  function Head(s: string): string {
    if |s| <= LabelLimit then s else s[..LabelLimit]
  }

  /** Labels are never longer than 43 characters, and two suggestions that
      differ within their first 40 characters keep different labels. */
  lemma LabelsStayDistinct(a: string, b: string)
    ensures |ChipLabel(a)| <= LabelLimit + 3
    ensures Head(a) != Head(b) ==> ChipLabel(a) != ChipLabel(b)
  {
    var la, lb := ChipLabel(a), ChipLabel(b);
    if la == lb && |a| > LabelLimit && |b| > LabelLimit {
      assert a[..LabelLimit] == la[..LabelLimit] == b[..LabelLimit];
    }
  }
}

=== FILE: brief_form_enhanced.dfy ===
/** The enhanced brief form's completion rules: a field is complete once it
    holds something other than white space, the form is valid when the four
    required fields are complete, and the progress bar shows how many are. */
module BriefFormEnhanced {
  import opened Types
  import opened Text
  import opened BriefForm

  /** A field is complete when it holds a character other than white
      space. */
  predicate IsFieldComplete(b: Brief, f: Field)
    ensures IsFieldComplete(b, f) <==> !AllSpace(Get(b, f))
  {
    BlankIffAllSpace(Get(b, f));
    !IsBlank(Get(b, f))
  }

  function CompleteIn(b: Brief): Field -> bool {
    (f: Field) => IsFieldComplete(b, f)
  }

  /** Every required field is complete. */
  predicate IsFormValid(b: Brief)
    ensures IsFormValid(b) <==>
              && IsFieldComplete(b, Topic) && IsFieldComplete(b, Audience)
              && IsFieldComplete(b, Objective) && IsFieldComplete(b, Situation)
  {
    AllOfFour(CompleteIn(b), RequiredFields);
    forall i :: 0 <= i < |RequiredFields| ==> CompleteIn(b)(RequiredFields[i])
  }

  /** A test holds of all four entries exactly when it holds of each. */
  lemma AllOfFour<T>(p: T -> bool, s: seq<T>)
    requires |s| == 4
    ensures (forall i :: 0 <= i < |s| ==> p(s[i])) <==> p(s[0]) && p(s[1]) && p(s[2]) && p(s[3])
  {
  }

  /** The number of complete required fields. */
  function CompletedCount(b: Brief): (n: nat)
    ensures n <= |RequiredFields|
    ensures n == |RequiredFields| <==> IsFormValid(b)
  {
    CountWhere(CompleteIn(b), RequiredFields)
  }

  /** The progress bar: a quarter of it per complete required field, full
      exactly when the form is valid. */
  function Progress(b: Brief): (percent: nat)
    ensures percent == 25 * CompletedCount(b) && percent <= 100
    ensures percent == 100 <==> IsFormValid(b)
  {
    Percent(CompletedCount(b))
  }

  /** The bar is empty exactly when no required field is complete. */
  lemma EmptyBarMeansNothingDone(b: Brief)
    ensures Progress(b) == 0 <==> forall f :: f != Insights ==> !IsFieldComplete(b, f)
  {
    var n := CompletedCount(b);
    if n == 0 {
      forall f | f != Insights
        ensures !IsFieldComplete(b, f)
      {
        OnlyInsightsOptional(f);
        assert !CompleteIn(b)(RequiredFields[Position(f)]);
      }
    } else {
      var i :| 0 <= i < |RequiredFields| && CompleteIn(b)(RequiredFields[i]);
      OnlyInsightsOptional(Insights);
    }
  }

  /** Validity asks for every field but insights, and nothing more. */
  lemma ValidIffRequiredComplete(b: Brief)
    ensures IsFormValid(b) <==> forall f :: f != Insights ==> IsFieldComplete(b, f)
  {
    if IsFormValid(b) {
      forall f | f != Insights
        ensures IsFieldComplete(b, f)
      {
        OnlyInsightsOptional(f);
      }
    }
  }

  /** Whatever insights say, validity and progress stay as they were. */
  lemma InsightsAreOptional(b: Brief, value: string)
    ensures IsFormValid(Change(b, Insights, value)) == IsFormValid(b)
    ensures Progress(Change(b, Insights, value)) == Progress(b)
  {
    var b' := Change(b, Insights, value);
    OnlyInsightsOptional(Insights);
    forall i | 0 <= i < |RequiredFields|
      ensures CompleteIn(b)(RequiredFields[i]) == CompleteIn(b')(RequiredFields[i])
    {
      assert Get(b', RequiredFields[i]) == Get(b, RequiredFields[i]);
    }
    CountWhereAgrees(CompleteIn(b), CompleteIn(b'), RequiredFields);
  }

  /** Completing an incomplete required field moves the bar on by a
      quarter; emptying a complete one moves it back. */
  lemma CompletingAdvances(b: Brief, f: Field, value: string)
    requires f != Insights
    ensures !IsFieldComplete(b, f) && !IsBlank(value) ==> Progress(Change(b, f, value)) == Progress(b) + 25
    ensures IsFieldComplete(b, f) && IsBlank(value) ==> Progress(b) == Progress(Change(b, f, value)) + 25
  {
    var b' := Change(b, f, value);
    OnlyInsightsOptional(f);
    if !IsFieldComplete(b, f) && !IsBlank(value) {
      CountWhereOneMore(CompleteIn(b), CompleteIn(b'), RequiredFields, f);
    } else if IsFieldComplete(b, f) && IsBlank(value) {
      CountWhereOneMore(CompleteIn(b'), CompleteIn(b), RequiredFields, f);
    }
  }

  /** Autofill leaves a valid form with a full bar. */
  lemma AutofillIsValid(i: nat)
    requires i < TopicCount
    ensures IsFormValid(Autofill(i)) && Progress(Autofill(i)) == 100
  {
    forall f
      ensures IsFieldComplete(Autofill(i), f)
    {
      AutofillCompletesEveryField(i, f);
    }
  }
}

=== FILE: brief_form_improved.dfy ===
/** The improved brief form: besides the brief it keeps the set of fields it
    has marked complete, and draws its progress bar and its "n of 4" line
    from that set; its submit button asks only that the four required
    fields be non-empty. */
module BriefFormImproved {
  import opened Types
  import opened Text
  import opened BriefForm
  import BriefFormEnhanced

  /** The brief and the fields marked complete. */
  datatype FormState = FormState(brief: Brief, completed: set<Field>)

  /** The marks agree with the brief: a field is marked exactly when it
      holds something other than white space. */
  predicate Tracks(st: FormState) {
    forall f :: f in st.completed <==> !IsBlank(Get(st.brief, f))
  }

  /** Typing into a field marks it when the value is not blank and unmarks
      it when it is. */
  function Change(st: FormState, f: Field, value: string): (r: FormState)
    ensures r.brief == BriefForm.Change(st.brief, f, value)
    ensures f in r.completed <==> !IsBlank(value)
    ensures forall g :: g != f ==> (g in r.completed <==> g in st.completed)
  {
    var brief := BriefForm.Change(st.brief, f, value);
    if !IsBlank(value) && f !in st.completed then FormState(brief, st.completed + {f})
    else if IsBlank(value) && f in st.completed then FormState(brief, st.completed - {f})
    else FormState(brief, st.completed)
  }

  /** A suggestion merges as in the other forms and marks its field. */
  function Suggest(st: FormState, f: Field, value: string): (r: FormState)
    ensures r.brief == BriefForm.Suggest(st.brief, f, value)
    ensures f in r.completed && forall g :: g != f ==> (g in r.completed <==> g in st.completed)
  {
    FormState(BriefForm.Suggest(st.brief, f, value), st.completed + {f})
  }

  /** Autofill fills the brief and marks all five fields. */
  function Autofill(i: nat): (r: FormState)
    requires i < TopicCount
    ensures r.brief == BriefForm.Autofill(i)
    ensures r.completed == AllFields
  {
    FormState(BriefForm.Autofill(i), AllFields)
  }

  /** Typing keeps the marks in step with the brief. */
  lemma ChangeKeepsTracking(st: FormState, f: Field, value: string)
    requires Tracks(st)
    ensures Tracks(Change(st, f, value))
  {
  }

  /** So does clicking a suggestion chip. */
  lemma SuggestKeepsTracking(st: FormState, f: Field, k: nat)
    requires Tracks(st) && k < |Suggestions(f)|
    ensures Tracks(Suggest(st, f, Suggestions(f)[k]))
  {
    var r := Suggest(st, f, Suggestions(f)[k]);
    ChipIsNotBlank(f, k);
    SuggestionCompletes(st.brief, f, Suggestions(f)[k]);
    forall g
      ensures g in r.completed <==> !IsBlank(Get(r.brief, g))
    {
      if g != f {
        assert Get(r.brief, g) == Get(st.brief, g);
      }
    }
  }

  /** And autofill leaves them in step. */
  lemma AutofillTracks(i: nat)
    requires i < TopicCount
    ensures Tracks(Autofill(i))
  {
    forall f
      ensures f in Autofill(i).completed <==> !IsBlank(Get(Autofill(i).brief, f))
    {
      FiveFields();
      AutofillCompletesEveryField(i, f);
    }
  }

  /** The submit button's test: the four required fields are non-empty,
      white space included. */
  predicate IsFormValid(st: FormState)
    ensures IsFormValid(st) <==> forall f :: f != Insights ==> Get(st.brief, f) != ""
  {
    assert Get(st.brief, Topic) == st.brief.topic && Get(st.brief, Audience) == st.brief.audience;
    assert Get(st.brief, Objective) == st.brief.objective && Get(st.brief, Situation) == st.brief.situation;
    st.brief.topic != "" && st.brief.audience != "" && st.brief.objective != "" && st.brief.situation != ""
  }

  /** Every brief the enhanced form accepts this form accepts too; the
      converse fails for fields of white space only. */
  lemma LaxerThanEnhanced(st: FormState)
    ensures BriefFormEnhanced.IsFormValid(st.brief) ==> IsFormValid(st)
    ensures var spaces := FormState(Brief(" ", " ", " ", " ", ""), {});
            IsFormValid(spaces) && !BriefFormEnhanced.IsFormValid(spaces.brief)
  {
    BlankIffAllSpace("");
    if BriefFormEnhanced.IsFormValid(st.brief) {
      BriefFormEnhanced.ValidIffRequiredComplete(st.brief);
      assert BriefFormEnhanced.IsFieldComplete(st.brief, Topic);
      assert BriefFormEnhanced.IsFieldComplete(st.brief, Audience);
      assert BriefFormEnhanced.IsFieldComplete(st.brief, Objective);
      assert BriefFormEnhanced.IsFieldComplete(st.brief, Situation);
    }
    var spaces := Brief(" ", " ", " ", " ", "");
    BriefFormEnhanced.ValidIffRequiredComplete(spaces);
    BlankIffAllSpace(" ");
    assert !BriefFormEnhanced.IsFieldComplete(spaces, Topic);
  }

  function MarkedIn(completed: set<Field>): Field -> bool {
    (f: Field) => f in completed
  }

  /** The line under the bar. */
  function CountLine(n: nat): (line: string)
    ensures StripSuffix(" of 4 required fields completed", line) == Some(NatToString(n))
  {
    StripSuffixInverse(" of 4 required fields completed", NatToString(n));
    NatToString(n) + " of 4 required fields completed"
  }

  // As written, the form starts with no field marked, even when it opens
  // on a filled-in brief, and it counts every marked field, insights
  // included, against the four required ones.

  function StartAsWritten(initial: Option<Brief>): (st: FormState)
    ensures st.completed == {}
    ensures st.brief == InitialBrief(initial)
  {
    FormState(InitialBrief(initial), {})
  }

  function ProgressAsWritten(st: FormState): (percent: nat)
    ensures percent == 25 * |st.completed|
  {
    Percent(|st.completed|)
  }

  function CountLineAsWritten(st: FormState): (line: string)
    ensures StripSuffix(" of 4 required fields completed", line) == Some(NatToString(|st.completed|))
  {
    CountLine(|st.completed|)
  }

  /** After autofill the form reads "5 of 4 required fields completed" and
      the bar is 125% wide. */
  lemma AutofillOverfillsAsWritten(i: nat)
    requires i < TopicCount
    ensures |Autofill(i).completed| == 5
    ensures StripSuffix(" of 4 required fields completed", CountLineAsWritten(Autofill(i))) == Some("5")
    ensures ProgressAsWritten(Autofill(i)) == 125
  {
    FiveFields();
    assert NatToString(5) == "5";
  }

  /** Reopened on a brief with every required field filled in, the form
      shows an empty bar although it would submit. */
  lemma ReopenedShowsNothingAsWritten(b: Brief)
    requires BriefFormEnhanced.IsFormValid(b)
    ensures var st := StartAsWritten(Some(b));
            IsFormValid(st) && ProgressAsWritten(st) == 0 && !Tracks(st)
  {
    var st := StartAsWritten(Some(b));
    LaxerThanEnhanced(st);
    BriefFormEnhanced.ValidIffRequiredComplete(b);
    assert BriefFormEnhanced.IsFieldComplete(b, Topic);
  }

  // Corrected: the marks start from the brief, and only required fields
  // count.

  /** The fields of `b` that are not blank. */
  function CompleteFields(b: Brief): (fields: set<Field>)
    ensures forall f :: f in fields <==> !IsBlank(Get(b, f))
  {
    FiveFields();
    set f | f in AllFields && !IsBlank(Get(b, f))
  }

  function Start(initial: Option<Brief>): (st: FormState)
    ensures st.brief == InitialBrief(initial) && Tracks(st)
  {
    var b := InitialBrief(initial);
    FormState(b, CompleteFields(b))
  }

  /** The number of required fields marked complete. */
  function RequiredDone(st: FormState): (n: nat)
    ensures n <= |RequiredFields|
  {
    CountWhere(MarkedIn(st.completed), RequiredFields)
  }

  function Progress(st: FormState): (percent: nat)
    ensures percent <= 100
    ensures percent == 25 * RequiredDone(st)
  {
    Percent(RequiredDone(st))
  }

  function CountLineFixed(st: FormState): (line: string)
    ensures StripSuffix(" of 4 required fields completed", line) == Some(NatToString(RequiredDone(st)))
  {
    CountLine(RequiredDone(st))
  }

  /** While the marks track the brief, the corrected bar is the enhanced
      form's bar: the two forms report the same progress. */
  lemma TrackedProgressAgrees(st: FormState)
    requires Tracks(st)
    ensures Progress(st) == BriefFormEnhanced.Progress(st.brief)
    ensures Progress(st) == 100 <==> BriefFormEnhanced.IsFormValid(st.brief)
  {
    CountWhereAgrees(MarkedIn(st.completed), BriefFormEnhanced.CompleteIn(st.brief), RequiredFields);
  }

  /** Reopened on a brief with every required field filled in, the
      corrected form shows a full bar and would submit. */
  lemma ReopenedShowsProgress(b: Brief)
    requires BriefFormEnhanced.IsFormValid(b)
    ensures var st := Start(Some(b));
            IsFormValid(st) && Progress(st) == 100 && Tracks(st)
  {
    var st := Start(Some(b));
    LaxerThanEnhanced(st);
    TrackedProgressAgrees(st);
  }

  /** Autofill now reads "4 of 4" with a full bar. */
  lemma AutofillFillsTheBar(i: nat)
    requires i < TopicCount
    ensures RequiredDone(Autofill(i)) == 4 && Progress(Autofill(i)) == 100
  {
    AutofillTracks(i);
    TrackedProgressAgrees(Autofill(i));
    BriefFormEnhanced.AutofillIsValid(i);
  }
}

=== FILE: dashboard.dfy ===
/** The dashboard of saved presentations: the list as loaded, the
    favourites and search filters, deleting and (un)starring from the list,
    and the relative time stamps on the cards. */
module Dashboard {
  import opened Types
  import opened Seqs
  import opened Text
  import opened VersionStore

  datatype ListFilter = All | Favorites

  /** A message shown to the user after an action. */
  datatype Notice = Success(text: string) | Failure(text: string)

  /** The list after an action and the message it raised, if any. */
  datatype ListAfter = ListAfter(list: seq<PresentationRecord>, notice: Option<Notice>)

  function Favorite(p: PresentationRecord): bool {
    p.isFavorite
  }

  /** The search test against a lower-cased query: topic or audience
      contains it, ignoring case. */
  predicate MatchesLowered(p: PresentationRecord, lowered: string) {
    Contains(ToLower(p.topic), lowered) || Contains(ToLower(p.audience), lowered)
  }

  function Matches(query: string): PresentationRecord -> bool {
    (p: PresentationRecord) => MatchesLowered(p, ToLower(query))
  }

  /** Both of the list's tests at once: a favourite when that filter is on,
      and a search match when there is a query. */
  function Shown(filter: ListFilter, query: string): PresentationRecord -> bool {
    (p: PresentationRecord) =>
      (filter == Favorites ==> p.isFavorite) && (query == "" || MatchesLowered(p, ToLower(query)))
  }

  /** The cards shown: the loaded list, narrowed to favourites when that
      filter is on, then to the search matches when there is a query. The
      result is the loaded list's subsequence of the records passing both
      tests, in their loaded order and multiplicity. */
  function FilterPresentations(ps: seq<PresentationRecord>, filter: ListFilter, query: string)
    : (r: seq<PresentationRecord>)
    ensures r == Filter(Shown(filter, query), ps)
    ensures forall i :: 0 <= i < |r| ==>
              && r[i] in ps
              && (filter == Favorites ==> r[i].isFavorite)
              && (query != "" ==> MatchesLowered(r[i], ToLower(query)))
    ensures forall i :: (0 <= i < |ps| && (filter == Favorites ==> ps[i].isFavorite)
                         && (query == "" || MatchesLowered(ps[i], ToLower(query)))) ==> ps[i] in r
  {
    var byFilter := if filter == Favorites then Filter(Favorite, ps) else ps;
    var shown := Shown(filter, query);
    if query == "" then
      if filter == Favorites then FilterExt(Favorite, shown, ps); byFilter
      else FilterKeepsAll(shown, ps); byFilter
    else if filter == Favorites then
      FilterFuse(Matches(query), Favorite, shown, ps);
      Filter(Matches(query), byFilter)
    else
      FilterExt(Matches(query), shown, ps);
      Filter(Matches(query), byFilter)
  }

  /** The cards of two stretches of the loaded list are those of the first
      stretch followed by those of the second: the list keeps its order. */
  lemma CardsKeepLoadedOrder(ps: seq<PresentationRecord>, qs: seq<PresentationRecord>,
                             filter: ListFilter, query: string)
    ensures FilterPresentations(ps + qs, filter, query)
            == FilterPresentations(ps, filter, query) + FilterPresentations(qs, filter, query)
  {
    FilterConcat(Shown(filter, query), ps, qs);
  }

  /** With no filter and no query every loaded card shows, in order. */
  lemma ShowsEverythingByDefault(ps: seq<PresentationRecord>)
    ensures FilterPresentations(ps, All, "") == ps
  {
  }

  function NewerOrSame(a: PresentationRecord, b: PresentationRecord): bool {
    a.updatedAt >= b.updatedAt
  }

  /** Filtering keeps the newest-first order of the loaded list. */
  lemma FilterKeepsNewestFirst(ps: seq<PresentationRecord>, filter: ListFilter, query: string)
    requires Pairwise(NewerOrSame, ps)
    ensures Pairwise(NewerOrSame, FilterPresentations(ps, filter, query))
  {
    var byFilter := if filter == Favorites then Filter(Favorite, ps) else ps;
    if filter == Favorites {
      FilterKeepsPairwise(NewerOrSame, Favorite, ps);
    }
    if query != "" {
      FilterKeepsPairwise(NewerOrSame, Matches(query), byFilter);
    }
  }

  /** The list as loaded is newest first, so the dashboard is too. */
  lemma LoadedListIsNewestFirst(s: Store, userId: string, filter: ListFilter, query: string)
    ensures Pairwise(NewerOrSame, FilterPresentations(LoadAllPresentations(s, userId, true).value, filter, query))
  {
    var loaded := LoadAllPresentations(s, userId, true).value;
    assert Pairwise(NewerOrSame, loaded);
    FilterKeepsNewestFirst(loaded, filter, query);
  }

  /** The search ignores case: a query and its lower-cased form show the
      same cards. */
  lemma SearchIgnoresCase(ps: seq<PresentationRecord>, filter: ListFilter, query: string)
    ensures FilterPresentations(ps, filter, ToLower(query)) == FilterPresentations(ps, filter, query)
  {
    ToLowerIdempotent(query);
    assert ToLower(query) == "" <==> query == "";
    var byFilter := if filter == Favorites then Filter(Favorite, ps) else ps;
    FilterExt(Matches(ToLower(query)), Matches(query), byFilter);
  }

  /** Loading the list: the store's answer, or the previous list and an
      error message. */
  function LoadIntoList(previous: seq<PresentationRecord>, loaded: Outcome<seq<PresentationRecord>>): (r: ListAfter)
    ensures loaded.Ok? ==> r == ListAfter(loaded.value, None)
    ensures loaded.Err? ==> r == ListAfter(previous, Some(Failure("Failed to load presentations")))
  {
    match loaded
    case Ok(ps) => ListAfter(ps, None)
    case Err(_) => ListAfter(previous, Some(Failure("Failed to load presentations")))
  }

  /** Deleting from a card: nothing happens unless the user confirms; a
      failed delete leaves the list and reports; a successful one drops the
      card. */
  function DeleteFromList(ps: seq<PresentationRecord>, id: string, confirmed: bool, deleted: bool): (r: ListAfter)
    ensures !confirmed ==> r == ListAfter(ps, None)
    ensures confirmed && !deleted ==> r == ListAfter(ps, Some(Failure("Failed to delete presentation")))
    ensures confirmed && deleted ==> r.notice == Some(Success("Presentation deleted"))
    ensures confirmed && deleted ==>
              (forall i :: 0 <= i < |r.list| ==> r.list[i].id != id && r.list[i] in ps)
              && (forall i :: 0 <= i < |ps| && ps[i].id != id ==> ps[i] in r.list)
  {
    if !confirmed then ListAfter(ps, None)
    else if !deleted then ListAfter(ps, Some(Failure("Failed to delete presentation")))
    else ListAfter(Filter(LacksId(id), ps), Some(Success("Presentation deleted")))
  }

  /** After a confirmed delete the list is exactly what a reload of the
      store would show. */
  lemma DeleteMatchesReload(s: Store, userId: string, id: string, ok: bool)
    ensures var shown := LoadAllPresentations(s, userId, true).value;
            var after := DeletePresentation(s, id, ok);
            DeleteFromList(shown, id, true, ok).list == LoadAllPresentations(after.store, userId, true).value
  {
    if ok {
      var mine := Filter(OwnedBy(userId), s.presentations);
      SortFilterCommute(NewestFirst, LacksId(id), mine);
      FilterCommute(OwnedBy(userId), LacksId(id), s.presentations);
    }
  }

  /** Starring or unstarring from a card: the store is told the new state;
      on success the card flips, on failure nothing changes. */
  function ToggleInList(ps: seq<PresentationRecord>, id: string, currentState: bool, ok: bool): (r: ListAfter)
    ensures !ok ==> r == ListAfter(ps, Some(Failure("Failed to update favorite")))
    ensures ok ==> r.notice == Some(Success(if currentState then "Removed from favorites" else "Added to favorites"))
    ensures ok ==> |r.list| == |ps| && forall i :: 0 <= i < |ps| ==>
              r.list[i] == (if ps[i].id == id then ps[i].(isFavorite := !currentState) else ps[i])
  {
    if !ok then ListAfter(ps, Some(Failure("Failed to update favorite")))
    else ListAfter(Map(FavoriteIn(id, !currentState), ps),
                   Some(Success(if currentState then "Removed from favorites" else "Added to favorites")))
  }

  /** After a toggle the list is exactly what a reload of the store would
      show: order included, since starring does not touch the update time. */
  lemma ToggleMatchesReload(s: Store, userId: string, id: string, currentState: bool, ok: bool)
    ensures var shown := LoadAllPresentations(s, userId, true).value;
            var after := ToggleFavorite(s, id, !currentState, ok);
            ToggleInList(shown, id, currentState, ok).list == LoadAllPresentations(after.store, userId, true).value
  {
    if ok {
      var g := FavoriteIn(id, !currentState);
      var mine := Filter(OwnedBy(userId), s.presentations);
      assert forall x :: OwnedBy(userId)(g(x)) == OwnedBy(userId)(x);
      FilterMap(OwnedBy(userId), g, s.presentations);
      assert Filter(OwnedBy(userId), Map(g, s.presentations)) == Map(g, mine);
      assert forall x :: NewestFirst(g(x)) == NewestFirst(x);
      SortMapCommute(NewestFirst, g, mine);
      assert SortBy(NewestFirst, Map(g, mine)) == Map(g, SortBy(NewestFirst, mine));
    }
  }

  /** A starred card shows under the favourites filter; an unstarred one
      does not. */
  lemma ToggleShowsInFavorites(ps: seq<PresentationRecord>, k: int, currentState: bool)
    requires 0 <= k < |ps|
    ensures var after := ToggleInList(ps, ps[k].id, currentState, true).list;
            (after[k] in FilterPresentations(after, Favorites, "")) <==> !currentState
  {
    var after := ToggleInList(ps, ps[k].id, currentState, true).list;
    assert after[k].isFavorite == !currentState;
  }

  const HourMs: int := 3600000
  const DayMs: int := 24 * HourMs

  /** How long ago a card was updated, as the card words it. */
  datatype Age = HoursAgo(hours: int) | DaysAgo(days: int) | OnDate

  /** The age of an update `diffMs` milliseconds ago: whole hours under a
      day, whole days under a week, otherwise the calendar date. Whole units
      round down (a time stamp in the future gives negative hours). */
  function AgeOf(diffMs: int): (a: Age)
    ensures a.HoursAgo? <==> diffMs < 24 * HourMs
    ensures a.HoursAgo? ==> a.hours * HourMs <= diffMs < (a.hours + 1) * HourMs && a.hours < 24
    ensures a.HoursAgo? && diffMs >= 0 ==> 0 <= a.hours
    ensures a.DaysAgo? <==> 24 * HourMs <= diffMs < 168 * HourMs
    ensures a.DaysAgo? ==> 1 <= a.days <= 6 && a.days * DayMs <= diffMs < (a.days + 1) * DayMs
    ensures a.OnDate? <==> diffMs >= 168 * HourMs
  {
    if diffMs < 24 * HourMs then HoursAgo(diffMs / HourMs)
    else if diffMs < 168 * HourMs then DaysAgo(diffMs / DayMs)
    else OnDate
  }

  /** The card's time stamp: "5h ago", "3d ago", or the locale's short date
      (passed in, as the locale formatting is not modelled). */
  function FormatDate(thenMs: int, nowMs: int, localeDate: string): (shown: string)
    ensures nowMs - thenMs >= 168 * HourMs ==> shown == localeDate
    ensures nowMs - thenMs < 168 * HourMs ==> StripSuffix(" ago", shown).Some?
  {
    match AgeOf(nowMs - thenMs)
    case HoursAgo(h) =>
      assert IntToString(h) + "h ago" == (IntToString(h) + "h") + " ago";
      StripSuffixInverse(" ago", IntToString(h) + "h");
      IntToString(h) + "h ago"
    case DaysAgo(d) =>
      assert IntToString(d) + "d ago" == (IntToString(d) + "d") + " ago";
      StripSuffixInverse(" ago", IntToString(d) + "d");
      IntToString(d) + "d ago"
    case OnDate => localeDate
  }

  /** A card updated a day to a week ago reads "Nd ago" with N its whole
      days, the number readable back from the label. */
  lemma FormatDateNamesDays(thenMs: int, nowMs: int, localeDate: string)
    requires 24 * HourMs <= nowMs - thenMs < 168 * HourMs
    ensures var days := (nowMs - thenMs) / DayMs;
            && 1 <= days <= 6
            && StripSuffix("d ago", FormatDate(thenMs, nowMs, localeDate)) == Some(NatToString(days))
  {
    var days := (nowMs - thenMs) / DayMs;
    StripSuffixInverse("d ago", NatToString(days));
  }

  /** A card updated within the last day reads "Nh ago" with N its whole
      hours. */
  lemma FormatDateNamesHours(thenMs: int, nowMs: int, localeDate: string)
    requires 0 <= nowMs - thenMs < 24 * HourMs
    ensures var hours := (nowMs - thenMs) / HourMs;
            && 0 <= hours < 24
            && StripSuffix("h ago", FormatDate(thenMs, nowMs, localeDate)) == Some(NatToString(hours))
  {
    var hours := (nowMs - thenMs) / HourMs;
    StripSuffixInverse("h ago", NatToString(hours));
  }
}

=== FILE: deck_editor.dfy ===
/** The deck editor: which slide is selected, replacing an edited slide, and
    the version picker's entries. */
module DeckEditor {
  import opened Types
  import opened Seqs
  import opened Text

  function HasSlideId(id: string): Slide -> bool {
    (s: Slide) => s.id == id
  }

  /** Some slide of `slides` has the id `id`. */
  predicate HasSlide(slides: seq<Slide>, id: string) {
    exists i :: 0 <= i < |slides| && slides[i].id == id
  }

  /** The effect that keeps the selection pointing at a slide: a selection
      matching no slide moves to the first slide; an empty deck leaves it. */
  function SyncActiveSlide(deck: Deck, activeId: string): (r: string)
    ensures |deck.slides| == 0 ==> r == activeId
    ensures HasSlide(deck.slides, activeId) ==> r == activeId
    ensures |deck.slides| > 0 && !HasSlide(deck.slides, activeId) ==> r == deck.slides[0].id
    ensures |deck.slides| > 0 ==> HasSlide(deck.slides, r)
  {
    if |deck.slides| == 0 then activeId
    else if HasSlide(deck.slides, activeId) then activeId
    else deck.slides[0].id
  }

  /** Once synchronised the selection is stable: running the effect again
      changes nothing. */
  lemma SyncIsStable(deck: Deck, activeId: string)
    ensures SyncActiveSlide(deck, SyncActiveSlide(deck, activeId)) == SyncActiveSlide(deck, activeId)
  {
  }

  /** The slide shown and edited: the first slide with the selected id,
      otherwise the first slide, and nothing for an empty deck. */
  function ActiveSlide(deck: Deck, activeId: string): (r: Option<Slide>)
    ensures r.None? <==> |deck.slides| == 0
    ensures r.Some? ==> r.value in deck.slides
    ensures r.Some? && HasSlide(deck.slides, activeId) ==> r.value.id == activeId
    ensures r.Some? && !HasSlide(deck.slides, activeId) ==> r.value == deck.slides[0]
    ensures r.Some? && HasSlide(deck.slides, activeId) ==>
              exists k :: 0 <= k < |deck.slides| && deck.slides[k] == r.value &&
                forall j :: 0 <= j < k ==> deck.slides[j].id != activeId
  {
    var matching := Filter(HasSlideId(activeId), deck.slides);
    if |matching| > 0 then FirstKept(HasSlideId(activeId), deck.slides); Some(matching[0])
    else if |deck.slides| > 0 then Some(deck.slides[0])
    else None
  }

  /** Replaces every slide carrying the edited slide's id; the number and
      order of slides and the deck's other fields stay. */
  function UpdateSlide(deck: Deck, edited: Slide): (r: Deck)
    ensures r.(slides := deck.slides) == deck
    ensures |r.slides| == |deck.slides|
    ensures forall i :: 0 <= i < |deck.slides| ==>
              r.slides[i] == (if deck.slides[i].id == edited.id then edited else deck.slides[i])
  {
    deck.(slides := Map((s: Slide) => if s.id == edited.id then edited else s, deck.slides))
  }

  /** After an edit of the selected slide, the editor shows the edit, and
      the selection does not move. */
  lemma {:induction false} EditedSlideIsShown(deck: Deck, edited: Slide)
    requires HasSlide(deck.slides, edited.id)
    ensures ActiveSlide(UpdateSlide(deck, edited), edited.id) == Some(edited)
    ensures SyncActiveSlide(UpdateSlide(deck, edited), edited.id) == edited.id
  {
    var r := UpdateSlide(deck, edited);
    var k :| 0 <= k < |deck.slides| && deck.slides[k].id == edited.id;
    assert r.slides[k] == edited;
    var matching := Filter(HasSlideId(edited.id), r.slides);
    assert r.slides[k] in matching;
    assert matching[0] in r.slides && matching[0].id == edited.id;
    var j :| 0 <= j < |r.slides| && r.slides[j] == matching[0];
    assert r.slides[j] == edited;
  }

  /** An entry of the version picker. */
  datatype VersionOption = VersionOption(key: string, value: string, text: string)

  /** "Version n" for the deck in position n - 1. */
  function VersionLabel(position: nat): (text: string)
  {
    "Version " + NatToString(position + 1)
  }

  /** One entry per stored version, in order, keyed and valued by its id,
      labelled by its position. */
  function VersionOptions(versions: seq<Deck>): (r: seq<VersionOption>)
    ensures |r| == |versions|
    ensures forall i :: 0 <= i < |r| ==>
              r[i].key == versions[i].id && r[i].value == versions[i].id && r[i].text == VersionLabel(i)
  {
    seq(|versions|, i requires 0 <= i < |versions| => VersionOption(versions[i].id, versions[i].id, VersionLabel(i)))
  }

  /** Different positions get different labels, so every entry of the
      picker reads differently even when two versions have equal content. */
  lemma LabelsDistinct(versions: seq<Deck>, i: int, j: int)
    requires 0 <= i < |versions| && 0 <= j < |versions| && i != j
    ensures VersionOptions(versions)[i].text != VersionOptions(versions)[j].text
  {
    var prefix := "Version ";
    if VersionLabel(i) == VersionLabel(j) {
      StripPrefixInverse(prefix, NatToString(i + 1));
      StripPrefixInverse(prefix, NatToString(j + 1));
      NatToStringInjective(i + 1, j + 1);
    }
  }
}

=== FILE: export_layout.dfy ===
/** The PowerPoint export as a layout plan: the presentation properties, the
    dark master, one planned slide per deck slide with the elements placed on
    it, and the download file name. Positions, fonts and sizes are fixed
    styling and are not part of the plan. */
module ExportLayout {
  import opened Types
  import opened Text

  const Layout: string := "LAYOUT_16x9"
  const MasterName: string := "MASTER_DARK"
  const SubjectPrefix: string := "Presentation for "
  const FilePrefix: string := "SlideSmith - "
  const FileSuffix: string := ".pptx"
  const CaptionPrefix: string := "Photo by "
  const CaptionSuffix: string := " on Unsplash"

  /** The master every slide is placed on: a background colour and the
      colour of the accent bar across the top. */
  datatype Master = Master(name: string, background: string, accentBar: string)

  const DarkMaster: Master := Master(MasterName, "0F111A", "38BDF8")

  datatype Element =
    | TitleText(text: string)
    | BulletList(paragraphs: seq<string>)
    | Picture(path: string)
    | Caption(text: string)

  datatype SlidePlan = SlidePlan(master: string, elements: seq<Element>, notes: Option<string>)

  datatype Plan = Plan(layout: string, title: string, subject: string, master: Master,
                       slides: seq<SlidePlan>, fileName: string)

  /** The image a slide shows: its URL when present and non-empty. */
  function ShownImage(s: Slide): (r: Option<string>)
    ensures r.Some? <==> s.imageUrl.Some? && s.imageUrl.value != ""
    ensures r.Some? ==> r == s.imageUrl
  {
    if s.imageUrl.Some? && s.imageUrl.value != "" then s.imageUrl else None
  }

  function CaptionText(photographer: string): (text: string)
  {
    CaptionPrefix + photographer + CaptionSuffix
  }

  /** The photographer named by a caption. */
  function PhotographerOf(caption: string): (r: Option<string>)
  {
    match StripPrefix(CaptionPrefix, caption)
    case None => None
    case Some(rest) => StripSuffix(CaptionSuffix, rest)
  }

  /** A caption names the photographer it was made for. */
  lemma CaptionNamesPhotographer(photographer: string)
    ensures PhotographerOf(CaptionText(photographer)) == Some(photographer)
  {
    assert CaptionText(photographer) == CaptionPrefix + (photographer + CaptionSuffix);
    StripPrefixInverse(CaptionPrefix, photographer + CaptionSuffix);
    StripSuffixInverse(CaptionSuffix, photographer);
  }

  /** The first picture placed on a slide, if any. */
  function PictureOf(es: seq<Element>): (r: Option<string>)
    ensures r.Some? <==> exists i :: 0 <= i < |es| && es[i].Picture?
    ensures r.Some? ==> exists i :: 0 <= i < |es| && es[i] == Picture(r.value)
    decreases |es|
  {
    if |es| == 0 then None
    else if es[0].Picture? then Some(es[0].path)
    else
      var rest := PictureOf(es[1..]);
      assert forall i :: 1 <= i < |es| ==> es[i] == es[1..][i - 1];
      rest
  }

  /** The first caption placed on a slide, if any. */
  function CaptionOf(es: seq<Element>): (r: Option<string>)
    ensures r.Some? <==> exists i :: 0 <= i < |es| && es[i].Caption?
    ensures r.Some? ==> exists i :: 0 <= i < |es| && es[i] == Caption(r.value)
    decreases |es|
  {
    if |es| == 0 then None
    else if es[0].Caption? then Some(es[0].text)
    else
      var rest := CaptionOf(es[1..]);
      assert forall i :: 1 <= i < |es| ==> es[i] == es[1..][i - 1];
      rest
  }

  /** One slide on the dark master: its title, one paragraph per bullet, the
      picture when there is an image, the photo credit when there is an
      image with an attribution, and the notes when they are non-empty. */
  function PlanSlide(s: Slide): (p: SlidePlan)
    ensures p.master == MasterName
    ensures |p.elements| >= 2
    ensures p.elements[0] == TitleText(s.title) && p.elements[1] == BulletList(s.bullets)
    ensures p.notes.Some? <==> s.notes != ""
    ensures p.notes.Some? ==> p.notes.value == s.notes
    ensures PictureOf(p.elements) == ShownImage(s)
    ensures CaptionOf(p.elements).Some? <==> ShownImage(s).Some? && s.imageAttribution.Some?
    ensures CaptionOf(p.elements).Some? ==>
              CaptionOf(p.elements).value == CaptionText(s.imageAttribution.value.photographerName)
    ensures |p.elements| == 2 + (if ShownImage(s).Some? then 1 else 0)
                              + (if ShownImage(s).Some? && s.imageAttribution.Some? then 1 else 0)
    ensures ShownImage(s).Some? ==> p.elements[2] == Picture(ShownImage(s).value)
    ensures ShownImage(s).Some? && s.imageAttribution.Some? ==>
              p.elements[3] == Caption(CaptionText(s.imageAttribution.value.photographerName))
  {
    var text := [TitleText(s.title), BulletList(s.bullets)];
    var credit :=
      match s.imageAttribution
      case None => []
      case Some(a) => [Caption(CaptionText(a.photographerName))];
    var image :=
      match ShownImage(s)
      case None => []
      case Some(url) => [Picture(url)] + credit;
    var es := text + image;
    assert es[0] == TitleText(s.title) && es[1] == BulletList(s.bullets);
    assert es[1..][0] == BulletList(s.bullets);
    assert es[2..] == image;
    assert PictureOf(es) == PictureOf(es[1..]) == PictureOf(image);
    assert CaptionOf(es) == CaptionOf(es[1..]) == CaptionOf(image);
    assert image != [] ==> image[1..] == credit && CaptionOf(image) == CaptionOf(credit);
    SlidePlan(MasterName, es, NonEmpty(s.notes))
  }

  function FileName(topic: string): (name: string)
  {
    FilePrefix + topic + FileSuffix
  }

  /** The topic a download's file name was made from. */
  function TopicOf(fileName: string): (r: Option<string>)
  {
    match StripPrefix(FilePrefix, fileName)
    case None => None
    case Some(rest) => StripSuffix(FileSuffix, rest)
  }

  /** The file name gives its topic back, so decks with different topics
      download under different names. */
  lemma FileNameNamesTopic(topic: string)
    ensures TopicOf(FileName(topic)) == Some(topic)
  {
    assert FileName(topic) == FilePrefix + (topic + FileSuffix);
    StripPrefixInverse(FilePrefix, topic + FileSuffix);
    StripSuffixInverse(FileSuffix, topic);
  }

  /** The whole export of a deck. */
  function ExportDeck(deck: Deck): (p: Plan)
    ensures p.layout == Layout && p.master == DarkMaster
    ensures p.title == deck.topic && p.subject == SubjectPrefix + deck.audience
    ensures |p.slides| == |deck.slides|
    ensures forall i :: 0 <= i < |deck.slides| ==> p.slides[i] == PlanSlide(deck.slides[i])
    ensures p.fileName == FileName(deck.topic)
  {
    Plan(Layout, deck.topic, SubjectPrefix + deck.audience, DarkMaster,
         seq(|deck.slides|, i requires 0 <= i < |deck.slides| => PlanSlide(deck.slides[i])),
         FileName(deck.topic))
  }

  /** What a reader of the file sees of a slide. */
  datatype SlideView = SlideView(title: string, bullets: seq<string>, image: Option<string>,
                                 credit: Option<string>, notes: Option<string>)

  /** Reads a planned slide back. */
  function Read(p: SlidePlan): (v: SlideView)
  {
    var title := if |p.elements| > 0 && p.elements[0].TitleText? then p.elements[0].text else "";
    var bullets := if |p.elements| > 1 && p.elements[1].BulletList? then p.elements[1].paragraphs else [];
    var credit := match CaptionOf(p.elements)
                  case None => None
                  case Some(c) => PhotographerOf(c);
    SlideView(title, bullets, PictureOf(p.elements), credit, p.notes)
  }

  /** The content of a slide as the export is meant to carry it. */
  function ViewOf(s: Slide): (v: SlideView)
  {
    var credit := if ShownImage(s).Some? && s.imageAttribution.Some?
                  then Some(s.imageAttribution.value.photographerName) else None;
    SlideView(s.title, s.bullets, ShownImage(s), credit, NonEmpty(s.notes))
  }

  /** Reading an exported slide gives back its title, bullets (text and
      order unchanged), shown image, photo credit and non-empty notes. */
  lemma ExportIsReadable(deck: Deck, i: int)
    requires 0 <= i < |deck.slides|
    ensures Read(ExportDeck(deck).slides[i]) == ViewOf(deck.slides[i])
  {
    var s := deck.slides[i];
    var p := PlanSlide(s);
    if CaptionOf(p.elements).Some? {
      CaptionNamesPhotographer(s.imageAttribution.value.photographerName);
    }
  }

  /** The plan of a slide depends only on what the export shows: neither the
      slide id nor the image keyword, nor the credit links, matter. */
  lemma PlanIgnoresHiddenFields(s: Slide, id: string, keyword: string)
    ensures PlanSlide(s) == PlanSlide(s.(id := id, imageKeyword := keyword))
    ensures s.imageAttribution.Some? ==>
              forall url1, url2 :: PlanSlide(s) == PlanSlide(s.(imageAttribution :=
                Some(Attribution(s.imageAttribution.value.photographerName, url1, url2))))
  {
  }
}

=== FILE: generate_presentation.dfy ===
/** The server function that generates a deck: it checks its keys, asks the
    chat model for five slide drafts, looks up one stock photo per slide and
    answers with the assembled deck or a status-500 error. */
module GeneratePresentation {
  import opened Types
  import opened Seqs
  import opened Text
  import opened Upstream

  const DefaultError: string := "Failed to generate presentation"
  const MissingKey: string := "OpenAI API key is not configured"
  const NotProvided: string := "Not provided"
  /** The referral parameters this function appends to credit links. */
  const Referral: string := "?utm_source=your_app_name&utm_medium=referral"

  /** The photo lookup for one slide. Every failure (no key, a non-OK
      status, no results, an exception) is swallowed as "no image". */
  function FetchImage(unsplashKey: string, reply: SearchReply): (r: Option<ImageData>)
    ensures r.Some? <==> Configured(unsplashKey) && Found(reply)
    ensures r.Some? ==> r.value.url == reply.results[0].regularUrl
    ensures r.Some? ==> r.value.attribution.photographerName == reply.results[0].userName
    ensures r.Some? ==> StripSuffix(Referral, r.value.attribution.photographerUrl) == Some(reply.results[0].userPage)
    ensures r.Some? ==> StripSuffix(Referral, r.value.attribution.unsplashUrl) == Some(reply.results[0].photoPage)
  {
    if !Configured(unsplashKey) then None
    else match reply
      case SearchFailed(_) => None
      case Answered(status, results) =>
        if !IsOk(status) || |results| == 0 then None
        else Some(ImageData(results[0].regularUrl, AttributionOf(results[0], Referral)))
  }

  /** The brief as the prompt lists it, one line per field; missing insights
      read "Not provided". */
  function BriefLines(b: Brief): (lines: seq<string>)
    ensures |lines| == 5
  {
    [ "Topic: " + b.topic,
      "Audience: " + b.audience,
      "Objective: " + b.objective,
      "Current Situation: " + b.situation,
      "Key Insights: " + Or(b.insights, NotProvided) ]
  }

  /** The brief part of the prompt; for a single-line brief its lines are
      the brief's lines, one per field. */
  function BriefSection(b: Brief): (text: string)
    ensures SingleLine(b) ==> Split(text, '\n') == BriefLines(b)
  {
    var lines := BriefLines(b);
    assert SingleLine(b) ==> forall i :: 0 <= i < |lines| ==> '\n' !in lines[i];
    if SingleLine(b) then SplitJoin(lines, '\n'); Join(lines, '\n')
    else Join(lines, '\n')
  }

  /** A brief the prompt can carry line by line: no field spans two lines. */
  predicate SingleLine(b: Brief) {
    && '\n' !in b.topic && '\n' !in b.audience && '\n' !in b.objective
    && '\n' !in b.situation && '\n' !in b.insights
  }

  /** Reads the brief back from the prompt's brief section. */
  function ReadBriefSection(text: string): (r: Option<Brief>)
  {
    var lines := Split(text, '\n');
    if |lines| != 5 then None
    else
      match (StripPrefix("Topic: ", lines[0]), StripPrefix("Audience: ", lines[1]),
             StripPrefix("Objective: ", lines[2]), StripPrefix("Current Situation: ", lines[3]),
             StripPrefix("Key Insights: ", lines[4]))
      case (Some(t), Some(a), Some(o), Some(s), Some(i)) => Some(Brief(t, a, o, s, i))
      case _ => None
  }

  /** The prompt carries every field of a single-line brief, the insights
      replaced by "Not provided" when empty: the model is told the whole
      brief and nothing else. */
  lemma PromptCarriesBrief(b: Brief)
    requires SingleLine(b)
    ensures ReadBriefSection(BriefSection(b)) == Some(b.(insights := Or(b.insights, NotProvided)))
  {
    var lines := BriefLines(b);
    assert forall i :: 0 <= i < |lines| ==> '\n' !in lines[i];
    SplitJoin(lines, '\n');
    StripPrefixInverse("Topic: ", b.topic);
    StripPrefixInverse("Audience: ", b.audience);
    StripPrefixInverse("Objective: ", b.objective);
    StripPrefixInverse("Current Situation: ", b.situation);
    StripPrefixInverse("Key Insights: ", Or(b.insights, NotProvided));
  }

  /** One slide of the answer: the draft as written, a fresh id, the photo
      URL unless empty, and the credits whenever a photo was found. */
  function AssembleSlide(d: Draft, image: Option<ImageData>, id: string): (s: Slide)
    ensures DraftOf(s) == d && s.id == id
    ensures s.imageAttribution.Some? <==> image.Some?
    ensures s.imageAttribution.Some? ==> s.imageAttribution.value == image.value.attribution
    ensures s.imageUrl.Some? <==> image.Some? && image.value.url != ""
    ensures s.imageUrl.Some? ==> s.imageUrl.value == image.value.url
  {
    Slide(id, d.title, d.bullets, d.notes, d.imageKeyword,
          if image.Some? then NonEmpty(image.value.url) else None,
          if image.Some? then Some(image.value.attribution) else None)
  }

  /** The slides of the answer, in the order of the drafts; the lookups for
      the slides are independent, `replyFor(i)` being the search for slide i
      and `idFor(i)` its fresh id. */
  function Slides(drafts: seq<Draft>, unsplashKey: string, replyFor: nat -> SearchReply,
                  idFor: nat -> string): (slides: seq<Slide>)
    ensures |slides| == |drafts|
    ensures forall i :: 0 <= i < |drafts| ==>
              slides[i] == AssembleSlide(drafts[i], FetchImage(unsplashKey, replyFor(i)), idFor(i))
  {
    seq(|drafts|, i requires 0 <= i < |drafts| =>
          AssembleSlide(drafts[i], FetchImage(unsplashKey, replyFor(i)), idFor(i)))
  }

  /** The deck built from the brief and the drafts. */
  function AssembleDeck(b: Brief, drafts: seq<Draft>, unsplashKey: string, replyFor: nat -> SearchReply,
                        idFor: nat -> string, deckId: string, now: string): (d: Deck)
    ensures d.id == deckId && d.topic == b.topic && d.audience == b.audience && d.createdAt == now
    ensures d.slides == Slides(drafts, unsplashKey, replyFor, idFor)
  {
    Deck(deckId, b.topic, b.audience, Slides(drafts, unsplashKey, replyFor, idFor), now)
  }

  /** The function's answer to one request. The chat reply is the model's
      answer to the prompt built from the request's brief. */
  function Handle(httpMethod: string, openaiKey: string, unsplashKey: string, request: RequestBody<Brief>,
                  chat: ChatReply<seq<Draft>>, replyFor: nat -> SearchReply, idFor: nat -> string,
                  deckId: string, now: string): (r: Response<Deck>)
    ensures IsPreflight(httpMethod) ==> r == PreflightResponse()
    ensures !IsPreflight(httpMethod) ==> (r.status == 200 <==> r.body.Payload?)
    ensures !IsPreflight(httpMethod) ==> (r.status == 500 <==> r.body.ErrorBody?)
    ensures !IsPreflight(httpMethod) && !Configured(openaiKey) ==> r == ServerError(MissingKey)
    ensures r.body.Payload? <==>
              !IsPreflight(httpMethod) && Configured(openaiKey) && request.Parsed? && chat.Completed?
    ensures r.body.Payload? ==>
              r.body.value == AssembleDeck(request.value, chat.content, unsplashKey, replyFor, idFor, deckId, now)
    ensures r.body.ErrorBody? && chat.Refused? && request.Parsed? && Configured(openaiKey) ==>
              r.body.error == Or(chat.errorMessage, DefaultError)
  {
    if IsPreflight(httpMethod) then PreflightResponse()
    else if !Configured(openaiKey) then ServerError(MissingKey)
    else match request
      case Malformed(message) => ServerError(message)
      case Parsed(b) =>
        match chat
        case Refused(message) => ServerError(Or(message, DefaultError))
        case ChatFailed(message) => ServerError(message)
        case Completed(drafts) =>
          Response(200, Payload(AssembleDeck(b, drafts, unsplashKey, replyFor, idFor, deckId, now)))
  }

  /** The model's drafts reach the client unchanged and in order: the deck
      adds ids and images but rewrites no text. */
  lemma DraftsArriveUnchanged(b: Brief, drafts: seq<Draft>, unsplashKey: string, replyFor: nat -> SearchReply,
                              idFor: nat -> string, deckId: string, now: string)
    ensures Map(DraftOf, AssembleDeck(b, drafts, unsplashKey, replyFor, idFor, deckId, now).slides) == drafts
  {
  }

  /** Without a photo key the deck still generates, with no images and no
      credits anywhere. */
  lemma NoPhotoKeyNoImages(b: Brief, drafts: seq<Draft>, replyFor: nat -> SearchReply,
                           idFor: nat -> string, deckId: string, now: string, i: int)
    requires 0 <= i < |drafts|
    ensures AssembleDeck(b, drafts, "", replyFor, idFor, deckId, now).slides[i].imageUrl.None?
    ensures AssembleDeck(b, drafts, "", replyFor, idFor, deckId, now).slides[i].imageAttribution.None?
  {
  }

  /** A failed lookup affects only its own slide: the slide keeps its text,
      and the other slides are exactly what they would otherwise be. */
  lemma LookupsAreIndependent(drafts: seq<Draft>, unsplashKey: string, replyFor: nat -> SearchReply,
                              idFor: nat -> string, k: nat, failure: SearchReply)
    requires !Found(failure)
    ensures var other := (i: nat) => if i == k then failure else replyFor(i);
            var slides := Slides(drafts, unsplashKey, other, idFor);
            && (forall i :: 0 <= i < |drafts| && i != k ==> slides[i] == Slides(drafts, unsplashKey, replyFor, idFor)[i])
            && (k < |drafts| ==> DraftOf(slides[k]) == drafts[k] && slides[k].imageUrl.None? && slides[k].imageAttribution.None?)
  {
  }

  /** A found photo whose URL is empty still leaves its credits on the
      slide, with no image to credit. */
  lemma CreditWithoutImage(d: Draft, p: Photo, id: string, unsplashKey: string)
    requires Configured(unsplashKey) && p.regularUrl == ""
    ensures var s := AssembleSlide(d, FetchImage(unsplashKey, Answered(200, [p])), id);
            s.imageUrl.None? && s.imageAttribution.Some?
  {
  }
}

=== FILE: loading_state.dfy ===
/** The screen shown while a deck is generated: a caption and a bar that
    step forward on a timer and stop at the last step. */
module LoadingState {
  import opened Text

  const Captions: seq<string> := [
    "Analyzing brief...",
    "Structuring executive narrative...",
    "Drafting slide content...",
    "Selecting high-impact visuals...",
    "Polishing final layout..."
  ]

  const LastIndex: nat := |Captions| - 1

  /** The screen opens on the first step. */
  const Start: nat := 0

  /** One timer tick: the next step, or the same one on the last. */
  function Tick(index: nat): (next: nat)
    ensures index <= LastIndex ==> next <= LastIndex
    ensures next == index || next == index + 1
    ensures next == index <==> index >= LastIndex
  {
    if index < LastIndex then index + 1 else index
  }

  function Min(a: nat, b: nat): nat {
    if a <= b then a else b
  }

  /** The step after `ticks` ticks from the start. */
  function After(ticks: nat): (index: nat)
    ensures index <= LastIndex
  {
    if ticks == 0 then Start else Tick(After(ticks - 1))
  }

  /** The step climbs one per tick and then stays on the last one. */
  lemma {:induction false} AfterSaturates(ticks: nat)
    ensures After(ticks) == Min(ticks, LastIndex)
  {
    if ticks > 0 {
      AfterSaturates(ticks - 1);
    }
  }

  /** Ticking the screen `ticks` times, one timer period after another. */
  method Run(ticks: nat) returns (index: nat)
    ensures index == Min(ticks, LastIndex)
    ensures index == After(ticks)
  {
    index := Start;
    var k := 0;
    while k < ticks
      invariant k <= ticks
      invariant index == Min(k, LastIndex)
      invariant index == After(k)
    {
      index := Tick(index);
      k := k + 1;
    }
  }

  /** The bar: `(index + 1) / 5 * 100`, exact for these steps. */
  function Progress(index: nat): (percent: nat)
    ensures percent * |Captions| == (index + 1) * 100
    ensures index <= LastIndex ==> 20 <= percent <= 100
    ensures percent == 100 <==> index == LastIndex
  {
    assert (index + 1) * 100 == (20 * (index + 1)) * |Captions|;
    (index + 1) * 100 / |Captions|
  }

  /** The caption over the bar. */
  function Caption(index: nat): (caption: string)
    requires index <= LastIndex
    ensures caption in Captions
  {
    Captions[index]
  }

  /** The counter under the bar. */
  function Counter(index: nat): (shown: string)
  {
    StepOf(index, |Captions|)
  }

  /** Each tick before the last step moves the bar on by a fifth and
      changes the counter; after it nothing moves. */
  lemma TickMovesTheBar(index: nat)
    requires index <= LastIndex
    ensures index < LastIndex ==> Progress(Tick(index)) == Progress(index) + 20
    ensures index < LastIndex ==> Counter(Tick(index)) != Counter(index)
    ensures index == LastIndex ==> Progress(Tick(index)) == 100
  {
    if index < LastIndex && Counter(Tick(index)) == Counter(index) {
      StepOfNamesStep(Tick(index), index, |Captions|);
    }
  }
}

=== FILE: mock_ai.dfy ===
/** The offline generator the application uses: a fixed five-slide deck
    with the brief's fields filled in and a fixed stock image per slide. */
module MockAI {
  import opened Types
  import opened Upstream
  import OpenAIClient

  /** The stock images' addresses share their host and query options. */
  function Unsplash(photo: string, ixid: string): (url: string)
    ensures url != ""
  {
    "https://images.unsplash.com/photo-" + photo + "?crop=entropy&cs=tinysrgb&fit=max&fm=jpg&ixid=" + ixid + "&ixlib=rb-4.1.0&q=80&w=1080&utm_source=figma&utm_medium=referral"
  }

  const MockImages: seq<string> := [
    Unsplash("1670383050616-682df7d57b22", "M3w3Nzg4Nzd8MHwxfHNlYXJjaHwxfHxidXNpbmVzcyUyMG1lZXRpbmclMjBzdHJhdGVneSUyMGRhcmslMjBtb2Rlcm58ZW58MXx8fHwxNzY1NzkxOTEzfDA"),
    Unsplash("1744782211816-c5224434614f", "M3w3Nzg4Nzd8MHwxfHNlYXJjaHwxfHxkYXRhJTIwYW5hbHlzaXMlMjBjaGFydCUyMGRpZ2l0YWwlMjBzY3JlZW58ZW58MXx8fHwxNzY1NzkxOTEyfDA"),
    Unsplash("1758520144667-3041caeff3c1", "M3w3Nzg4Nzd8MHwxfHNlYXJjaHwxfHxleGVjdXRpdmUlMjB0ZWFtJTIwcHJvZmVzc2lvbmFsJTIwZGFya3xlbnwxfHx8fDE3NjU3OTE5MTJ8MA"),
    Unsplash("1634547487344-c3aa2e1aacdf", "M3w3Nzg4Nzd8MHwxfHNlYXJjaHwxfHxtb2Rlcm4lMjBvZmZpY2UlMjBhcmNoaXRlY3R1cmUlMjBza3lzY3JhcGVyfGVufDF8fHx8MTc2NTc5MTkxM3ww"),
    Unsplash("1745847768380-2caeadbb3b71", "M3w3Nzg4Nzd8MHwxfHNlYXJjaHwxfHxidXNpbmVzcyUyMHBhcnRuZXJzaGlwJTIwaGFuZHNoYWtlJTIwY2xvc2UlMjB1cHxlbnwxfHx8fDE3NjU3OTE5MTJ8MA")
  ]

  const DefaultInsight: string := "Core operational inefficiencies identified"

  /** The opening slide: the topic in the title, the audience and the
      situation in the bullets. */
  function Opening(b: Brief): (d: Draft)
    ensures |d.bullets| == 4
  {
    Draft("Executive Summary: " + b.topic,
          [ "Strategic alignment with " + b.audience + " needs",
            "Comprehensive overview of market position",
            "Key driver: " + b.situation,
            "Immediate action items and roadmap" ],
          "Opening slide to set the stage. Emphasize the urgency of the situation and the clear path forward.",
          "strategy")
  }

  /** The situation slide, led by the brief's situation. */
  function Situation(b: Brief): (d: Draft)
    ensures |d.bullets| == 4
  {
    Draft("Current Market Situation",
          [ b.situation,
            "Identified gaps in current operational workflow",
            "Competitor analysis reveals opportunity window",
            "Data trends indicate upward trajectory if addressed" ],
          "Focus on the 'why now'. Use the provided situation details to ground the problem in reality.",
          "data")
  }

  /** The insights slide, led by the brief's insights or a stock line. */
  function Insights(b: Brief): (d: Draft)
    ensures |d.bullets| == 4
  {
    Draft("Key Insights & Analysis",
          [ Or(b.insights, DefaultInsight),
            "Customer feedback points to specific pain points",
            "Resource allocation requires optimization",
            "Technology leverage is currently underutilized" ],
          "Highlight the 2-3 major findings. Don't overwhelm, just hit the heavy hitters.",
          "analysis")
  }

  /** The recommendations slide, led by the brief's objective. */
  function Recommendations(b: Brief): (d: Draft)
    ensures |d.bullets| == 4 && d.bullets[0] == "Primary Objective: " + b.objective
  {
    Draft("Strategic Recommendations",
          [ "Primary Objective: " + b.objective,
            "Phase 1: Immediate stabilization and quick wins",
            "Phase 2: Scalable growth and integration",
            "Required investment vs. projected ROI" ],
          "The solution slide. Connect the objective directly to the insights from the previous slide.",
          "office")
  }

  /** The closing slide; it does not depend on the brief. */
  const NextSteps: Draft :=
    Draft("Next Steps & Timeline",
          [ "Q1: Stakeholder alignment and kickoff",
            "Q2: Pilot program implementation",
            "Q3: Full rollout and feedback loop",
            "Decision required: Approval of initial budget" ],
          "Closing slide. Ask for the decision. Be clear on what happens Monday morning.",
          "handshake")

  /** The draft of slide `i`, counted from 0; the last one closes. */
  function MockDraft(b: Brief, i: nat): (d: Draft)
    ensures |d.bullets| == 4
  {
    if i == 0 then Opening(b)
    else if i == 1 then Situation(b)
    else if i == 2 then Insights(b)
    else if i == 3 then Recommendations(b)
    else NextSteps
  }

  /** The text of the five slides, four bullets each. */
  function MockDrafts(b: Brief): (drafts: seq<Draft>)
    ensures |drafts| == 5
    ensures forall i :: 0 <= i < 5 ==> |drafts[i].bullets| == 4
  {
    seq(5, i requires 0 <= i < 5 => MockDraft(b, i))
  }

  /** The deck built from five drafts: slide i takes draft i, the id the
      caller hands out for it and stock image i, with no credit. */
  function MockDeck(b: Brief, drafts: seq<Draft>, idFor: nat -> string, deckId: string, now: string): (d: Deck)
    requires |drafts| == 5
    ensures d.id == deckId && d.topic == b.topic && d.audience == b.audience && d.createdAt == now
    ensures |d.slides| == 5
    ensures forall i :: 0 <= i < 5 ==>
              && DraftOf(d.slides[i]) == drafts[i] && d.slides[i].id == idFor(i)
              && d.slides[i].imageUrl == Some(MockImages[i]) && d.slides[i].imageAttribution.None?
  {
    Deck(deckId, b.topic, b.audience,
         seq(5, i requires 0 <= i < 5 =>
               Slide(idFor(i), drafts[i].title, drafts[i].bullets, drafts[i].notes, drafts[i].imageKeyword,
                     Some(MockImages[i]), None)),
         now)
  }

  /** `generateDeck` of the offline generator: it never fails. The delay
      before the answer is not modelled. */
  function GenerateDeck(b: Brief, idFor: nat -> string, deckId: string, now: string): (d: Deck)
    ensures d.id == deckId && d.topic == b.topic && d.audience == b.audience && d.createdAt == now
    ensures |d.slides| == 5
    ensures forall i :: 0 <= i < 5 ==>
              && DraftOf(d.slides[i]) == MockDrafts(b)[i] && d.slides[i].id == idFor(i)
              && d.slides[i].imageUrl == Some(MockImages[i]) && d.slides[i].imageAttribution.None?
  {
    MockDeck(b, MockDrafts(b), idFor, deckId, now)
  }

  /** The opening slide names the topic, the audience and the situation. */
  lemma OpeningShowsBrief(b: Brief)
    ensures MockDrafts(b)[0].title == "Executive Summary: " + b.topic
    ensures MockDrafts(b)[0].bullets[0] == "Strategic alignment with " + b.audience + " needs"
    ensures MockDrafts(b)[0].bullets[2] == "Key driver: " + b.situation
  {
    assert MockDrafts(b)[0] == MockDraft(b, 0);
  }

  /** The situation and recommendation slides lead with the situation and
      the objective. */
  lemma BodyShowsBrief(b: Brief)
    ensures MockDrafts(b)[1].bullets[0] == b.situation
    ensures MockDrafts(b)[3].bullets[0] == "Primary Objective: " + b.objective
  {
    assert MockDrafts(b)[1] == MockDraft(b, 1);
    assert MockDrafts(b)[3] == MockDraft(b, 3);
  }

  /** The insights slide leads with the brief's insights, or with a stock
      line when there are none. */
  lemma InsightsShowBrief(b: Brief)
    ensures b.insights != "" ==> MockDrafts(b)[2].bullets[0] == b.insights
    ensures b.insights == "" ==> MockDrafts(b)[2].bullets[0] == DefaultInsight
  {
    assert MockDrafts(b)[2] == MockDraft(b, 2);
  }

  /** A search that finds exactly the stock image of slide i. */
  function StockSearch(i: nat): (reply: SearchReply)
    ensures i < 5 ==> Found(reply) && reply.results[0].regularUrl == MockImages[i]
  {
    if i < 5 then Answered(200, [Photo(MockImages[i], "", "", "")]) else Answered(200, [])
  }

  /** The offline deck is what the real client would build if the model
      answered with the fixed drafts and every search found the slide's
      stock image. */
  lemma MockIsAClientDeck(b: Brief, openaiKey: string, idFor: nat -> string, deckId: string, now: string)
    requires Configured(openaiKey)
    ensures OpenAIClient.GenerateDeck(b, openaiKey, Completed(MockDrafts(b)), StockSearch, idFor, deckId, now)
            == Ok(GenerateDeck(b, idFor, deckId, now))
  {
    ClientAssemblesMockDeck(b, openaiKey, MockDrafts(b), idFor, deckId, now);
  }

  /** The same for any five drafts the model might return. */
  lemma ClientAssemblesMockDeck(b: Brief, openaiKey: string, drafts: seq<Draft>, idFor: nat -> string,
                                deckId: string, now: string)
    requires Configured(openaiKey) && |drafts| == 5
    ensures OpenAIClient.GenerateDeck(b, openaiKey, Completed(drafts), StockSearch, idFor, deckId, now)
            == Ok(MockDeck(b, drafts, idFor, deckId, now))
  {
    var client := OpenAIClient.GenerateDeck(b, openaiKey, Completed(drafts), StockSearch, idFor, deckId, now).value;
    var mock := MockDeck(b, drafts, idFor, deckId, now);
    forall i | 0 <= i < 5
      ensures client.slides[i] == mock.slides[i]
    {
      assert MockImages[i] != "";
    }
    assert client.slides == mock.slides;
  }
}

=== FILE: onboarding_tour.dfy ===
/** The onboarding tour: five cards stepped through with Next and Back, and
    closed either by finishing the last card or by skipping. */
module OnboardingTour {
  import opened Text

  datatype Card = Card(title: string, description: string)

  const Cards: seq<Card> := [
    Card("Welcome to SlideSmith",
         "Create professional presentation decks in minutes using AI. Let me show you how it works."),
    Card("Step 1: Fill Your Brief",
         "Tell us about your presentation topic, audience, and objectives. The more detail you provide, the better your deck will be."),
    Card("Step 2: AI Generates Your Deck",
         "Our AI analyzes your brief and creates a complete 5-slide presentation with titles, content, speaker notes, and relevant images."),
    Card("Step 3: Edit & Customize",
         "Fine-tune your slides with our editor. Change text, swap images, regenerate content with AI, or manually edit anything you want."),
    Card("Step 4: Export & Present",
         "Download your presentation as a PowerPoint file (.pptx) ready to present. All your work is automatically saved.")
  ]

  const LastStep: nat := |Cards| - 1

  /** Which of the owner's callbacks the tour has scheduled, if any: the
      one for finishing or the one for skipping. */
  datatype Ending = Running | Completed | Skipped

  datatype Tour = Tour(step: nat, visible: bool, ending: Ending)

  /** The tour opens visible on the first card. */
  const Start: Tour := Tour(0, true, Running)

  /** The states the tour can be in: a card that exists, shown exactly
      while no ending has been scheduled. */
  predicate Valid(t: Tour) {
    t.step <= LastStep && (t.visible <==> t.ending == Running)
  }

  /** Finishing hides the tour and schedules the completion callback. */
  function Complete(t: Tour): (r: Tour)
    ensures !r.visible && r.ending == Completed && r.step == t.step
  {
    t.(visible := false, ending := Completed)
  }

  /** Skipping (the button, the close cross or the backdrop) hides the tour
      and schedules the skip callback. */
  function Skip(t: Tour): (r: Tour)
    ensures !r.visible && r.ending == Skipped && r.step == t.step
  {
    t.(visible := false, ending := Skipped)
  }

  /** Next moves one card on, or finishes the tour on the last card. */
  function Next(t: Tour): (r: Tour)
    ensures t.step < LastStep ==> r.step == t.step + 1 && r.visible == t.visible && r.ending == t.ending
    ensures t.step >= LastStep ==> r == Complete(t)
  {
    if t.step < LastStep then t.(step := t.step + 1) else Complete(t)
  }

  /** Back moves one card back, and does nothing on the first. */
  function Back(t: Tour): (r: Tour)
    ensures t.step > 0 ==> r.step == t.step - 1 && r.visible == t.visible && r.ending == t.ending
    ensures t.step == 0 ==> r == t
  {
    if t.step > 0 then t.(step := t.step - 1) else t
  }

  lemma StartIsValid()
    ensures Valid(Start)
  {
  }

  /** The tour never leaves its five cards, and shows itself exactly until
      it ends. */
  lemma StepsKeepValid(t: Tour)
    requires Valid(t)
    ensures t.visible ==> Valid(Next(t)) && Valid(Back(t))
    ensures Valid(Skip(t)) && Valid(Complete(t))
  {
  }

  /** Back undoes Next before the last card, and Next undoes Back after
      the first. */
  lemma BackUndoesNext(t: Tour)
    ensures t.step < LastStep ==> Back(Next(t)) == t
    ensures 0 < t.step <= LastStep ==> Next(Back(t)) == t
  {
  }

  /** The counter over the card. */
  function Counter(t: Tour): (shown: string)
  {
    StepOf(t.step, |Cards|)
  }

  /** The Back button shows only after the first card. */
  predicate ShowsBack(t: Tour) {
    t.step > 0
  }

  /** The forward button's text. */
  function NextText(t: Tour): (text: string)
  {
    if t.step < LastStep then "Next" else "Get Started"
  }

  /** The buttons say what they do: "Get Started" exactly when pressing it
      ends the tour, and Back shows exactly when pressing it moves. */
  lemma ButtonsMatchActions(t: Tour)
    requires Valid(t) && t.visible
    ensures NextText(t) == "Get Started" <==> !Next(t).visible
    ensures NextText(t) == "Get Started" <==> Next(t).ending == Completed
    ensures ShowsBack(t) <==> Back(t) != t
  {
  }

  /** Different cards show different counters. */
  lemma CounterNamesCard(a: Tour, b: Tour)
    requires Counter(a) == Counter(b)
    ensures a.step == b.step
  {
    StepOfNamesStep(a.step, b.step, |Cards|);
  }

  /** Pressing Next `presses` times from the start: the tour walks through
      the cards and finishes on the fifth press. */
  method PressNext(presses: nat) returns (t: Tour)
    ensures Valid(t)
    ensures presses <= LastStep ==> t == Tour(presses, true, Running)
    ensures presses > LastStep ==> t == Tour(LastStep, false, Completed)
  {
    t := Start;
    var k := 0;
    while k < presses && t.visible
      invariant 0 <= k <= presses
      invariant Valid(t)
      invariant k <= LastStep ==> t == Tour(k, true, Running)
      invariant k > LastStep ==> t == Tour(LastStep, false, Completed)
      decreases presses - k
    {
      t := Next(t);
      k := k + 1;
    }
  }
}

=== FILE: openai_client.dfy ===
/** The browser-side generator: the same prompt and assembly as the server
    function, but it calls the chat model and the photo search directly,
    keeps only the photo URL (no credits) and reports failure by throwing. */
module OpenAIClient {
  import opened Types
  import opened Seqs
  import opened Upstream
  import GeneratePresentation

  const MissingKey: string :=
    "OpenAI API key is not configured. Please add VITE_OPENAI_API_KEY to your .env file."

  /** The photo lookup: the first result's URL, or the empty string for a
      non-OK status, no results or an exception. The search key is built in,
      so there is no unconfigured case. */
  function FetchImage(reply: SearchReply): (url: string)
    ensures Found(reply) ==> url == reply.results[0].regularUrl
    ensures !Found(reply) ==> url == ""
  {
    match reply
    case SearchFailed(_) => ""
    case Answered(status, results) =>
      if !IsOk(status) then ""
      else if |results| > 0 then results[0].regularUrl
      else ""
  }

  function AssembleSlide(d: Draft, url: string, id: string): (s: Slide)
    ensures DraftOf(s) == d && s.id == id
    ensures s.imageUrl == NonEmpty(url) && s.imageAttribution.None?
  {
    Slide(id, d.title, d.bullets, d.notes, d.imageKeyword, NonEmpty(url), None)
  }

  /** `generateDeck`: the key check comes first; a refusal throws its
      message or the default one; any other exception is rethrown. */
  function GenerateDeck(b: Brief, openaiKey: string, chat: ChatReply<seq<Draft>>, replyFor: nat -> SearchReply,
                        idFor: nat -> string, deckId: string, now: string): (r: Outcome<Deck>)
    ensures !Configured(openaiKey) ==> r == Err(MissingKey)
    ensures r.Ok? <==> Configured(openaiKey) && chat.Completed?
    ensures Configured(openaiKey) && chat.Refused? ==>
              r == Err(Or(chat.errorMessage, GeneratePresentation.DefaultError))
    ensures Configured(openaiKey) && chat.ChatFailed? ==> r == Err(chat.message)
    ensures r.Ok? ==> r.value.id == deckId && r.value.topic == b.topic && r.value.audience == b.audience
    ensures r.Ok? ==> |r.value.slides| == |chat.content| && r.value.createdAt == now
    ensures r.Ok? ==> forall i :: 0 <= i < |chat.content| ==>
              r.value.slides[i] == AssembleSlide(chat.content[i], FetchImage(replyFor(i)), idFor(i))
  {
    if !Configured(openaiKey) then Err(MissingKey)
    else match chat
      case Refused(message) => Err(Or(message, GeneratePresentation.DefaultError))
      case ChatFailed(message) => Err(message)
      case Completed(drafts) =>
        var slides := seq(|drafts|, i requires 0 <= i < |drafts| =>
                          AssembleSlide(drafts[i], FetchImage(replyFor(i)), idFor(i)));
        Ok(Deck(deckId, b.topic, b.audience, slides, now))
  }

  /** A slide without its credits. */
  function Uncredited(s: Slide): Slide {
    s.(imageAttribution := None)
  }

  /** The client and the server function (with a photo key) agree: they
      fail on the same replies with the same messages, and a deck from the
      client is the server's deck with the photo credits dropped. */
  lemma ClientMatchesServer(b: Brief, openaiKey: string, unsplashKey: string, chat: ChatReply<seq<Draft>>,
                            replyFor: nat -> SearchReply, idFor: nat -> string, deckId: string, now: string)
    requires Configured(openaiKey) && Configured(unsplashKey)
    ensures var client := GenerateDeck(b, openaiKey, chat, replyFor, idFor, deckId, now);
            var server := GeneratePresentation.Handle("POST", openaiKey, unsplashKey, Parsed(b), chat,
                                                      replyFor, idFor, deckId, now);
            && (client.Ok? <==> server.body.Payload?)
            && (client.Err? ==> server.body == ErrorBody(client.message) && server.status == 500)
            && (client.Ok? ==> client.value == server.body.value.(slides := Map(Uncredited, server.body.value.slides)))
  {
    if chat.Completed? {
      var client := GenerateDeck(b, openaiKey, chat, replyFor, idFor, deckId, now).value;
      var server := GeneratePresentation.AssembleDeck(b, chat.content, unsplashKey, replyFor, idFor, deckId, now);
      forall i | 0 <= i < |chat.content|
        ensures client.slides[i] == Uncredited(server.slides[i])
      {
        var image := GeneratePresentation.FetchImage(unsplashKey, replyFor(i));
        assert image.Some? ==> image.value.url == FetchImage(replyFor(i));
      }
      assert client.slides == Map(Uncredited, server.slides);
    }
  }
}

=== FILE: photo_search.dfy ===
/** The server function that looks up one stock photo for a keyword and
    answers with its URL and credits, or with a status and error message. */
module PhotoSearch {
  import opened Types
  import opened Text
  import opened Upstream
  import GeneratePresentation

  const MissingKey: string := "Unsplash API key is not configured"
  const DefaultError: string := "Failed to fetch image"
  const KeywordRequired: string := "Keyword is required"
  const NoImages: string := "No images found"
  const StatusPrefix: string := "Unsplash API error: "
  /** The referral parameters this function appends to credit links. */
  const Referral: string := "?utm_source=slidesmith&utm_medium=referral"

  /** The `keyword` field of the request body: absent, a string, or some
      other JSON value. */
  datatype KeywordField = NoKeyword | Text(s: string) | NotText

  /** The keyword check: a non-empty string. */
  predicate ValidKeyword(k: KeywordField) {
    k.Text? && k.s != ""
  }

  /** The message of the error a non-OK search status raises. */
  function StatusError(status: int): (message: string)
  {
    StatusPrefix + IntToString(status)
  }

  /** The message names the status: it can be read back from it. */
  lemma StatusErrorNamesStatus(status: nat)
    ensures StripPrefix(StatusPrefix, StatusError(status)) == Some(NatToString(status))
    ensures IsDigits(NatToString(status)) && ParseDigits(NatToString(status)) == status
  {
    StripPrefixInverse(StatusPrefix, NatToString(status));
    ParseNatToString(status);
  }

  /** The function's answer to one request. */
  function Handle(httpMethod: string, unsplashKey: string, request: RequestBody<KeywordField>,
                  reply: SearchReply): (r: Response<ImageData>)
    ensures IsPreflight(httpMethod) ==> r == PreflightResponse()
    ensures !IsPreflight(httpMethod) ==> r.status in {200, 400, 404, 500}
    ensures !IsPreflight(httpMethod) ==> (r.status == 200 <==> r.body.Payload?)
    ensures !IsPreflight(httpMethod) && !Configured(unsplashKey) ==> r == ServerError(MissingKey)
    ensures r.status == 400 <==>
              !IsPreflight(httpMethod) && Configured(unsplashKey) && request.Parsed? && !ValidKeyword(request.value)
    ensures r.status == 400 ==> r.body == ErrorBody(KeywordRequired)
    ensures r.body.Payload? <==>
              !IsPreflight(httpMethod) && Configured(unsplashKey) && request.Parsed?
              && ValidKeyword(request.value) && Found(reply)
    ensures r.body.Payload? ==>
              && r.body.value.url == reply.results[0].regularUrl
              && r.body.value.attribution == AttributionOf(reply.results[0], Referral)
    ensures r.status == 404 <==>
              !IsPreflight(httpMethod) && Configured(unsplashKey) && request.Parsed?
              && ValidKeyword(request.value) && reply.Answered? && IsOk(reply.status) && |reply.results| == 0
    ensures r.body.ErrorBody? ==> r.body.error != ""
  {
    if IsPreflight(httpMethod) then PreflightResponse()
    else if !Configured(unsplashKey) then ServerError(MissingKey)
    else match request
      case Malformed(message) => ServerError(Or(message, DefaultError))
      case Parsed(keyword) =>
        if !ValidKeyword(keyword) then Response(400, ErrorBody(KeywordRequired))
        else match reply
          case SearchFailed(message) => ServerError(Or(message, DefaultError))
          case Answered(status, results) =>
            if !IsOk(status) then ServerError(StatusError(status))
            else if |results| > 0 then
              Response(200, Payload(ImageData(results[0].regularUrl, AttributionOf(results[0], Referral))))
            else Response(404, ErrorBody(NoImages))
  }

  /** The two photo lookups agree: for a valid keyword this function finds
      a photo exactly when the deck generator's lookup does, the same URL
      and photographer, and credit links to the same pages; only the
      referral parameters differ. */
  lemma AgreesWithGeneratorLookup(httpMethod: string, unsplashKey: string, keyword: string, reply: SearchReply)
    requires !IsPreflight(httpMethod) && keyword != ""
    ensures var served := Handle(httpMethod, unsplashKey, Parsed(Text(keyword)), reply);
            var used := GeneratePresentation.FetchImage(unsplashKey, reply);
            && (served.body.Payload? <==> used.Some?)
            && (used.Some? ==>
                  && served.body.value.url == used.value.url
                  && served.body.value.attribution.photographerName == used.value.attribution.photographerName
                  && StripSuffix(Referral, served.body.value.attribution.photographerUrl)
                     == StripSuffix(GeneratePresentation.Referral, used.value.attribution.photographerUrl)
                  && StripSuffix(Referral, served.body.value.attribution.unsplashUrl)
                     == StripSuffix(GeneratePresentation.Referral, used.value.attribution.unsplashUrl))
  {
  }
}

=== FILE: regenerate_slide.dfy ===
/** The server function that rewrites one slide's text: it shows the chat
    model the slide (bullets numbered, optional extra context) and passes
    the model's answer through unchanged. */
module RegenerateSlide {
  import opened Types
  import opened Seqs
  import opened Text
  import opened Upstream

  const DefaultError: string := "Failed to regenerate text"
  const MissingKey: string := "OpenAI API key is not configured"
  const ContextLabel: string := "\nAdditional Context: "

  /** The request: the slide's current text and optional extra context. */
  datatype Request = Request(title: string, bullets: seq<string>, notes: string, context: Option<string>)

  /** Bullet `i` (from 0) as the prompt lists it: "1. first", "2. second", ... */
  function Numbered(i: nat, bullet: string): (line: string)
  {
    NatToString(i + 1) + ". " + bullet
  }

  function NumberedLines(bullets: seq<string>): (lines: seq<string>)
    ensures |lines| == |bullets|
    ensures forall i :: 0 <= i < |bullets| ==> lines[i] == Numbered(i, bullets[i])
  {
    seq(|bullets|, i requires 0 <= i < |bullets| => Numbered(i, bullets[i]))
  }

  /** The bullets block of the prompt, one numbered bullet per line. */
  function NumberedList(bullets: seq<string>): (text: string)
  {
    Join(NumberedLines(bullets), '\n')
  }

  /** Bullet `i` read back from its numbered line. */
  function Unnumber(i: nat, line: string): (r: Option<string>)
  {
    StripPrefix(NatToString(i + 1) + ". ", line)
  }

  /** Reads a bullets block back: every line must carry its number. */
  function ReadNumberedList(text: string): (r: Option<seq<string>>)
  {
    var lines := Split(text, '\n');
    if forall i :: 0 <= i < |lines| ==> Unnumber(i, lines[i]).Some?
    then Some(seq(|lines|, i requires 0 <= i < |lines| => Unnumber(i, lines[i]).value))
    else None
  }

  /** The model sees every bullet, in order and unchanged, whenever no
      bullet spans two lines and there is at least one. */
  lemma NumberedListRoundTrip(bullets: seq<string>)
    requires |bullets| >= 1
    requires forall i :: 0 <= i < |bullets| ==> '\n' !in bullets[i]
    ensures ReadNumberedList(NumberedList(bullets)) == Some(bullets)
  {
    var lines := NumberedLines(bullets);
    NumberedListHasNoBreaks(bullets);
    SplitJoin(lines, '\n');
    forall i | 0 <= i < |lines|
      ensures Unnumber(i, lines[i]) == Some(bullets[i])
    {
      assert lines[i] == (NatToString(i + 1) + ". ") + bullets[i];
      StripPrefixInverse(NatToString(i + 1) + ". ", bullets[i]);
    }
    var read := seq(|lines|, i requires 0 <= i < |lines| => Unnumber(i, lines[i]).value);
    assert read == bullets;
  }

  /** The context line: present only for a non-empty context. */
  function ContextSection(context: Option<string>): (text: string)
    ensures text == "" <==> context.None? || context.value == ""
    ensures text != "" ==> StripPrefix(ContextLabel, text) == Some(context.value)
  {
    if context.Some? && context.value != "" then
      StripPrefixInverse(ContextLabel, context.value);
      ContextLabel + context.value
    else ""
  }

  /** The slide part of the prompt. */
  function SlideSection(req: Request): (text: string)
  {
    "Title: " + req.title + "\nBullets:\n" + NumberedList(req.bullets)
    + "\nSpeaker Notes: " + req.notes + "\n" + ContextSection(req.context)
  }

  /** Read line by line, the slide part shows the title, a "Bullets:"
      header, one numbered line per bullet in order, the notes, and the
      context on a line of its own after a blank one, whenever none of the
      fields spans two lines. */
  lemma SlideSectionLines(req: Request)
    requires '\n' !in req.title && '\n' !in req.notes
    requires |req.bullets| >= 1
    requires forall i :: 0 <= i < |req.bullets| ==> '\n' !in req.bullets[i]
    requires req.context.Some? ==> '\n' !in req.context.value
    ensures Split(SlideSection(req), '\n') ==
              ["Title: " + req.title, "Bullets:"] + NumberedLines(req.bullets)
              + ["Speaker Notes: " + req.notes]
              + (if ContextSection(req.context) == "" then [""]
                 else ["", ContextLabel[1..] + req.context.value])
  {
    var title := "Title: " + req.title;
    var notes := "Speaker Notes: " + req.notes;
    var context := ContextSection(req.context);
    SlideSectionShape(req);
    NumberedListHasNoBreaks(req.bullets);
    SplitLayout(title, "Bullets:", NumberedLines(req.bullets), notes, context);
    ContextLines(req.context);
  }

  /** The slide part as its pieces joined by line breaks. */
  lemma SlideSectionShape(req: Request)
    ensures SlideSection(req) == ("Title: " + req.title) + ['\n'] + ("Bullets:" + ['\n'] +
              (NumberedList(req.bullets) + ['\n'] + (("Speaker Notes: " + req.notes) + ['\n'] + ContextSection(req.context))))
  {
    assert "\nBullets:\n" == ['\n'] + "Bullets:" + ['\n'];
    assert "\nSpeaker Notes: " == ['\n'] + "Speaker Notes: ";
    assert "\n" == ['\n'];
    Regroup("Title: ", req.title, "Bullets:", NumberedList(req.bullets),
            "Speaker Notes: ", req.notes, ContextSection(req.context), '\n');
  }

  /** Moving the parentheses of a chain of pieces and separators. */
  lemma Regroup(lead: string, title: string, header: string, list: string,
                notesLabel: string, notes: string, context: string, sep: char)
    ensures lead + title + ([sep] + header + [sep]) + list + ([sep] + notesLabel) + notes + [sep] + context
            == (lead + title) + [sep] + (header + [sep] + (list + [sep] + ((notesLabel + notes) + [sep] + context)))
  {
  }

  /** The line structure of the slide part, with its pieces left abstract. */
  lemma {:induction false} SplitLayout(title: string, header: string, lines: seq<string>,
                                       notes: string, context: string)
    requires '\n' !in title && '\n' !in header && '\n' !in notes
    requires |lines| >= 1 && forall i :: 0 <= i < |lines| ==> '\n' !in lines[i]
    ensures Split(title + ['\n'] + (header + ['\n'] + (Join(lines, '\n') + ['\n'] + (notes + ['\n'] + context))), '\n')
            == [title, header] + lines + [notes] + Split(context, '\n')
  {
    var tail := notes + ['\n'] + context;
    var body := Join(lines, '\n') + ['\n'] + tail;
    SplitAfterPiece(title, '\n', header + ['\n'] + body);
    SplitAfterPiece(header, '\n', body);
    SplitAtSeparator(Join(lines, '\n'), '\n', tail);
    SplitJoin(lines, '\n');
    SplitAfterPiece(notes, '\n', context);
  }

  /** The context part read line by line: one empty piece without context,
      otherwise a blank line and the labelled context. */
  lemma {:induction false} ContextLines(context: Option<string>)
    requires context.Some? ==> '\n' !in context.value
    ensures Split(ContextSection(context), '\n') ==
              if ContextSection(context) == "" then [""]
              else ["", ContextLabel[1..] + context.value]
  {
    var text := ContextSection(context);
    if text != "" {
      var line := ContextLabel[1..] + context.value;
      assert '\n' !in ContextLabel[1..];
      assert text == [] + ['\n'] + line;
      SplitAfterPiece([], '\n', line);
      SplitWithoutSeparator(line, '\n');
    }
  }

  /** No numbered line spans two lines when no bullet does. */
  lemma NumberedListHasNoBreaks(bullets: seq<string>)
    requires forall i :: 0 <= i < |bullets| ==> '\n' !in bullets[i]
    ensures forall i :: 0 <= i < |bullets| ==> '\n' !in NumberedLines(bullets)[i]
  {
    var lines := NumberedLines(bullets);
    forall i | 0 <= i < |lines|
      ensures '\n' !in lines[i]
    {
      var number := NatToString(i + 1);
      assert IsDigits(number);
      assert '\n' !in number;
      assert lines[i] == number + ". " + bullets[i];
    }
  }

  /** The function's answer: the model's parsed content, passed through as
      is, or status 500 with the error's message. */
  function Handle<T>(httpMethod: string, openaiKey: string, request: RequestBody<Request>,
                     chat: ChatReply<T>): (r: Response<T>)
    ensures IsPreflight(httpMethod) ==> r == PreflightResponse()
    ensures !IsPreflight(httpMethod) ==> (r.status == 200 <==> r.body.Payload?)
    ensures !IsPreflight(httpMethod) ==> (r.status == 500 <==> r.body.ErrorBody?)
    ensures !IsPreflight(httpMethod) && !Configured(openaiKey) ==> r == ServerError(MissingKey)
    ensures r.body.Payload? <==>
              !IsPreflight(httpMethod) && Configured(openaiKey) && request.Parsed? && chat.Completed?
    ensures r.body.Payload? ==> r.body.value == chat.content
    ensures r.body.ErrorBody? && chat.Refused? && request.Parsed? && Configured(openaiKey) ==>
              r.body.error == Or(chat.errorMessage, DefaultError)
  {
    if IsPreflight(httpMethod) then PreflightResponse()
    else if !Configured(openaiKey) then ServerError(MissingKey)
    else match request
      case Malformed(message) => ServerError(message)
      case Parsed(_) =>
        match chat
        case Refused(message) => ServerError(Or(message, DefaultError))
        case ChatFailed(message) => ServerError(message)
        case Completed(content) => Response(200, Payload(content))
  }
}

=== FILE: seqs.dfy ===
/** Order-preserving filter, map and a stable sort on sequences: the
    `Array.prototype.filter`, `map` and the store's `order by` that the
    app applies to rows and slides. */
module Seqs {

  /** Every pair of elements, taken in sequence order, is related by `rel`. */
  predicate Pairwise<T>(rel: (T, T) -> bool, s: seq<T>) {
    forall i, j :: 0 <= i < j < |s| ==> rel(s[i], s[j])
  }

  /** The elements of `s` satisfying `keep`, in their original order. */
  function Filter<T(==)>(keep: T -> bool, s: seq<T>): (r: seq<T>)
    ensures |r| <= |s|
    ensures forall i :: 0 <= i < |r| ==> r[i] in s && keep(r[i])
    ensures forall i :: 0 <= i < |s| && keep(s[i]) ==> s[i] in r
    decreases |s|
  {
    if |s| == 0 then []
    else (if keep(s[0]) then [s[0]] else []) + Filter(keep, s[1..])
  }

  /** `g` applied to every element, position by position. */
  function Map<A, B>(g: A -> B, s: seq<A>): (r: seq<B>)
    ensures |r| == |s|
    ensures forall i :: 0 <= i < |s| ==> r[i] == g(s[i])
    decreases |s|
  {
    if |s| == 0 then [] else [g(s[0])] + Map(g, s[1..])
  }

  /** Mapping a sequence with one more element at the end. */
  lemma MapSnoc<A, B>(g: A -> B, s: seq<A>, x: A)
    ensures Map(g, s + [x]) == Map(g, s) + [g(x)]
  {
  }

  /** Filtering distributes over concatenation: what is kept from `a` comes
      first, in order, followed by what is kept from `b`. */
  lemma {:induction false} FilterConcat<T>(keep: T -> bool, a: seq<T>, b: seq<T>)
    ensures Filter(keep, a + b) == Filter(keep, a) + Filter(keep, b)
    decreases |a|
  {
    if |a| == 0 {
      assert a + b == b;
    } else {
      assert (a + b)[1..] == a[1..] + b;
      FilterConcat(keep, a[1..], b);
    }
  }

  /** Filtering a sequence with one more element at the end. */
  lemma FilterSnoc<T>(keep: T -> bool, s: seq<T>, x: T)
    ensures Filter(keep, s + [x]) == Filter(keep, s) + (if keep(x) then [x] else [])
  {
    FilterConcat(keep, s, [x]);
    assert [x][1..] == [];
  }

  /** A filter and its complement share out the elements: their lengths
      add up to the whole. */
  lemma {:induction false} FilterComplementLength<T>(keep: T -> bool, drop: T -> bool, s: seq<T>)
    requires forall x :: drop(x) == !keep(x)
    ensures |Filter(keep, s)| + |Filter(drop, s)| == |s|
    decreases |s|
  {
    if |s| > 0 {
      FilterComplementLength(keep, drop, s[1..]);
    }
  }

  /** The first element a filter keeps is the first element of `s` that
      passes: every element before it fails. */
  lemma {:induction false} FirstKept<T>(keep: T -> bool, s: seq<T>)
    requires |Filter(keep, s)| > 0
    ensures exists k :: 0 <= k < |s| && s[k] == Filter(keep, s)[0] && forall j :: 0 <= j < k ==> !keep(s[j])
    decreases |s|
  {
    if !keep(s[0]) {
      FirstKept(keep, s[1..]);
      var k :| 0 <= k < |s[1..]| && s[1..][k] == Filter(keep, s[1..])[0]
                && forall j :: 0 <= j < k ==> !keep(s[1..][j]);
      assert s[k + 1] == Filter(keep, s)[0];
      assert forall j :: 0 <= j < k + 1 ==> !keep(s[j]) by {
        forall j | 0 <= j < k + 1 ensures !keep(s[j]) {
          if j > 0 {
            assert s[j] == s[1..][j - 1];
          }
        }
      }
    }
  }

  /** Filtering commutes with a map that never changes what the filter keeps. */
  lemma {:induction false} FilterMap<T>(keep: T -> bool, g: T -> T, s: seq<T>)
    requires forall x :: keep(g(x)) == keep(x)
    ensures Filter(keep, Map(g, s)) == Map(g, Filter(keep, s))
    decreases |s|
  {
    if |s| > 0 {
      var tail := s[1..];
      FilterMap(keep, g, tail);
      assert Map(g, s)[1..] == Map(g, tail);
      if keep(s[0]) {
        var ft := Filter(keep, tail);
        assert Filter(keep, s) == [s[0]] + ft;
        assert ([s[0]] + ft)[1..] == ft;
      }
    }
  }

  /** Filters that agree on every element give the same result. */
  lemma {:induction false} FilterExt<T>(f: T -> bool, g: T -> bool, s: seq<T>)
    requires forall x :: f(x) == g(x)
    ensures Filter(f, s) == Filter(g, s)
    decreases |s|
  {
    if |s| > 0 {
      FilterExt(f, g, s[1..]);
    }
  }

  /** A filter that keeps nothing yields the empty sequence. */
  lemma {:induction false} FilterNone<T>(keep: T -> bool, s: seq<T>)
    requires forall i :: 0 <= i < |s| ==> !keep(s[i])
    ensures Filter(keep, s) == []
    decreases |s|
  {
    if |s| > 0 {
      assert !keep(s[0]);
      FilterNone(keep, s[1..]);
    }
  }

  /** A filter that rejects nothing is the identity. */
  lemma {:induction false} FilterKeepsAll<T>(keep: T -> bool, s: seq<T>)
    requires forall x :: x in s ==> keep(x)
    ensures Filter(keep, s) == s
    decreases |s|
  {
    if |s| > 0 {
      FilterKeepsAll(keep, s[1..]);
    }
  }

  /** Any relation that held between every earlier/later pair still holds
      after filtering: the result is an order-preserving subsequence. */
  lemma {:induction false} FilterKeepsPairwise<T>(rel: (T, T) -> bool, keep: T -> bool, s: seq<T>)
    requires Pairwise(rel, s)
    ensures Pairwise(rel, Filter(keep, s))
    decreases |s|
  {
    if |s| > 0 {
      var tail := s[1..];
      assert Pairwise(rel, tail) by {
        forall i, j | 0 <= i < j < |tail| ensures rel(tail[i], tail[j]) {
          assert tail[i] == s[i + 1] && tail[j] == s[j + 1];
        }
      }
      FilterKeepsPairwise(rel, keep, tail);
      var ft := Filter(keep, tail);
      if keep(s[0]) {
        var r := [s[0]] + ft;
        forall i, j | 0 <= i < j < |r| ensures rel(r[i], r[j]) {
          if i == 0 {
            assert r[j] in tail;
            var k :| 0 <= k < |tail| && tail[k] == r[j];
            assert s[k + 1] == r[j];
          } else {
            assert r[i] == ft[i - 1] && r[j] == ft[j - 1];
          }
        }
      } else {
        assert Filter(keep, s) == ft;
      }
    }
  }

  /** Two filters can be applied in either order. */
  lemma {:induction false} FilterCommute<T>(f: T -> bool, g: T -> bool, s: seq<T>)
    ensures Filter(f, Filter(g, s)) == Filter(g, Filter(f, s))
    decreases |s|
  {
    if |s| > 0 {
      FilterCommute(f, g, s[1..]);
      var gs := if g(s[0]) then [s[0]] else [];
      var fs := if f(s[0]) then [s[0]] else [];
      FilterConcat(f, gs, Filter(g, s[1..]));
      FilterConcat(g, fs, Filter(f, s[1..]));
      assert Filter(f, gs) == Filter(g, fs);
    }
  }

  /** Filtering twice is filtering once by both tests. */
  lemma {:induction false} FilterFuse<T>(f: T -> bool, g: T -> bool, both: T -> bool, s: seq<T>)
    requires forall x :: both(x) == (g(x) && f(x))
    ensures Filter(f, Filter(g, s)) == Filter(both, s)
    decreases |s|
  {
    if |s| > 0 {
      FilterFuse(f, g, both, s[1..]);
      var gs := if g(s[0]) then [s[0]] else [];
      FilterConcat(f, gs, Filter(g, s[1..]));
      assert Filter(f, gs) == if both(s[0]) then [s[0]] else [];
    }
  }

  /** `s` is in non-decreasing order of `key`. */
  predicate SortedBy<T>(key: T -> int, s: seq<T>) {
    forall i, j :: 0 <= i < j < |s| ==> key(s[i]) <= key(s[j])
  }

  /** The tail of a sorted sequence is sorted, and its head is a least element. */
  lemma SortedTail<T>(key: T -> int, s: seq<T>)
    requires SortedBy(key, s) && |s| > 0
    ensures SortedBy(key, s[1..])
    ensures forall y :: y in s[1..] ==> key(s[0]) <= key(y)
  {
    var tail := s[1..];
    forall i, j | 0 <= i < j < |tail| ensures key(tail[i]) <= key(tail[j]) {
      assert tail[i] == s[i + 1] && tail[j] == s[j + 1];
    }
    forall y | y in tail ensures key(s[0]) <= key(y) {
      var k :| 0 <= k < |tail| && tail[k] == y;
      assert s[k + 1] == y;
    }
  }

  /** Prefixing a sorted sequence with a least element keeps it sorted. */
  lemma SortedCons<T>(key: T -> int, a: T, t: seq<T>)
    requires SortedBy(key, t)
    requires forall y :: y in t ==> key(a) <= key(y)
    ensures SortedBy(key, [a] + t)
  {
    var r := [a] + t;
    forall i, j | 0 <= i < j < |r| ensures key(r[i]) <= key(r[j]) {
      assert r[j] == t[j - 1];
      if i > 0 {
        assert r[i] == t[i - 1];
      } else {
        assert r[j] in t;
      }
    }
  }

  /** Puts `x` before the first element whose key is not smaller. */
  function Insert<T(==)>(key: T -> int, x: T, s: seq<T>): (r: seq<T>)
    ensures |r| == |s| + 1
    ensures forall y :: y in r ==> y == x || y in s
    decreases |s|
  {
    if |s| == 0 then [x]
    else if key(x) <= key(s[0]) then [x] + s
    else [s[0]] + Insert(key, x, s[1..])
  }

  /** Insertion into a sorted sequence keeps it sorted. */
  lemma {:induction false} InsertKeepsSorted<T>(key: T -> int, x: T, s: seq<T>)
    requires SortedBy(key, s)
    ensures SortedBy(key, Insert(key, x, s))
    decreases |s|
  {
    if |s| > 0 {
      if key(x) <= key(s[0]) {
        SortedCons(key, x, s);
      } else {
        SortedTail(key, s);
        InsertKeepsSorted(key, x, s[1..]);
        SortedCons(key, s[0], Insert(key, x, s[1..]));
      }
    }
  }

  /** Insertion adds exactly one occurrence of `x` and loses nothing. */
  lemma {:induction false} InsertPermutes<T>(key: T -> int, x: T, s: seq<T>)
    ensures multiset(Insert(key, x, s)) == multiset(s) + multiset{x}
    decreases |s|
  {
    if |s| > 0 {
      assert s == [s[0]] + s[1..];
      if key(x) > key(s[0]) {
        InsertPermutes(key, x, s[1..]);
      }
    }
  }

  /** A stable insertion sort by `key`: the ordering a query's `order by`
      produces (rows with equal keys keep their table order). */
  function SortBy<T(==)>(key: T -> int, s: seq<T>): (r: seq<T>)
    ensures SortedBy(key, r)
    ensures multiset(r) == multiset(s) && |r| == |s|
    decreases |s|
  {
    if |s| == 0 then []
    else
      assert s == [s[0]] + s[1..];
      InsertPermutes(key, s[0], SortBy(key, s[1..]));
      InsertKeepsSorted(key, s[0], SortBy(key, s[1..]));
      Insert(key, s[0], SortBy(key, s[1..]))
  }

  /** Two permutations of each other have the same elements. */
  lemma SameElements<T>(a: seq<T>, b: seq<T>)
    requires multiset(a) == multiset(b)
    ensures forall x :: x in a <==> x in b
  {
    forall x ensures x in a <==> x in b {
      assert x in a <==> x in multiset(a);
      assert x in b <==> x in multiset(b);
    }
  }

  /** Inserting an element whose key is at most every other key puts it first. */
  lemma InsertSmallest<T>(key: T -> int, x: T, s: seq<T>)
    requires forall y :: y in s ==> key(x) <= key(y)
    ensures Insert(key, x, s) == [x] + s
  {
    if |s| > 0 {
      assert s[0] in s;
    }
  }

  /** Sorting a sequence that is already in order changes nothing. */
  lemma {:induction false} SortSortedIsIdentity<T>(key: T -> int, s: seq<T>)
    requires SortedBy(key, s)
    ensures SortBy(key, s) == s
    decreases |s|
  {
    if |s| > 0 {
      var tail := s[1..];
      SortedTail(key, s);
      SortSortedIsIdentity(key, tail);
      InsertSmallest(key, s[0], tail);
      assert [s[0]] + tail == s;
    }
  }

  /** Filtering keeps a sorted sequence sorted. */
  lemma FilterKeepsSorted<T>(key: T -> int, keep: T -> bool, s: seq<T>)
    requires SortedBy(key, s)
    ensures SortedBy(key, Filter(keep, s))
  {
    var le := (a: T, b: T) => key(a) <= key(b);
    assert Pairwise(le, s);
    FilterKeepsPairwise(le, keep, s);
    var fs := Filter(keep, s);
    assert Pairwise(le, fs);
  }

  /** Filtering an inserted sequence: the element survives or vanishes, and
      the rest is filtered in place. */
  lemma {:induction false} FilterInsert<T>(key: T -> int, keep: T -> bool, x: T, s: seq<T>)
    requires SortedBy(key, s)
    ensures Filter(keep, Insert(key, x, s))
         == if keep(x) then Insert(key, x, Filter(keep, s)) else Filter(keep, s)
    decreases |s|
  {
    if |s| == 0 {
    } else if key(x) <= key(s[0]) {
      FilterInsertFront(key, keep, x, s);
    } else {
      SortedTail(key, s);
      FilterInsert(key, keep, x, s[1..]);
      FilterInsertBehind(key, keep, x, s);
    }
  }

  lemma FilterInsertFront<T>(key: T -> int, keep: T -> bool, x: T, s: seq<T>)
    requires SortedBy(key, s) && |s| > 0 && key(x) <= key(s[0])
    ensures Filter(keep, Insert(key, x, s))
         == if keep(x) then Insert(key, x, Filter(keep, s)) else Filter(keep, s)
  {
    var fs := Filter(keep, s);
    assert Insert(key, x, s) == [x] + s;
    FilterConcat(keep, [x], s);
    assert [x][1..] == [];
    if keep(x) {
      forall y | y in fs ensures key(x) <= key(y) {
        var k :| 0 <= k < |fs| && fs[k] == y;
        var m :| 0 <= m < |s| && s[m] == y;
        assert key(s[0]) <= key(s[m]);
      }
      InsertSmallest(key, x, fs);
    }
  }

  lemma FilterInsertBehind<T>(key: T -> int, keep: T -> bool, x: T, s: seq<T>)
    requires |s| > 0 && key(x) > key(s[0])
    requires Filter(keep, Insert(key, x, s[1..]))
          == if keep(x) then Insert(key, x, Filter(keep, s[1..])) else Filter(keep, s[1..])
    ensures Filter(keep, Insert(key, x, s))
         == if keep(x) then Insert(key, x, Filter(keep, s)) else Filter(keep, s)
  {
    var t, inner := Insert(key, x, s), Filter(keep, Insert(key, x, s[1..]));
    var fs, ft := Filter(keep, s), Filter(keep, s[1..]);
    assert t[0] == s[0] && t[1..] == Insert(key, x, s[1..]);
    if keep(s[0]) {
      assert Filter(keep, t) == [s[0]] + inner;
      assert fs == [s[0]] + ft;
      if keep(x) {
        InsertPastHead(key, x, fs);
      }
    } else {
      assert Filter(keep, t) == inner;
      assert fs == ft;
    }
  }

  /** An element larger than the head goes behind it. */
  lemma InsertPastHead<T>(key: T -> int, x: T, s: seq<T>)
    requires |s| > 0 && key(x) > key(s[0])
    ensures Insert(key, x, s) == [s[0]] + Insert(key, x, s[1..])
  {
  }

  /** A stable sort and a filter commute: sorting the kept rows gives the
      same list as keeping rows of the sorted list. */
  lemma {:induction false} SortFilterCommute<T>(key: T -> int, keep: T -> bool, s: seq<T>)
    ensures SortBy(key, Filter(keep, s)) == Filter(keep, SortBy(key, s))
    decreases |s|
  {
    if |s| > 0 {
      var tail := s[1..];
      SortFilterCommute(key, keep, tail);
      FilterInsert(key, keep, s[0], SortBy(key, tail));
      if keep(s[0]) {
        assert Filter(keep, s) == [s[0]] + Filter(keep, tail);
        assert Filter(keep, s)[1..] == Filter(keep, tail);
      } else {
        assert Filter(keep, s) == Filter(keep, tail);
      }
    }
  }

  /** Applying a key-preserving `g` before or after a stable sort gives the
      same list. */
  lemma {:induction false} SortMapCommute<T>(key: T -> int, g: T -> T, s: seq<T>)
    requires forall x :: key(g(x)) == key(x)
    ensures SortBy(key, Map(g, s)) == Map(g, SortBy(key, s))
    decreases |s|
  {
    if |s| > 0 {
      var tail := s[1..];
      SortMapCommute(key, g, tail);
      assert Map(g, s)[1..] == Map(g, tail);
      MapInsert(key, g, s[0], SortBy(key, tail));
    }
  }

  lemma {:induction false} MapInsert<T>(key: T -> int, g: T -> T, x: T, s: seq<T>)
    requires forall y :: key(g(y)) == key(y)
    ensures Insert(key, g(x), Map(g, s)) == Map(g, Insert(key, x, s))
    decreases |s|
  {
    var ms := Map(g, s);
    if |s| > 0 && key(x) > key(s[0]) {
      var tail := s[1..];
      MapInsert(key, g, x, tail);
      assert ms[1..] == Map(g, tail);
      assert Map(g, [s[0]] + Insert(key, x, tail)) == [g(s[0])] + Map(g, Insert(key, x, tail));
    } else if |s| > 0 {
      assert Map(g, [x] + s) == [g(x)] + ms;
    }
  }
}

=== FILE: session.dfy ===
/** The application shell: which screen is showing, the brief being worked
    on, the versions of the generated deck held in memory and which of them
    is current. Every handler is a function from the old state to the new. */
module Session {
  import opened Types
  import opened Seqs
  import ExportLayout
  import MockAI

  datatype Step = Landing | BriefStep | Generating | Editor | PrivacyPolicy

  datatype AppState = AppState(
    step: Step,
    previousStep: Step,
    brief: Option<Brief>,
    versions: seq<Deck>,
    currentDeckId: Option<string>)

  const Initial: AppState := AppState(Landing, Landing, None, [], None)

  /** The first deck in `versions` carrying `id`. */
  function Find(versions: seq<Deck>, id: string): (r: Option<Deck>)
    ensures r.None? <==> forall i :: 0 <= i < |versions| ==> versions[i].id != id
    ensures r.Some? ==> r.value in versions && r.value.id == id
    decreases |versions|
  {
    if |versions| == 0 then None
    else if versions[0].id == id then Some(versions[0])
    else Find(versions[1..], id)
  }

  /** Searching a longer list finds what the shorter one found, and
      otherwise the added deck when it carries the id. */
  lemma {:induction false} FindSnoc(versions: seq<Deck>, d: Deck, id: string)
    ensures Find(versions + [d], id) ==
              if Find(versions, id).Some? then Find(versions, id)
              else if d.id == id then Some(d) else None
    decreases |versions|
  {
    if |versions| == 0 {
      assert versions + [d] == [d];
    } else {
      assert (versions + [d])[1..] == versions[1..] + [d];
      FindSnoc(versions[1..], d, id);
    }
  }

  /** The deck the editor shows. */
  function CurrentDeck(st: AppState): (r: Option<Deck>)
    ensures r.Some? ==> st.currentDeckId == Some(r.value.id) && r.value in st.versions
    ensures st.currentDeckId.None? ==> r.None?
  {
    match st.currentDeckId
    case None => None
    case Some(id) => Find(st.versions, id)
  }

  function Start(st: AppState): (r: AppState)
    ensures r.step == BriefStep && r.(step := st.step) == st
  {
    st.(step := BriefStep)
  }

  /** Opening the privacy page remembers the screen it was opened from. */
  function OpenPrivacy(st: AppState): (r: AppState)
    ensures r.step == PrivacyPolicy && r.previousStep == st.step
    ensures r.(step := st.step, previousStep := st.previousStep) == st
  {
    st.(previousStep := st.step, step := PrivacyPolicy)
  }

  function ClosePrivacy(st: AppState): (r: AppState)
    ensures r.(step := st.step) == st
  {
    st.(step := st.previousStep)
  }

  /** Leaving the privacy page returns to the screen it was opened from
      with nothing else changed but the remembered screen. */
  lemma PrivacyRoundTrip(st: AppState)
    ensures ClosePrivacy(OpenPrivacy(st)).step == st.step
    ensures ClosePrivacy(OpenPrivacy(st)) == st.(previousStep := st.step)
  {
  }

  /** The logo on any screen, and the brief form's back button, go to the
      landing page. */
  function Home(st: AppState): (r: AppState)
    ensures r.step == Landing && r.(step := st.step) == st
  {
    st.(step := Landing)
  }

  /** Submitting a brief: it is remembered and the loading screen shows. */
  function BeginGeneration(st: AppState, b: Brief): (r: AppState)
    ensures r.step == Generating && r.brief == Some(b)
    ensures r.(step := st.step, brief := st.brief) == st
  {
    st.(brief := Some(b), step := Generating)
  }

  /** The generator's answer: a deck replaces every earlier version and
      becomes current; a failure returns to the form. */
  function FinishGeneration(st: AppState, generated: Outcome<Deck>): (r: AppState)
    ensures generated.Ok? ==>
              r.step == Editor && r.versions == [generated.value] && CurrentDeck(r) == Some(generated.value)
    ensures generated.Err? ==>
              r.step == BriefStep && r.versions == st.versions && CurrentDeck(r) == CurrentDeck(st)
    ensures r.brief == st.brief && r.previousStep == st.previousStep
  {
    match generated
    case Ok(d) => st.(versions := [d], currentDeckId := Some(d.id), step := Editor)
    case Err(_) => st.(step := BriefStep)
  }

  function SubmitBrief(st: AppState, b: Brief, generated: Outcome<Deck>): (r: AppState)
    ensures r.brief == Some(b) && r.previousStep == st.previousStep
  {
    FinishGeneration(BeginGeneration(st, b), generated)
  }

  /** A generated deck opens in the editor as the one and only version. */
  lemma SubmitOpensDeck(st: AppState, b: Brief, d: Deck)
    ensures SubmitBrief(st, b, Ok(d)).step == Editor
    ensures SubmitBrief(st, b, Ok(d)).versions == [d]
    ensures CurrentDeck(SubmitBrief(st, b, Ok(d))) == Some(d)
  {
  }

  /** A failed generation goes back to the form, which is filled with the
      submitted brief, and leaves the versions and the current deck alone. */
  lemma SubmitFailureKeepsWork(st: AppState, b: Brief, message: string)
    ensures SubmitBrief(st, b, Err(message)).step == BriefStep
    ensures SubmitBrief(st, b, Err(message)) == st.(step := BriefStep, brief := Some(b))
    ensures CurrentDeck(SubmitBrief(st, b, Err(message))) == CurrentDeck(st)
  {
  }

  /** With the offline generator the application uses, submitting a brief
      always opens a five-slide deck on the brief's topic, and exporting it
      gives five slides, each with its stock picture. */
  lemma SubmitWithOfflineGenerator(st: AppState, b: Brief, idFor: nat -> string, deckId: string, now: string)
    ensures var r := SubmitBrief(st, b, Ok(MockAI.GenerateDeck(b, idFor, deckId, now)));
            && r.step == Editor
            && CurrentDeck(r).Some? && CurrentDeck(r).value.topic == b.topic
            && Export(r).Some? && |Export(r).value.slides| == 5
            && forall i :: 0 <= i < 5 ==>
                 ExportLayout.PictureOf(Export(r).value.slides[i].elements) == Some(MockAI.MockImages[i])
  {
    var d := MockAI.GenerateDeck(b, idFor, deckId, now);
    SubmitOpensDeck(st, b, d);
    forall i | 0 <= i < 5
      ensures ExportLayout.ShownImage(d.slides[i]) == Some(MockAI.MockImages[i])
    {
      assert MockAI.MockImages[i] != "";
    }
  }

  function ReplaceById(d: Deck): Deck -> Deck {
    (x: Deck) => if x.id == d.id then d else x
  }

  /** An edit from the editor replaces the version with the edited deck's id. */
  function UpdateDeck(st: AppState, d: Deck): (r: AppState)
    ensures |r.versions| == |st.versions|
    ensures forall i :: 0 <= i < |st.versions| ==>
              r.versions[i] == (if st.versions[i].id == d.id then d else st.versions[i])
    ensures r.(versions := st.versions) == st
  {
    st.(versions := Map(ReplaceById(d), st.versions))
  }

  /** Replacing by id keeps every id where it was. */
  lemma {:induction false} FindAfterReplace(versions: seq<Deck>, d: Deck, id: string)
    ensures Find(Map(ReplaceById(d), versions), id) ==
              match Find(versions, id)
              case None => None
              case Some(x) => Some(ReplaceById(d)(x))
    decreases |versions|
  {
    if |versions| > 0 {
      assert Map(ReplaceById(d), versions)[1..] == Map(ReplaceById(d), versions[1..]);
      FindAfterReplace(versions[1..], d, id);
    }
  }

  /** Editing the current deck shows the edit; the other versions keep
      their content. */
  lemma EditShowsInCurrent(st: AppState, d: Deck)
    requires CurrentDeck(st).Some? && CurrentDeck(st).value.id == d.id
    ensures CurrentDeck(UpdateDeck(st, d)) == Some(d)
    ensures forall i :: 0 <= i < |st.versions| && st.versions[i].id != d.id ==>
              UpdateDeck(st, d).versions[i] == st.versions[i]
  {
    FindAfterReplace(st.versions, d, d.id);
  }

  /** No stored version carries `id`. */
  predicate Unused(versions: seq<Deck>, id: string) {
    forall i :: 0 <= i < |versions| ==> versions[i].id != id
  }

  /** Saving a version copies the current deck under a new id and time
      stamp, appends the copy and makes it current; without a current deck
      nothing happens. */
  function SaveVersion(st: AppState, newId: string, now: string): (r: AppState)
    ensures CurrentDeck(st).None? ==> r == st
    ensures CurrentDeck(st).Some? ==>
              r.versions == st.versions + [CurrentDeck(st).value.(id := newId, createdAt := now)]
    ensures CurrentDeck(st).Some? ==> r.currentDeckId == Some(newId)
    ensures r.(versions := st.versions, currentDeckId := st.currentDeckId) == st
  {
    match CurrentDeck(st)
    case None => st
    case Some(cur) =>
      st.(versions := st.versions + [cur.(id := newId, createdAt := now)], currentDeckId := Some(newId))
  }

  /** With a fresh id the copy becomes the deck shown, and editing it later
      leaves every earlier version as it was saved. */
  lemma SavedVersionIsIndependent(st: AppState, newId: string, now: string, edit: Deck)
    requires CurrentDeck(st).Some? && Unused(st.versions, newId)
    requires edit.id == newId
    ensures CurrentDeck(SaveVersion(st, newId, now)) ==
              Some(CurrentDeck(st).value.(id := newId, createdAt := now))
    ensures CurrentDeck(UpdateDeck(SaveVersion(st, newId, now), edit)) == Some(edit)
    ensures UpdateDeck(SaveVersion(st, newId, now), edit).versions[..|st.versions|] == st.versions
  {
    var copy := CurrentDeck(st).value.(id := newId, createdAt := now);
    var saved := SaveVersion(st, newId, now);
    FindSnoc(st.versions, copy, newId);
    EditShowsInCurrent(saved, edit);
    var edited := UpdateDeck(saved, edit);
    assert forall i :: 0 <= i < |st.versions| ==> edited.versions[i] == st.versions[i];
  }

  /** The export handler: the current deck's file, if there is a current deck. */
  function Export(st: AppState): (r: Option<ExportLayout.Plan>)
    ensures r.Some? <==> CurrentDeck(st).Some?
    ensures r.Some? ==> r.value.slides == ExportLayout.ExportDeck(CurrentDeck(st).value).slides
    ensures r.Some? ==> r.value.fileName == ExportLayout.FileName(CurrentDeck(st).value.topic)
  {
    match CurrentDeck(st)
    case None => None
    case Some(cur) => Some(ExportLayout.ExportDeck(cur))
  }

  /** Picking an entry of the version picker. */
  function SwitchVersion(st: AppState, id: string): (r: AppState)
    ensures r.currentDeckId == Some(id) && r.(currentDeckId := st.currentDeckId) == st
  {
    st.(currentDeckId := Some(id))
  }

  /** Confirming "Leave" in the editor goes back to the form: the same
      step change as the landing page's start button, so it is `Start`. */
  function Leave(st: AppState): (r: AppState)
    ensures r.step == BriefStep && r.(step := st.step) == st
  {
    Start(st)
  }

  /** Every user action and asynchronous answer the shell handles. */
  datatype Event =
    | StartClicked
    | PrivacyClicked
    | PrivacyBack
    | HomeClicked
    | BriefSubmitted(b: Brief)
    | Generated(generated: Outcome<Deck>)
    | DeckEdited(d: Deck)
    | VersionSaved(newId: string, now: string)
    | VersionPicked(id: string)
    | LeaveConfirmed

  function Handle(st: AppState, e: Event): (r: AppState)
    ensures r.versions != st.versions ==> e.Generated? || e.DeckEdited? || e.VersionSaved?
  {
    match e
    case StartClicked => Start(st)
    case PrivacyClicked => OpenPrivacy(st)
    case PrivacyBack => ClosePrivacy(st)
    case HomeClicked => Home(st)
    case BriefSubmitted(b) => BeginGeneration(st, b)
    case Generated(g) => FinishGeneration(st, g)
    case DeckEdited(d) => UpdateDeck(st, d)
    case VersionSaved(newId, now) => SaveVersion(st, newId, now)
    case VersionPicked(id) => SwitchVersion(st, id)
    case LeaveConfirmed => Leave(st)
  }

  /** The editor, and a privacy page opened from it, always have a deck to
      return to. */
  predicate Consistent(st: AppState) {
    (st.step == Editor || st.previousStep == Editor) ==> CurrentDeck(st).Some?
  }

  /** An event the interface can raise in `st`: the version picker only
      offers stored versions, and an edit comes from the deck being shown. */
  predicate Possible(st: AppState, e: Event) {
    && (e.VersionPicked? ==> !Unused(st.versions, e.id))
    && (e.DeckEdited? ==> CurrentDeck(st).Some? && e.d.id == CurrentDeck(st).value.id)
  }

  /** Every possible event keeps the shell consistent, so the editor never
      opens without a deck. */
  lemma HandleKeepsConsistent(st: AppState, e: Event)
    requires Consistent(st) && Possible(st, e)
    ensures Consistent(Handle(st, e))
  {
    match e
    case DeckEdited(d) =>
      EditShowsInCurrent(st, d);
    case VersionSaved(newId, now) =>
      if CurrentDeck(st).Some? {
        FindSnoc(st.versions, CurrentDeck(st).value.(id := newId, createdAt := now), newId);
      }
    case _ =>
  }

  /** Events applied in order. */
  function Run(st: AppState, events: seq<Event>): (r: AppState)
    decreases |events|
  {
    if |events| == 0 then st else Run(Handle(st, events[0]), events[1..])
  }

  /** An event sequence each of whose events is possible when it arrives. */
  predicate PossibleRun(st: AppState, events: seq<Event>)
    decreases |events|
  {
    |events| == 0 || (Possible(st, events[0]) && PossibleRun(Handle(st, events[0]), events[1..]))
  }

  /** From the first screen, no sequence of possible events reaches the
      editor without a deck. */
  lemma {:induction false} RunKeepsConsistent(st: AppState, events: seq<Event>)
    requires Consistent(st) && PossibleRun(st, events)
    ensures Consistent(Run(st, events))
    ensures Run(st, events).step == Editor ==> CurrentDeck(Run(st, events)).Some?
    decreases |events|
  {
    if |events| > 0 {
      HandleKeepsConsistent(st, events[0]);
      RunKeepsConsistent(Handle(st, events[0]), events[1..]);
    }
  }

  lemma InitialIsConsistent()
    ensures Consistent(Initial) && CurrentDeck(Initial).None?
  {
  }
}

=== FILE: slide_editor.dfy ===
/** The side panel that edits one slide: title, bullets (typed as one line
    per bullet) and speaker notes. Each edit yields the updated slide the
    panel hands back to the deck editor. */
module SlideEditor {
  import opened Types
  import opened Seqs
  import opened Text

  const Newline: char := '\n'

  /** A line the bullet parser keeps: one with something besides white space. */
  predicate NotBlank(line: string) {
    !IsBlank(line)
  }

  /** A title edit: only the title changes. */
  function EditTitle(s: Slide, title: string): (r: Slide)
    ensures r.title == title
    ensures r.(title := s.title) == s
  {
    s.(title := title)
  }

  /** A notes edit: only the notes change. */
  function EditNotes(s: Slide, notes: string): (r: Slide)
    ensures r.notes == notes
    ensures r.(notes := s.notes) == s
  {
    s.(notes := notes)
  }

  /** The text shown in the bullets box: one bullet per line. */
  function BulletsText(bullets: seq<string>): (text: string)
  {
    Join(bullets, Newline)
  }

  /** Reads the bullets box back: its lines, in order, without the blank
      ones. Kept lines are not trimmed. */
  function ParseBullets(text: string): (bullets: seq<string>)
    ensures forall i :: 0 <= i < |bullets| ==> NotBlank(bullets[i]) && Newline !in bullets[i]
    ensures forall i :: 0 <= i < |bullets| ==> bullets[i] in Split(text, Newline)
    ensures forall line :: line in Split(text, Newline) && NotBlank(line) ==> line in bullets
  {
    Filter(NotBlank, Split(text, Newline))
  }

  /** The lines before a line break are read first, then the lines after
      it: parsing keeps the lines' order and count. */
  lemma ParseSplitsAtNewline(x: string, y: string)
    ensures ParseBullets(x + [Newline] + y) == ParseBullets(x) + ParseBullets(y)
  {
    SplitAtSeparator(x, Newline, y);
    FilterConcat(NotBlank, Split(x, Newline), Split(y, Newline));
  }

  /** A single line is kept, unchanged and once, exactly when it is not
      blank. */
  lemma ParseOneLine(line: string)
    requires Newline !in line
    ensures ParseBullets(line) == if NotBlank(line) then [line] else []
  {
    SplitWithoutSeparator(line, Newline);
    assert [line][1..] == [];
  }

  /** A bullets edit: only the bullets change, to the parsed lines. */
  function EditBullets(s: Slide, text: string): (r: Slide)
    ensures r.bullets == ParseBullets(text)
    ensures r.(bullets := s.bullets) == s
  {
    s.(bullets := ParseBullets(text))
  }

  /** Bullets a user can type: none spans two lines, none is blank. */
  predicate Typeable(bullets: seq<string>) {
    forall i :: 0 <= i < |bullets| ==> Newline !in bullets[i] && NotBlank(bullets[i])
  }

  /** Showing typeable bullets and reading them back gives the same bullets. */
  lemma ParseShowsRoundTrip(bullets: seq<string>)
    requires Typeable(bullets)
    ensures ParseBullets(BulletsText(bullets)) == bullets
  {
    if |bullets| == 0 {
      assert BulletsText(bullets) == "";
      assert Split("", Newline) == [""];
      BlankIffAllSpace("");
      assert !NotBlank("");
      assert Filter(NotBlank, [""]) == [] + Filter(NotBlank, [""][1..]);
    } else {
      SplitJoin(bullets, Newline);
      FilterKeepsAll(NotBlank, bullets);
    }
  }

  /** Whatever was typed, the parsed bullets are typeable, so a second
      round through the box changes nothing. */
  lemma ParseIsStable(text: string)
    ensures Typeable(ParseBullets(text))
    ensures ParseBullets(BulletsText(ParseBullets(text))) == ParseBullets(text)
  {
    ParseShowsRoundTrip(ParseBullets(text));
  }

  /** Retyping a slide's own (typeable) bullets leaves the slide unchanged. */
  lemma RetypingIsNoChange(s: Slide)
    requires Typeable(s.bullets)
    ensures EditBullets(s, BulletsText(s.bullets)) == s
  {
    ParseShowsRoundTrip(s.bullets);
  }
}

=== FILE: text.dfy ===
/** The JavaScript string operations SlideSmith relies on, restated over
    `seq<char>`: `trim`, `split`/`join` on one separator character,
    `includes`, an ASCII `toLowerCase`, and decimal formatting of numbers. */
module Text {
  import opened Types

  /** The characters `String.prototype.trim` removes: the ECMAScript
      WhiteSpace and LineTerminator code points. */
  predicate IsSpace(c: char) {
    || c == ' ' || c == '\t' || c == '\n' || c == '\r'
    || c == '\U{000B}' || c == '\U{000C}' || c == '\U{00A0}' || c == '\U{FEFF}'
    || c == '\U{1680}' || ('\U{2000}' <= c <= '\U{200A}')
    || c == '\U{2028}' || c == '\U{2029}' || c == '\U{202F}' || c == '\U{205F}'
    || c == '\U{3000}'
  }

  predicate AllSpace(s: string) {
    forall i :: 0 <= i < |s| ==> IsSpace(s[i])
  }

  /** `s` without its leading white space. */
  function TrimStart(s: string): (r: string)
    ensures |r| <= |s| && r == s[|s| - |r|..]
    ensures AllSpace(s[..|s| - |r|])
    ensures |r| > 0 ==> !IsSpace(r[0])
    decreases |s|
  {
    if |s| > 0 && IsSpace(s[0]) then TrimStart(s[1..]) else s
  }

  /** `s` without its trailing white space. */
  function TrimEnd(s: string): (r: string)
    ensures |r| <= |s| && r == s[..|r|]
    ensures AllSpace(s[|r|..])
    ensures |r| > 0 ==> !IsSpace(r[|r| - 1])
    decreases |s|
  {
    if |s| > 0 && IsSpace(s[|s| - 1]) then TrimEnd(s[..|s| - 1]) else s
  }

  function Trim(s: string): string {
    TrimEnd(TrimStart(s))
  }

  /** The app's blank test, `s.trim() === ''` (equivalently `s.trim().length === 0`). */
  predicate IsBlank(s: string) {
    Trim(s) == ""
  }

  /** Trimming yields the empty string exactly when every character is white space. */
  lemma BlankIffAllSpace(s: string)
    ensures IsBlank(s) <==> AllSpace(s)
  {
  }

  /** `parts.join(sep)` with a one-character separator. */
  function Join(parts: seq<string>, sep: char): (r: string)
    decreases |parts|
  {
    if |parts| == 0 then ""
    else if |parts| == 1 then parts[0]
    else parts[0] + [sep] + Join(parts[1..], sep)
  }

  /** `s.split(sep)` with a one-character separator: never empty, no piece
      holds the separator. */
  function Split(s: string, sep: char): (r: seq<string>)
    ensures |r| >= 1
    ensures forall i :: 0 <= i < |r| ==> sep !in r[i]
    decreases |s|
  {
    if |s| == 0 then [""]
    else if s[0] == sep then [""] + Split(s[1..], sep)
    else
      var rest := Split(s[1..], sep);
      [[s[0]] + rest[0]] + rest[1..]
  }

  lemma {:induction false} SplitWithoutSeparator(s: string, sep: char)
    requires sep !in s
    ensures Split(s, sep) == [s]
    decreases |s|
  {
    if |s| > 0 {
      SplitWithoutSeparator(s[1..], sep);
      assert [s[0]] + s[1..] == s;
    }
  }

  lemma {:induction false} SplitAfterPiece(p: string, sep: char, rest: string)
    requires sep !in p
    ensures Split(p + [sep] + rest, sep) == [p] + Split(rest, sep)
    decreases |p|
  {
    if |p| == 0 {
      assert p + [sep] + rest == [sep] + rest;
      assert ([sep] + rest)[1..] == rest;
    } else {
      var s := p + [sep] + rest;
      assert s[0] == p[0] && s[1..] == p[1..] + [sep] + rest;
      SplitAfterPiece(p[1..], sep, rest);
      assert [p[0]] + p[1..] == p;
    }
  }

  /** Splitting at one separator: the pieces before it, then the pieces
      after it. */
  lemma {:induction false} SplitAtSeparator(x: string, sep: char, y: string)
    ensures Split(x + [sep] + y, sep) == Split(x, sep) + Split(y, sep)
    decreases |x|
  {
    var s := x + [sep] + y;
    if |x| == 0 {
      assert s == [sep] + y;
    } else {
      assert s[1..] == x[1..] + [sep] + y;
      SplitAtSeparator(x[1..], sep, y);
      if x[0] != sep {
        SplitPastHead(Split(x[1..], sep), Split(y, sep), x[0]);
      }
    }
  }

  /** The step case of SplitAtSeparator: a leading non-separator joins the
      first piece. */
  lemma SplitPastHead(rx: seq<string>, ry: seq<string>, c: char)
    requires |rx| >= 1
    ensures var rest := rx + ry;
            [[c] + rest[0]] + rest[1..] == ([[c] + rx[0]] + rx[1..]) + ry
  {
    assert (rx + ry)[1..] == rx[1..] + ry;
  }

  /** Splitting a joined list gives the list back when no piece holds the
      separator (a list must have at least one piece: `[].join` and
      `[""].join` are both empty). */
  lemma {:induction false} SplitJoin(parts: seq<string>, sep: char)
    requires |parts| >= 1
    requires forall i :: 0 <= i < |parts| ==> sep !in parts[i]
    ensures Split(Join(parts, sep), sep) == parts
    decreases |parts|
  {
    if |parts| == 1 {
      SplitWithoutSeparator(parts[0], sep);
    } else {
      SplitJoin(parts[1..], sep);
      SplitAfterPiece(parts[0], sep, Join(parts[1..], sep));
      assert [parts[0]] + parts[1..] == parts;
    }
  }

  /** Joining the pieces of a split restores the text. */
  lemma {:induction false} JoinSplit(s: string, sep: char)
    ensures Join(Split(s, sep), sep) == s
    decreases |s|
  {
    if |s| > 0 {
      JoinSplit(s[1..], sep);
      var rest := Split(s[1..], sep);
      if s[0] == sep {
        assert ([""] + rest)[1..] == rest;
      } else if |rest| == 1 {
        assert [s[0]] + s[1..] == s;
      } else {
        var r := [[s[0]] + rest[0]] + rest[1..];
        assert r[1..] == rest[1..];
        assert Join(rest, sep) == rest[0] + [sep] + Join(rest[1..], sep);
        assert [s[0]] + s[1..] == s;
      }
    }
  }

  /** `hay.includes(needle)`. */
  predicate Contains(hay: string, needle: string)
    decreases |hay|
  {
    needle <= hay || (|hay| > 0 && Contains(hay[1..], needle))
  }

  /** `needle` sits in `hay` starting at position `k`. */
  predicate OccursAt(hay: string, needle: string, k: nat) {
    k + |needle| <= |hay| && hay[k..k + |needle|] == needle
  }

  /** An occurrence in the tail is an occurrence one place further on in
      the whole. */
  lemma OccursInTail(hay: string, needle: string, k: nat)
    requires |hay| > 0
    ensures OccursAt(hay[1..], needle, k) <==> OccursAt(hay, needle, k + 1)
  {
    if k + |needle| <= |hay| - 1 {
      assert hay[1..][k..k + |needle|] == hay[k + 1..k + 1 + |needle|];
    }
  }

  /** `includes` finds `needle` exactly when it occurs at some position. */
  lemma {:induction false} ContainsIffOccurs(hay: string, needle: string)
    ensures Contains(hay, needle) <==> exists k: nat :: OccursAt(hay, needle, k)
    decreases |hay|
  {
    if needle <= hay {
      assert OccursAt(hay, needle, 0);
    } else if |hay| > 0 {
      var tail := hay[1..];
      ContainsIffOccurs(tail, needle);
      if exists k: nat :: OccursAt(hay, needle, k) {
        var k: nat :| OccursAt(hay, needle, k);
        if k > 0 {
          OccursInTail(hay, needle, k - 1);
        }
      }
      if Contains(tail, needle) {
        var k: nat :| OccursAt(tail, needle, k);
        OccursInTail(hay, needle, k);
      }
    }
  }

  /** `s` without `prefix`, when `s` starts with it. */
  function StripPrefix(prefix: string, s: string): (r: Option<string>)
    ensures r.Some? <==> prefix <= s
    ensures r.Some? ==> prefix + r.value == s
  {
    if prefix <= s then Some(s[|prefix|..]) else None
  }

  /** `s` without `suffix`, when `s` ends with it. */
  function StripSuffix(suffix: string, s: string): (r: Option<string>)
    ensures r.Some? <==> |suffix| <= |s| && s[|s| - |suffix|..] == suffix
    ensures r.Some? ==> r.value + suffix == s
  {
    if |suffix| <= |s| && s[|s| - |suffix|..] == suffix then Some(s[..|s| - |suffix|]) else None
  }

  /** Prepending a prefix is undone by stripping it. */
  lemma StripPrefixInverse(prefix: string, s: string)
    ensures StripPrefix(prefix, prefix + s) == Some(s)
  {
    assert (prefix + s)[|prefix|..] == s;
  }

  /** Appending a suffix is undone by stripping it. */
  lemma StripSuffixInverse(suffix: string, s: string)
    ensures StripSuffix(suffix, s + suffix) == Some(s)
  {
    var t := s + suffix;
    assert t[|t| - |suffix|..] == suffix;
    assert t[..|t| - |suffix|] == s;
  }

  /** ASCII case folding: JavaScript's `toLowerCase` on the letters A-Z. */
  function LowerChar(c: char): (r: char)
    ensures !('A' <= r <= 'Z')
    ensures !('A' <= c <= 'Z') ==> r == c
  {
    if 'A' <= c <= 'Z' then (c as int + 32) as char else c
  }

  function ToLower(s: string): (r: string)
    ensures |r| == |s|
    ensures forall i :: 0 <= i < |s| ==> r[i] == LowerChar(s[i])
  {
    seq(|s|, i requires 0 <= i < |s| => LowerChar(s[i]))
  }

  /** Lower-casing twice is lower-casing once. */
  lemma ToLowerIdempotent(s: string)
    ensures ToLower(ToLower(s)) == ToLower(s)
  {
  }

  function DigitChar(d: nat): (c: char)
    requires d < 10
    ensures '0' <= c <= '9'
  {
    "0123456789"[d]
  }

  predicate IsDigits(s: string) {
    forall i :: 0 <= i < |s| ==> '0' <= s[i] <= '9'
  }

  /** Decimal rendering of a natural number, as a template literal prints it. */
  function NatToString(n: nat): (r: string)
    ensures |r| >= 1 && IsDigits(r)
    ensures |r| > 1 ==> r[0] != '0'
    decreases n
  {
    if n < 10 then [DigitChar(n)]
    else NatToString(n / 10) + [DigitChar(n % 10)]
  }

  /** Reads back a string of decimal digits. */
  function ParseDigits(s: string): nat
    requires IsDigits(s)
    decreases |s|
  {
    if |s| == 0 then 0
    else ParseDigits(s[..|s| - 1]) * 10 + (s[|s| - 1] as int - '0' as int)
  }

  /** Decimal rendering round-trips. */
  lemma {:induction false} ParseNatToString(n: nat)
    ensures ParseDigits(NatToString(n)) == n
    decreases n
  {
    if n >= 10 {
      ParseNatToString(n / 10);
      var r := NatToString(n);
      assert r[..|r| - 1] == NatToString(n / 10);
    }
  }

  /** Different numbers render differently. */
  lemma NatToStringInjective(a: nat, b: nat)
    requires NatToString(a) == NatToString(b)
    ensures a == b
  {
    ParseNatToString(a);
    ParseNatToString(b);
  }

  /** Decimal rendering of any integer, with a leading `-` when negative. */
  function IntToString(n: int): (r: string)
    ensures n >= 0 ==> r == NatToString(n)
    ensures n < 0 ==> r == "-" + NatToString(-n)
  {
    if n < 0 then "-" + NatToString(-n) else NatToString(n)
  }

  predicate IsDigit(c: char) {
    '0' <= c <= '9'
  }

  /** The number of digits `s` starts with. */
  function DigitRun(s: string): (n: nat)
    ensures n <= |s|
    decreases |s|
  {
    if |s| == 0 || !IsDigit(s[0]) then 0 else 1 + DigitRun(s[1..])
  }

  /** Digits followed by a non-digit: the run is exactly the digits. */
  lemma {:induction false} DigitRunOf(x: string, rest: string)
    requires IsDigits(x)
    requires |rest| > 0 && !IsDigit(rest[0])
    ensures DigitRun(x + rest) == |x|
    decreases |x|
  {
    if |x| > 0 {
      assert (x + rest)[1..] == x[1..] + rest;
      DigitRunOf(x[1..], rest);
    } else {
      assert x + rest == rest;
    }
  }

  /** A run of digits followed by something else is fixed by the text:
      where the digits stop is where the first non-digit stands. */
  lemma DigitsThenOther(x: string, rx: string, y: string, ry: string)
    requires IsDigits(x) && IsDigits(y)
    requires |rx| > 0 && !IsDigit(rx[0])
    requires |ry| > 0 && !IsDigit(ry[0])
    requires x + rx == y + ry
    ensures x == y && rx == ry
  {
    DigitRunOf(x, rx);
    DigitRunOf(y, ry);
    assert x == (x + rx)[..|x|];
    assert y == (y + ry)[..|y|];
    assert rx == (x + rx)[|x|..];
    assert ry == (y + ry)[|y|..];
  }

  /** The "Step 2 of 5" counter both progress screens print, for the step
      at `index` (from 0) of `total`. */
  function StepOf(index: nat, total: nat): (shown: string)
    ensures StripPrefix("Step ", shown).Some?
  {
    StripPrefixInverse("Step ", NatToString(index + 1) + " of " + NatToString(total));
    assert "Step " + NatToString(index + 1) + " of " + NatToString(total)
           == "Step " + (NatToString(index + 1) + " of " + NatToString(total));
    "Step " + NatToString(index + 1) + " of " + NatToString(total)
  }

  /** The counter names the step: different steps read differently. */
  lemma StepOfNamesStep(a: nat, b: nat, total: nat)
    requires StepOf(a, total) == StepOf(b, total)
    ensures a == b
  {
    var tail := " of " + NatToString(total);
    var na, nb := NatToString(a + 1), NatToString(b + 1);
    assert StepOf(a, total) == "Step " + (na + tail);
    assert StepOf(b, total) == "Step " + (nb + tail);
    StripPrefixInverse("Step ", na + tail);
    StripPrefixInverse("Step ", nb + tail);
    assert na + tail == nb + tail;
    DigitsThenOther(na, tail, nb, tail);
    NatToStringInjective(a + 1, b + 1);
  }
}

=== FILE: types.dfy ===
/** The entities every other module works on: a slide, a deck of slides and
    the brief a deck is generated from, plus the two small failure-carrying
    wrappers the operations return. */
module Types {

  /** An optional value (JavaScript's `undefined` / `null` in the app). */
  datatype Option<T> = None | Some(value: T)

  /** The value of a fallible operation: its result, or the message of the
      error the app throws. */
  datatype Outcome<T> = Ok(value: T) | Err(message: string)

  /** Credits for a stock photo, as shown under the slide image. */
  datatype Attribution = Attribution(photographerName: string, photographerUrl: string, unsplashUrl: string)

  datatype Slide = Slide(
    id: string,
    title: string,
    bullets: seq<string>,
    notes: string,
    imageKeyword: string,
    imageUrl: Option<string>,
    imageAttribution: Option<Attribution>)

  /** `createdAt` is an opaque ISO time stamp supplied by the caller. */
  datatype Deck = Deck(id: string, topic: string, audience: string, slides: seq<Slide>, createdAt: string)

  datatype Brief = Brief(topic: string, audience: string, objective: string, situation: string, insights: string)

  /** What the text model produces for one slide, before ids and images are added. */
  datatype Draft = Draft(title: string, bullets: seq<string>, notes: string, imageKeyword: string)

  /** A point in time, as the store orders rows by it. */
  type Timestamp = int

  /** JavaScript's `a || b` on two strings: `a` unless it is empty. */
  function Or(a: string, b: string): (r: string)
    ensures r == a || r == b
    ensures r == "" ==> a == "" && b == ""
    ensures a != "" ==> r == a
  {
    if a != "" then a else b
  }

  /** JavaScript's `s || undefined`: the empty string counts as absent. */
  function NonEmpty(s: string): (r: Option<string>)
    ensures r.Some? <==> s != ""
    ensures r.Some? ==> r.value == s
  {
    if s == "" then None else Some(s)
  }

  /** The slide's content as a draft: everything the generator wrote for it. */
  function DraftOf(s: Slide): Draft {
    Draft(s.title, s.bullets, s.notes, s.imageKeyword)
  }
}

=== FILE: upstream.dfy ===
/** What the server functions and the browser client exchange with the
    outside: the stock-photo search and chat-completion replies they act on,
    the request an edge function receives and the response it sends. The
    network itself is not modelled; each reply is a parameter. */
module Upstream {
  import opened Types
  import opened Text

  /** An access key read from the environment: unset and empty both count
      as not configured. */
  predicate Configured(key: string) {
    key != ""
  }

  /** An HTTP status `fetch` reports as `ok`. */
  predicate IsOk(status: int) {
    200 <= status <= 299
  }

  /** The fields of a search result SlideSmith reads: the regular-size image
      URL, the photographer's name and profile page, and the photo's page. */
  datatype Photo = Photo(regularUrl: string, userName: string, userPage: string, photoPage: string)

  /** The stock-photo search: an answer with its status and result list (an
      absent list reads as empty), or an exception from the network or from
      reading the body, carrying its message. */
  datatype SearchReply =
    | Answered(status: int, results: seq<Photo>)
    | SearchFailed(message: string)

  /** The search found a photo to use. */
  predicate Found(reply: SearchReply) {
    reply.Answered? && IsOk(reply.status) && |reply.results| > 0
  }

  /** A profile or photo page with the referral parameters appended. */
  function WithReferral(page: string, referral: string): (link: string)
    ensures StripSuffix(referral, link) == Some(page)
  {
    StripSuffixInverse(referral, page);
    page + referral
  }

  /** The credits of a search result, with links carrying `referral`. */
  function AttributionOf(p: Photo, referral: string): (a: Attribution)
    ensures a.photographerName == p.userName
    ensures StripSuffix(referral, a.photographerUrl) == Some(p.userPage)
    ensures StripSuffix(referral, a.unsplashUrl) == Some(p.photoPage)
  {
    Attribution(p.userName, WithReferral(p.userPage, referral), WithReferral(p.photoPage, referral))
  }

  /** A photo to place on a slide and its credits. */
  datatype ImageData = ImageData(url: string, attribution: Attribution)

  /** The chat-completion call: the model's parsed content, a refusal with
      a non-OK status whose body carries `error.message` (empty when
      absent), or an exception from the network, from reading the body or
      from parsing the content, carrying its message. */
  datatype ChatReply<T> =
    | Completed(content: T)
    | Refused(errorMessage: string)
    | ChatFailed(message: string)

  /** The JSON body of a request: parsed, or the message of the parse error. */
  datatype RequestBody<T> = Parsed(value: T) | Malformed(message: string)

  datatype Body<T> = NoBody | Payload(value: T) | ErrorBody(error: string)

  /** The response of an edge function; CORS headers are the same on every
      response and are left out. */
  datatype Response<T> = Response(status: int, body: Body<T>)

  /** The CORS pre-flight request every edge function answers first. */
  predicate IsPreflight(httpMethod: string) {
    httpMethod == "OPTIONS"
  }

  function PreflightResponse<T>(): (r: Response<T>)
    ensures r.status == 200 && r.body.NoBody?
  {
    Response(200, NoBody)
  }

  /** The catch-all of an edge function: status 500 with the message. */
  function ServerError<T>(message: string): (r: Response<T>)
    ensures r.status == 500 && r.body == ErrorBody(message)
  {
    Response(500, ErrorBody(message))
  }
}

=== FILE: version_store.dfy ===
/** The presentation store: a table of presentation headers (one per saved
    brief) and a table of version rows (one per saved deck), with the seven
    operations the client performs on them. Every database request can fail;
    whether it does is an input of the operation (`...Ok` flags), the
    generated row ids and the current time are inputs too. */
module VersionStore {
  import opened Types
  import opened Seqs

  datatype PresentationRecord = PresentationRecord(
    id: string,
    userId: string,
    topic: string,
    audience: string,
    objective: string,
    situation: string,
    insights: string,
    createdAt: Timestamp,
    updatedAt: Timestamp,
    isFavorite: bool)

  datatype VersionRecord = VersionRecord(
    id: string,
    presentationId: string,
    versionNumber: int,
    slidesData: Deck,
    createdAt: Timestamp,
    isCurrent: bool)

  /** Both tables, rows in insertion order. */
  datatype Store = Store(presentations: seq<PresentationRecord>, versions: seq<VersionRecord>)

  /** The store after an operation, and what the operation returned or threw. */
  datatype After<T> = After(store: Store, result: Outcome<T>)

  /** What opening a saved presentation yields. */
  datatype Loaded = Loaded(brief: Brief, deck: Deck, versions: seq<Deck>)

  // ---------------------------------------------------------------------
  // Views of the tables

  function HasId(id: string): PresentationRecord -> bool {
    (h: PresentationRecord) => h.id == id
  }

  function LacksId(id: string): PresentationRecord -> bool {
    (h: PresentationRecord) => h.id != id
  }

  function OwnedBy(userId: string): PresentationRecord -> bool {
    (h: PresentationRecord) => h.userId == userId
  }

  function BelongsTo(p: string): VersionRecord -> bool {
    (v: VersionRecord) => v.presentationId == p
  }

  function IsCurrent(v: VersionRecord): bool {
    v.isCurrent
  }

  function VersionNumber(v: VersionRecord): int {
    v.versionNumber
  }

  function SlidesData(v: VersionRecord): Deck {
    v.slidesData
  }

  /** Sort key of the dashboard listing: most recently updated first. */
  function NewestFirst(h: PresentationRecord): int {
    -h.updatedAt
  }

  /** The headers carrying `id`. */
  function HeadersWith(ps: seq<PresentationRecord>, id: string): (r: seq<PresentationRecord>)
    ensures forall i :: 0 <= i < |r| ==> r[i].id == id
  {
    Filter(HasId(id), ps)
  }

  /** The version rows of presentation `p`, in insertion order. */
  function VersionsOf(vs: seq<VersionRecord>, p: string): (r: seq<VersionRecord>)
    ensures forall i :: 0 <= i < |r| ==> r[i].presentationId == p
  {
    Filter(BelongsTo(p), vs)
  }

  /** The rows flagged as current. */
  function CurrentsOf(vs: seq<VersionRecord>): (r: seq<VersionRecord>)
    ensures forall i :: 0 <= i < |r| ==> r[i].isCurrent
  {
    Filter(IsCurrent, vs)
  }

  // ---------------------------------------------------------------------
  // The invariant

  /** Version numbers start at 1 and strictly increase in insertion order
      (so they are also unique). */
  predicate NumbersIncrease(vs: seq<VersionRecord>) {
    && (forall i :: 0 <= i < |vs| ==> vs[i].versionNumber >= 1)
    && (forall i, j :: 0 <= i < j < |vs| ==> vs[i].versionNumber < vs[j].versionNumber)
  }

  /** At most one row is current, and if one is, it is the newest. */
  predicate CurrentIsLatest(vs: seq<VersionRecord>) {
    CurrentsOf(vs) == [] || (|vs| > 0 && CurrentsOf(vs) == [vs[|vs| - 1]])
  }

  predicate HistoryValid(vs: seq<VersionRecord>) {
    NumbersIncrease(vs) && CurrentIsLatest(vs)
  }

  predicate DistinctIds(ps: seq<PresentationRecord>) {
    Pairwise((a: PresentationRecord, b: PresentationRecord) => a.id != b.id, ps)
  }

  /** The store invariant the client's sequential use maintains. */
  ghost predicate Valid(s: Store) {
    DistinctIds(s.presentations) && forall p :: HistoryValid(VersionsOf(s.versions, p))
  }

  /** An id the database has never handed out: no header and no version
      row refers to it. */
  predicate Fresh(s: Store, id: string) {
    HeadersWith(s.presentations, id) == [] && VersionsOf(s.versions, id) == []
  }

  /** Two rows that agree on everything except the current flag. */
  predicate SameVersion(a: VersionRecord, b: VersionRecord) {
    a.(isCurrent := b.isCurrent) == b
  }

  /** `after` keeps every row of `before`, in place, with its number and
      deck: history is never shortened, reordered or renumbered. */
  predicate Extends(before: seq<VersionRecord>, after: seq<VersionRecord>) {
    |before| <= |after| && forall i :: 0 <= i < |before| ==> SameVersion(before[i], after[i])
  }

  // ---------------------------------------------------------------------
  // savePresentation

  function NewHeader(id: string, userId: string, brief: Brief, now: Timestamp): (h: PresentationRecord)
    ensures h.id == id && h.userId == userId && !h.isFavorite
    ensures h.topic == brief.topic && h.audience == brief.audience && h.objective == brief.objective
    ensures h.situation == brief.situation && h.insights == brief.insights
    ensures h.createdAt == now && h.updatedAt == now
  {
    PresentationRecord(id, userId, brief.topic, brief.audience, brief.objective, brief.situation,
                       Or(brief.insights, ""), now, now, false)
  }

  /** Inserts the header, then version 1 of the deck as the current version.
      A failed version insert reports an error but leaves the header. */
  function SavePresentation(s: Store, userId: string, brief: Brief, deck: Deck,
                            headerId: string, versionId: string, now: Timestamp,
                            headerOk: bool, versionOk: bool): (a: After<string>)
    ensures a.result.Ok? <==> headerOk && versionOk
    ensures !headerOk ==> a == After(s, Err("Failed to save presentation"))
    ensures headerOk ==> a.store.presentations == s.presentations + [NewHeader(headerId, userId, brief, now)]
    ensures headerOk && !versionOk ==>
              a.store.versions == s.versions && a.result == Err("Failed to save presentation version")
    ensures a.result.Ok? ==>
              a.result.value == headerId
              && a.store.versions == s.versions + [VersionRecord(versionId, headerId, 1, deck, now, true)]
  {
    if !headerOk then After(s, Err("Failed to save presentation"))
    else
      var withHeader := Store(s.presentations + [NewHeader(headerId, userId, brief, now)], s.versions);
      if !versionOk then After(withHeader, Err("Failed to save presentation version"))
      else
        var first := VersionRecord(versionId, headerId, 1, deck, now, true);
        After(Store(withHeader.presentations, s.versions + [first]), Ok(headerId))
  }

  lemma HeadersAppend(ps: seq<PresentationRecord>, h: PresentationRecord, id: string)
    ensures HeadersWith(ps + [h], id) == HeadersWith(ps, id) + (if h.id == id then [h] else [])
  {
    FilterSnoc(HasId(id), ps, h);
  }

  lemma VersionsAppend(vs: seq<VersionRecord>, v: VersionRecord, p: string)
    ensures VersionsOf(vs + [v], p) == VersionsOf(vs, p) + (if v.presentationId == p then [v] else [])
  {
    FilterSnoc(BelongsTo(p), vs, v);
  }

  lemma CurrentsAppend(vs: seq<VersionRecord>, v: VersionRecord)
    ensures CurrentsOf(vs + [v]) == CurrentsOf(vs) + (if v.isCurrent then [v] else [])
  {
    FilterSnoc(IsCurrent, vs, v);
  }

  /** Header ids stay distinct when a header with a fresh id is appended. */
  lemma DistinctAppend(ps: seq<PresentationRecord>, h: PresentationRecord)
    requires DistinctIds(ps) && HeadersWith(ps, h.id) == []
    ensures DistinctIds(ps + [h])
  {
    var r := ps + [h];
    forall i, j | 0 <= i < j < |r| ensures r[i].id != r[j].id {
      if j == |ps| {
        assert r[i] == ps[i];
      } else {
        assert r[i] == ps[i] && r[j] == ps[j];
      }
    }
  }

  /** Saving a new presentation gives it a history of exactly one row:
      version 1, current, holding the deck. Other histories are untouched. */
  lemma {:induction false} SaveCreatesFirstVersion(s: Store, userId: string, brief: Brief, deck: Deck,
                                                   headerId: string, versionId: string, now: Timestamp,
                                                   headerOk: bool, versionOk: bool)
    requires Fresh(s, headerId)
    ensures var a := SavePresentation(s, userId, brief, deck, headerId, versionId, now, headerOk, versionOk);
            && (a.result.Ok? ==>
                  VersionsOf(a.store.versions, headerId) == [VersionRecord(versionId, headerId, 1, deck, now, true)])
            && (forall q :: q != headerId ==> VersionsOf(a.store.versions, q) == VersionsOf(s.versions, q))
  {
    var a := SavePresentation(s, userId, brief, deck, headerId, versionId, now, headerOk, versionOk);
    if a.result.Ok? {
      var v := VersionRecord(versionId, headerId, 1, deck, now, true);
      forall q ensures VersionsOf(a.store.versions, q) == VersionsOf(s.versions, q) + (if q == headerId then [v] else []) {
        VersionsAppend(s.versions, v, q);
      }
    }
  }

  /** Saving a presentation under a fresh id keeps the store valid, whether
      or not the version insert succeeds. */
  lemma SaveKeepsValid(s: Store, userId: string, brief: Brief, deck: Deck,
                       headerId: string, versionId: string, now: Timestamp,
                       headerOk: bool, versionOk: bool)
    requires Valid(s) && Fresh(s, headerId)
    ensures Valid(SavePresentation(s, userId, brief, deck, headerId, versionId, now, headerOk, versionOk).store)
  {
    var a := SavePresentation(s, userId, brief, deck, headerId, versionId, now, headerOk, versionOk);
    if headerOk {
      DistinctAppend(s.presentations, NewHeader(headerId, userId, brief, now));
      SaveCreatesFirstVersion(s, userId, brief, deck, headerId, versionId, now, headerOk, versionOk);
      if versionOk {
        var v := VersionRecord(versionId, headerId, 1, deck, now, true);
        assert VersionsOf(a.store.versions, headerId) == [v];
        assert CurrentsOf([v]) == [v];
        assert HistoryValid(VersionsOf(a.store.versions, headerId));
      }
    }
  }

  // ---------------------------------------------------------------------
  // updatePresentation

  /** The header with the brief's fields written over it. */
  function Revised(h: PresentationRecord, brief: Brief): (r: PresentationRecord)
    ensures r.id == h.id && r.userId == h.userId && r.isFavorite == h.isFavorite
    ensures r.createdAt == h.createdAt && r.updatedAt == h.updatedAt
    ensures r.topic == brief.topic && r.audience == brief.audience && r.objective == brief.objective
    ensures r.situation == brief.situation && r.insights == brief.insights
  {
    h.(topic := brief.topic, audience := brief.audience, objective := brief.objective,
       situation := brief.situation, insights := Or(brief.insights, ""))
  }

  function ReviseIn(id: string, brief: Brief): PresentationRecord -> PresentationRecord {
    (h: PresentationRecord) => if h.id == id then Revised(h, brief) else h
  }

  /** Rewrites the brief fields of the header with `id`; nothing else changes. */
  function UpdatePresentation(s: Store, id: string, brief: Brief, ok: bool): (a: After<()>)
    ensures !ok ==> a == After(s, Err("Failed to update presentation"))
    ensures ok ==> a.result.Ok? && a.store.versions == s.versions
    ensures ok ==> |a.store.presentations| == |s.presentations|
    ensures ok ==> forall i :: 0 <= i < |s.presentations| ==>
              a.store.presentations[i] == (if s.presentations[i].id == id then Revised(s.presentations[i], brief)
                                           else s.presentations[i])
  {
    if !ok then After(s, Err("Failed to update presentation"))
    else After(Store(Map(ReviseIn(id, brief), s.presentations), s.versions), Ok(()))
  }

  /** A map that keeps every id keeps the ids distinct. */
  lemma DistinctMap(g: PresentationRecord -> PresentationRecord, ps: seq<PresentationRecord>)
    requires DistinctIds(ps)
    requires forall h :: g(h).id == h.id
    ensures DistinctIds(Map(g, ps))
  {
    var r := Map(g, ps);
    forall i, j | 0 <= i < j < |r| ensures r[i].id != r[j].id {
      assert r[i].id == ps[i].id && r[j].id == ps[j].id;
    }
  }

  lemma UpdateKeepsValid(s: Store, id: string, brief: Brief, ok: bool)
    requires Valid(s)
    ensures Valid(UpdatePresentation(s, id, brief, ok).store)
  {
    if ok {
      DistinctMap(ReviseIn(id, brief), s.presentations);
    }
  }

  // ---------------------------------------------------------------------
  // saveNewVersion

  /** The largest version number among `vs`. */
  function MaxNumber(vs: seq<VersionRecord>): (m: int)
    requires |vs| > 0
    ensures forall i :: 0 <= i < |vs| ==> vs[i].versionNumber <= m
    ensures exists i :: 0 <= i < |vs| && vs[i].versionNumber == m
    decreases |vs|
  {
    if |vs| == 1 then vs[0].versionNumber
    else
      var rest := MaxNumber(vs[1..]);
      assert forall i :: 1 <= i < |vs| ==> vs[i] == vs[1..][i - 1];
      if vs[0].versionNumber >= rest then vs[0].versionNumber else rest
  }

  /** The number a new version gets: one past the largest, or 1 for an
      empty history. */
  function NextNumber(vs: seq<VersionRecord>): (n: int)
    ensures forall i :: 0 <= i < |vs| ==> vs[i].versionNumber < n
    ensures |vs| == 0 ==> n == 1
    ensures |vs| > 0 ==> exists i :: 0 <= i < |vs| && vs[i].versionNumber == n - 1
  {
    if |vs| == 0 then 1 else MaxNumber(vs) + 1
  }

  function Cleared(p: string, v: VersionRecord): (r: VersionRecord)
    ensures r.presentationId == v.presentationId && SameVersion(v, r)
    ensures r.isCurrent == (v.isCurrent && v.presentationId != p)
  {
    if v.presentationId == p then v.(isCurrent := false) else v
  }

  function ClearIn(p: string): VersionRecord -> VersionRecord {
    (v: VersionRecord) => Cleared(p, v)
  }

  /** The bulk update that drops the current flag of every row of `p`. */
  function ClearFlags(vs: seq<VersionRecord>, p: string): (r: seq<VersionRecord>)
    ensures |r| == |vs|
    ensures forall i :: 0 <= i < |vs| ==> r[i] == Cleared(p, vs[i])
  {
    Map(ClearIn(p), vs)
  }

  /** `saveNewVersion` as the code is written: the outcome of the read of the
      largest number and of the flag-clearing update is never inspected. A
      failed read yields no rows, hence number 1; a failed clear leaves the
      old current flag standing. Only the insert's failure is reported. */
  function SaveNewVersionAsWritten(s: Store, p: string, deck: Deck, versionId: string, now: Timestamp,
                                   readOk: bool, clearOk: bool, insertOk: bool): (a: After<string>)
    ensures a.store.presentations == s.presentations
    ensures a.result.Ok? <==> insertOk
    ensures a.result.Ok? ==> a.result.value == versionId
    ensures insertOk ==> |a.store.versions| == |s.versions| + 1
    ensures !insertOk ==> |a.store.versions| == |s.versions| && a.result == Err("Failed to save new version")
  {
    var next := if readOk then NextNumber(VersionsOf(s.versions, p)) else 1;
    var rows := if clearOk then ClearFlags(s.versions, p) else s.versions;
    if !insertOk then After(Store(s.presentations, rows), Err("Failed to save new version"))
    else
      var added := VersionRecord(versionId, p, next, deck, now, true);
      After(Store(s.presentations, rows + [added]), Ok(versionId))
  }

  /** `saveNewVersion` with the two unchecked requests checked: a failed read
      or a failed clear reports the error and changes nothing. */
  function SaveNewVersion(s: Store, p: string, deck: Deck, versionId: string, now: Timestamp,
                          readOk: bool, clearOk: bool, insertOk: bool): (a: After<string>)
    ensures a.store.presentations == s.presentations
    ensures a.result.Ok? <==> readOk && clearOk && insertOk
    ensures a.result.Ok? ==> a.result.value == versionId
    ensures !(readOk && clearOk) ==> a == After(s, Err("Failed to save new version"))
    ensures readOk && clearOk ==>
              a == SaveNewVersionAsWritten(s, p, deck, versionId, now, readOk, clearOk, insertOk)
  {
    if !readOk || !clearOk then After(s, Err("Failed to save new version"))
    else SaveNewVersionAsWritten(s, p, deck, versionId, now, true, true, insertOk)
  }

  /** What clearing does to each history: `p`'s loses its flags, the others
      are untouched. */
  lemma {:induction false} ClearedHistories(vs: seq<VersionRecord>, p: string, q: string)
    ensures VersionsOf(ClearFlags(vs, p), q) == ClearFlags(VersionsOf(vs, q), p)
    ensures q != p ==> VersionsOf(ClearFlags(vs, p), q) == VersionsOf(vs, q)
    ensures q == p ==> CurrentsOf(VersionsOf(ClearFlags(vs, p), q)) == []
  {
    FilterMap(BelongsTo(q), ClearIn(p), vs);
    var before := VersionsOf(vs, q);
    var after := ClearFlags(before, p);
    if q != p {
      assert after == before;
    } else {
      FilterNone(IsCurrent, after);
    }
  }

  /** The effect of a successful `saveNewVersion` on the histories: the new
      row, numbered one past the largest, goes last and is the only current
      row of `p`; every other presentation's history is unchanged. A failed
      insert still leaves `p` with no current row. */
  lemma {:induction false} NewVersionHistory(s: Store, p: string, deck: Deck, versionId: string, now: Timestamp,
                                             readOk: bool, clearOk: bool, insertOk: bool)
    ensures var a := SaveNewVersion(s, p, deck, versionId, now, readOk, clearOk, insertOk);
            var old_ := VersionsOf(s.versions, p);
            var added := VersionRecord(versionId, p, NextNumber(old_), deck, now, true);
            && (a.result.Ok? ==> VersionsOf(a.store.versions, p) == ClearFlags(old_, p) + [added])
            && (a.result.Ok? ==> CurrentsOf(VersionsOf(a.store.versions, p)) == [added])
            && (readOk && clearOk && !insertOk ==>
                  VersionsOf(a.store.versions, p) == ClearFlags(old_, p)
                  && CurrentsOf(VersionsOf(a.store.versions, p)) == [])
            && (forall q :: q != p ==> VersionsOf(a.store.versions, q) == VersionsOf(s.versions, q))
  {
    var a := SaveNewVersion(s, p, deck, versionId, now, readOk, clearOk, insertOk);
    if readOk && clearOk {
      var rows := ClearFlags(s.versions, p);
      var old_ := VersionsOf(s.versions, p);
      var added := VersionRecord(versionId, p, NextNumber(old_), deck, now, true);
      ClearedHistories(s.versions, p, p);
      forall q | q != p ensures VersionsOf(a.store.versions, q) == VersionsOf(s.versions, q) {
        ClearedHistories(s.versions, p, q);
        if insertOk {
          VersionsAppend(rows, added, q);
        }
      }
      if insertOk {
        VersionsAppend(rows, added, p);
        CurrentsAppend(VersionsOf(rows, p), added);
      }
    }
  }

  /** A `saveNewVersion` never shortens, reorders or renumbers the history
      of the presentation it adds to; a successful one adds exactly one row. */
  lemma NewVersionExtends(s: Store, p: string, deck: Deck, versionId: string, now: Timestamp,
                          readOk: bool, clearOk: bool, insertOk: bool)
    ensures var a := SaveNewVersion(s, p, deck, versionId, now, readOk, clearOk, insertOk);
            && Extends(VersionsOf(s.versions, p), VersionsOf(a.store.versions, p))
            && (a.result.Ok? ==> |VersionsOf(a.store.versions, p)| == |VersionsOf(s.versions, p)| + 1)
  {
    NewVersionHistory(s, p, deck, versionId, now, readOk, clearOk, insertOk);
  }

  /** Clearing flags keeps the numbering. */
  lemma ClearedNumbers(h: seq<VersionRecord>, p: string)
    requires NumbersIncrease(h)
    ensures NumbersIncrease(ClearFlags(h, p))
  {
    var c := ClearFlags(h, p);
    assert forall i :: 0 <= i < |c| ==> c[i].versionNumber == h[i].versionNumber;
  }

  /** A row numbered above every other keeps the numbering increasing. */
  lemma SnocNumbers(h: seq<VersionRecord>, v: VersionRecord)
    requires NumbersIncrease(h) && v.versionNumber >= 1
    requires forall i :: 0 <= i < |h| ==> h[i].versionNumber < v.versionNumber
    ensures NumbersIncrease(h + [v])
  {
    var r := h + [v];
    forall i, j | 0 <= i < j < |r| ensures r[i].versionNumber < r[j].versionNumber {
      assert r[i] == h[i];
    }
  }

  /** A successful `saveNewVersion` keeps the store valid. */
  lemma NewVersionKeepsValid(s: Store, p: string, deck: Deck, versionId: string, now: Timestamp,
                             readOk: bool, clearOk: bool, insertOk: bool)
    requires Valid(s)
    ensures Valid(SaveNewVersion(s, p, deck, versionId, now, readOk, clearOk, insertOk).store)
  {
    var a := SaveNewVersion(s, p, deck, versionId, now, readOk, clearOk, insertOk);
    NewVersionHistory(s, p, deck, versionId, now, readOk, clearOk, insertOk);
    if readOk && clearOk {
      var old_ := VersionsOf(s.versions, p);
      assert HistoryValid(old_);
      var cleared := ClearFlags(old_, p);
      ClearedNumbers(old_, p);
      if insertOk {
        var added := VersionRecord(versionId, p, NextNumber(old_), deck, now, true);
        assert NextNumber(old_) >= 1 by {
          if |old_| > 0 {
            assert old_[0].versionNumber >= 1;
          }
        }
        assert forall i :: 0 <= i < |cleared| ==> cleared[i].versionNumber == old_[i].versionNumber;
        SnocNumbers(cleared, added);
      }
      assert HistoryValid(VersionsOf(a.store.versions, p));
      forall q ensures HistoryValid(VersionsOf(a.store.versions, q)) {
        if q != p {
          assert VersionsOf(a.store.versions, q) == VersionsOf(s.versions, q);
        }
      }
    }
  }

  // ---------------------------------------------------------------------
  // Exactly one current version

  /** A history that is empty or has exactly one current row, its newest. */
  predicate OneCurrent(vs: seq<VersionRecord>) {
    vs == [] || CurrentsOf(vs) == [vs[|vs| - 1]]
  }

  /** The stricter invariant: the store is valid and no history has lost
      its current row. */
  ghost predicate Settled(s: Store) {
    Valid(s) && forall p :: OneCurrent(VersionsOf(s.versions, p))
  }

  /** `savePresentation` keeps the store settled whatever fails: a failed
      version insert leaves the new header with no version at all. */
  lemma SaveKeepsSettled(s: Store, userId: string, brief: Brief, deck: Deck,
                         headerId: string, versionId: string, now: Timestamp,
                         headerOk: bool, versionOk: bool)
    requires Settled(s) && Fresh(s, headerId)
    ensures Settled(SavePresentation(s, userId, brief, deck, headerId, versionId, now, headerOk, versionOk).store)
  {
    var a := SavePresentation(s, userId, brief, deck, headerId, versionId, now, headerOk, versionOk);
    SaveKeepsValid(s, userId, brief, deck, headerId, versionId, now, headerOk, versionOk);
    SaveCreatesFirstVersion(s, userId, brief, deck, headerId, versionId, now, headerOk, versionOk);
    forall q ensures OneCurrent(VersionsOf(a.store.versions, q)) {
      if q == headerId && a.result.Ok? {
        var v := VersionRecord(versionId, headerId, 1, deck, now, true);
        assert CurrentsOf([v]) == [v];
      } else if q == headerId {
        assert a.store.versions == s.versions;
      }
    }
  }

  /** Edits of a header (update, delete, favourite) leave every history as
      it was, so the store stays settled whether or not they succeed. */
  lemma HeaderEditsKeepSettled(s: Store, id: string, brief: Brief, isFavorite: bool, ok: bool)
    requires Settled(s)
    ensures Settled(UpdatePresentation(s, id, brief, ok).store)
    ensures Settled(DeletePresentation(s, id, ok).store)
    ensures Settled(ToggleFavorite(s, id, isFavorite, ok).store)
  {
    UpdateKeepsValid(s, id, brief, ok);
    if ok {
      DeleteThenLoadFails(s, id, true, true);
      ToggleIdempotent(s, id, isFavorite);
    }
  }

  /** A successful `saveNewVersion`, or one stopped by a failed read or
      clear, keeps the store settled. One whose insert fails after the
      clear leaves a non-empty history with no current row. */
  lemma NewVersionKeepsSettled(s: Store, p: string, deck: Deck, versionId: string, now: Timestamp,
                               readOk: bool, clearOk: bool, insertOk: bool)
    requires Settled(s)
    ensures var a := SaveNewVersion(s, p, deck, versionId, now, readOk, clearOk, insertOk);
            && (a.result.Ok? || !(readOk && clearOk) ==> Settled(a.store))
            && (readOk && clearOk && !insertOk && VersionsOf(s.versions, p) != [] ==>
                  !OneCurrent(VersionsOf(a.store.versions, p)) && !Settled(a.store))
  {
    if readOk && clearOk && insertOk {
      SuccessfulNewVersionSettles(s, p, deck, versionId, now);
    } else if readOk && clearOk && VersionsOf(s.versions, p) != [] {
      FailedInsertUnsettles(s, p, deck, versionId, now);
    }
  }

  lemma SuccessfulNewVersionSettles(s: Store, p: string, deck: Deck, versionId: string, now: Timestamp)
    requires Settled(s)
    ensures Settled(SaveNewVersion(s, p, deck, versionId, now, true, true, true).store)
  {
    var a := SaveNewVersion(s, p, deck, versionId, now, true, true, true);
    NewVersionHistory(s, p, deck, versionId, now, true, true, true);
    NewVersionKeepsValid(s, p, deck, versionId, now, true, true, true);
    forall q ensures OneCurrent(VersionsOf(a.store.versions, q)) {
      if q != p {
        assert VersionsOf(a.store.versions, q) == VersionsOf(s.versions, q);
      }
    }
  }

  lemma FailedInsertUnsettles(s: Store, p: string, deck: Deck, versionId: string, now: Timestamp)
    requires VersionsOf(s.versions, p) != []
    ensures !OneCurrent(VersionsOf(SaveNewVersion(s, p, deck, versionId, now, true, true, false).store.versions, p))
  {
    NewVersionHistory(s, p, deck, versionId, now, true, true, false);
  }

  /** After a history numbered 1..k the next number is k + 1. */
  lemma NextAfterConsecutive(h: seq<VersionRecord>)
    requires forall i :: 0 <= i < |h| ==> h[i].versionNumber == i + 1
    ensures NextNumber(h) == |h| + 1
  {
    if |h| > 0 {
      var n := NextNumber(h);
      var k :| 0 <= k < |h| && h[k].versionNumber == n - 1;
      assert h[|h| - 1].versionNumber == |h|;
    }
  }

  /** Numbering is consecutive: a history numbered 1..k becomes 1..k+1. */
  lemma ConsecutiveNumbers(s: Store, p: string, deck: Deck, versionId: string, now: Timestamp,
                           readOk: bool, clearOk: bool, insertOk: bool)
    requires var h := VersionsOf(s.versions, p); forall i :: 0 <= i < |h| ==> h[i].versionNumber == i + 1
    ensures var h := VersionsOf(SaveNewVersion(s, p, deck, versionId, now, readOk, clearOk, insertOk).store.versions, p);
            forall i :: 0 <= i < |h| ==> h[i].versionNumber == i + 1
  {
    var old_ := VersionsOf(s.versions, p);
    NewVersionHistory(s, p, deck, versionId, now, readOk, clearOk, insertOk);
    if readOk && clearOk && insertOk {
      NextAfterConsecutive(old_);
    }
  }

  // ---------------------------------------------------------------------
  // loadPresentation

  function BriefOf(h: PresentationRecord): (b: Brief)
    ensures b.topic == h.topic && b.audience == h.audience && b.objective == h.objective
    ensures b.situation == h.situation && b.insights == h.insights
  {
    Brief(h.topic, h.audience, h.objective, h.situation, h.insights)
  }

  /** The rows of `id` as the query returns them: ascending version number. */
  function LoadedRows(s: Store, id: string): (r: seq<VersionRecord>)
    ensures SortedBy(VersionNumber, r)
    ensures multiset(r) == multiset(VersionsOf(s.versions, id))
    ensures |r| == |VersionsOf(s.versions, id)|
  {
    SortBy(VersionNumber, VersionsOf(s.versions, id))
  }

  /** Opens a presentation: its brief, every deck in ascending version order,
      and the deck of the first row flagged current, else the last deck.
      A missing (or ambiguous) header and an empty history are errors. */
  function LoadPresentation(s: Store, id: string, headerOk: bool, versionsOk: bool): (r: Outcome<Loaded>)
    ensures r.Ok? <==> headerOk && |HeadersWith(s.presentations, id)| == 1
                       && versionsOk && |VersionsOf(s.versions, id)| > 0
    ensures !headerOk || |HeadersWith(s.presentations, id)| != 1 ==> r == Err("Failed to load presentation")
    ensures headerOk && |HeadersWith(s.presentations, id)| == 1 && (!versionsOk || VersionsOf(s.versions, id) == []) ==>
              r == Err("Failed to load presentation versions")
    ensures r.Ok? ==> r.value.brief == BriefOf(HeadersWith(s.presentations, id)[0])
    ensures r.Ok? ==> r.value.versions == Map(SlidesData, LoadedRows(s, id))
    ensures r.Ok? ==> var rows := LoadedRows(s, id);
              if CurrentsOf(rows) != [] then r.value.deck == CurrentsOf(rows)[0].slidesData
              else r.value.deck == rows[|rows| - 1].slidesData
  {
    var headers := HeadersWith(s.presentations, id);
    if !headerOk || |headers| != 1 then Err("Failed to load presentation")
    else
      var rows := LoadedRows(s, id);
      if !versionsOk || |rows| == 0 then Err("Failed to load presentation versions")
      else
        var decks := Map(SlidesData, rows);
        var currents := CurrentsOf(rows);
        var deck := if |currents| > 0 then currents[0].slidesData else decks[|decks| - 1];
        Ok(Loaded(BriefOf(headers[0]), deck, decks))
  }

  /** In a valid store the query order is the insertion order, and the deck
      opened is always the newest one. */
  lemma {:induction false} LoadOpensNewest(s: Store, id: string)
    requires Valid(s)
    requires |HeadersWith(s.presentations, id)| == 1 && VersionsOf(s.versions, id) != []
    ensures var h := VersionsOf(s.versions, id);
            LoadPresentation(s, id, true, true)
              == Ok(Loaded(BriefOf(HeadersWith(s.presentations, id)[0]), h[|h| - 1].slidesData, Map(SlidesData, h)))
  {
    var h := VersionsOf(s.versions, id);
    assert HistoryValid(h);
    assert SortedBy(VersionNumber, h) by {
      forall i, j | 0 <= i < j < |h| ensures VersionNumber(h[i]) <= VersionNumber(h[j]) {
      }
    }
    SortSortedIsIdentity(VersionNumber, h);
  }

  /** A presentation saved under a fresh id opens with the brief and deck it
      was saved with, as its only version. */
  lemma LoadAfterSave(s: Store, userId: string, brief: Brief, deck: Deck,
                      headerId: string, versionId: string, now: Timestamp)
    requires Valid(s) && Fresh(s, headerId)
    ensures LoadPresentation(SavePresentation(s, userId, brief, deck, headerId, versionId, now, true, true).store,
                             headerId, true, true)
            == Ok(Loaded(brief, deck, [deck]))
  {
    var a := SavePresentation(s, userId, brief, deck, headerId, versionId, now, true, true);
    var header := NewHeader(headerId, userId, brief, now);
    var first := VersionRecord(versionId, headerId, 1, deck, now, true);
    SaveKeepsValid(s, userId, brief, deck, headerId, versionId, now, true, true);
    SaveCreatesFirstVersion(s, userId, brief, deck, headerId, versionId, now, true, true);
    HeadersAppend(s.presentations, header, headerId);
    assert HeadersWith(a.store.presentations, headerId) == [header];
    assert VersionsOf(a.store.versions, headerId) == [first];
    LoadOpensNewest(a.store, headerId);
    assert BriefOf(header) == brief;
    assert Map(SlidesData, [first]) == [deck];
  }

  /** When the version insert of a save fails, the header stays (nothing is
      rolled back) and opening the presentation fails for want of versions. */
  lemma FailedSaveLeavesHeader(s: Store, userId: string, brief: Brief, deck: Deck,
                               headerId: string, versionId: string, now: Timestamp)
    requires Fresh(s, headerId)
    ensures var a := SavePresentation(s, userId, brief, deck, headerId, versionId, now, true, false);
            && |HeadersWith(a.store.presentations, headerId)| == 1
            && LoadPresentation(a.store, headerId, true, true) == Err("Failed to load presentation versions")
  {
    HeadersAppend(s.presentations, NewHeader(headerId, userId, brief, now), headerId);
  }

  /** After a successful `saveNewVersion` the presentation opens on the new
      deck, with the earlier decks before it in order. */
  lemma LoadAfterNewVersion(s: Store, p: string, deck: Deck, versionId: string, now: Timestamp)
    requires Valid(s) && |HeadersWith(s.presentations, p)| == 1
    ensures var h := VersionsOf(s.versions, p);
            LoadPresentation(SaveNewVersion(s, p, deck, versionId, now, true, true, true).store, p, true, true)
              == Ok(Loaded(BriefOf(HeadersWith(s.presentations, p)[0]), deck, Map(SlidesData, h) + [deck]))
  {
    var a := SaveNewVersion(s, p, deck, versionId, now, true, true, true);
    var h := VersionsOf(s.versions, p);
    var added := VersionRecord(versionId, p, NextNumber(h), deck, now, true);
    NewVersionHistory(s, p, deck, versionId, now, true, true, true);
    NewVersionKeepsValid(s, p, deck, versionId, now, true, true, true);
    assert VersionsOf(a.store.versions, p) == ClearFlags(h, p) + [added];
    LoadOpensNewest(a.store, p);
    MapSnoc(SlidesData, ClearFlags(h, p), added);
    assert Map(SlidesData, ClearFlags(h, p)) == Map(SlidesData, h);
  }

  // ---------------------------------------------------------------------
  // loadAllPresentations

  /** The dashboard listing: the caller's presentations, most recently
      updated first. */
  function LoadAllPresentations(s: Store, userId: string, ok: bool): (r: Outcome<seq<PresentationRecord>>)
    ensures r.Ok? <==> ok
    ensures !ok ==> r == Err("Failed to load presentations")
    ensures r.Ok? ==> forall i :: 0 <= i < |r.value| ==> r.value[i].userId == userId
    ensures r.Ok? ==> forall i :: 0 <= i < |s.presentations| && s.presentations[i].userId == userId
                        ==> s.presentations[i] in r.value
    ensures r.Ok? ==> forall i, j :: 0 <= i < j < |r.value| ==> r.value[i].updatedAt >= r.value[j].updatedAt
    ensures r.Ok? ==> multiset(r.value) == multiset(Filter(OwnedBy(userId), s.presentations))
  {
    if !ok then Err("Failed to load presentations")
    else
      var mine := Filter(OwnedBy(userId), s.presentations);
      var sorted := SortBy(NewestFirst, mine);
      SameElements(sorted, mine);
      assert forall i :: 0 <= i < |sorted| ==> sorted[i] in mine;
      Ok(sorted)
  }

  // ---------------------------------------------------------------------
  // deletePresentation and toggleFavorite

  /** Deletes the header with `id`. Version rows are not touched here: their
      removal is left to the database schema, which is outside this model. */
  function DeletePresentation(s: Store, id: string, ok: bool): (a: After<()>)
    ensures !ok ==> a == After(s, Err("Failed to delete presentation"))
    ensures ok ==> a.result.Ok? && a.store.versions == s.versions
    ensures ok ==> forall i :: 0 <= i < |a.store.presentations| ==> a.store.presentations[i].id != id
    ensures ok ==> forall i :: 0 <= i < |s.presentations| && s.presentations[i].id != id
                     ==> s.presentations[i] in a.store.presentations
    ensures ok ==> forall i :: 0 <= i < |a.store.presentations| ==> a.store.presentations[i] in s.presentations
    ensures ok ==> |a.store.presentations| == |s.presentations| - |HeadersWith(s.presentations, id)|
  {
    if !ok then After(s, Err("Failed to delete presentation"))
    else
      FilterComplementLength(HasId(id), LacksId(id), s.presentations);
      After(Store(Filter(LacksId(id), s.presentations), s.versions), Ok(()))
  }

  /** Deleting keeps the table's order: any relation that held between every
      earlier and later header still holds between the remaining ones. */
  lemma DeleteKeepsOrder(s: Store, id: string, rel: (PresentationRecord, PresentationRecord) -> bool)
    requires Pairwise(rel, s.presentations)
    ensures Pairwise(rel, DeletePresentation(s, id, true).store.presentations)
  {
    FilterKeepsPairwise(rel, LacksId(id), s.presentations);
  }

  /** A deleted presentation can no longer be opened; the store stays valid. */
  lemma DeleteThenLoadFails(s: Store, id: string, headerOk: bool, versionsOk: bool)
    requires Valid(s)
    ensures var t := DeletePresentation(s, id, true).store;
            Valid(t) && LoadPresentation(t, id, headerOk, versionsOk) == Err("Failed to load presentation")
  {
    var t := DeletePresentation(s, id, true).store;
    FilterKeepsPairwise((a: PresentationRecord, b: PresentationRecord) => a.id != b.id, LacksId(id), s.presentations);
    FilterNone(HasId(id), t.presentations);
  }

  function FavoriteIn(id: string, isFavorite: bool): PresentationRecord -> PresentationRecord {
    (h: PresentationRecord) => if h.id == id then h.(isFavorite := isFavorite) else h
  }

  /** Sets the favourite flag of the header with `id` to exactly `isFavorite`. */
  function ToggleFavorite(s: Store, id: string, isFavorite: bool, ok: bool): (a: After<()>)
    ensures !ok ==> a == After(s, Err("Failed to update favorite status"))
    ensures ok ==> a.result.Ok? && a.store.versions == s.versions
    ensures ok ==> |a.store.presentations| == |s.presentations|
    ensures ok ==> forall i :: 0 <= i < |s.presentations| ==>
              a.store.presentations[i] == (if s.presentations[i].id == id
                                           then s.presentations[i].(isFavorite := isFavorite)
                                           else s.presentations[i])
  {
    if !ok then After(s, Err("Failed to update favorite status"))
    else After(Store(Map(FavoriteIn(id, isFavorite), s.presentations), s.versions), Ok(()))
  }

  /** Setting the flag twice is setting it once, and the store stays valid. */
  lemma ToggleIdempotent(s: Store, id: string, isFavorite: bool)
    requires Valid(s)
    ensures var once := ToggleFavorite(s, id, isFavorite, true).store;
            ToggleFavorite(once, id, isFavorite, true).store == once && Valid(once)
  {
    var once := ToggleFavorite(s, id, isFavorite, true).store;
    DistinctMap(FavoriteIn(id, isFavorite), s.presentations);
    var twice := ToggleFavorite(once, id, isFavorite, true).store;
    assert twice.presentations == once.presentations;
  }

  // ---------------------------------------------------------------------
  // The code as written breaks the invariant

  function OneVersionStore(): (s: Store)
    ensures Valid(s)
  {
    var header := PresentationRecord("p", "u", "t", "a", "o", "s", "", 0, 0, false);
    var first := VersionRecord("v1", "p", 1, Deck("d", "t", "a", [], ""), 0, true);
    var s := Store([header], [first]);
    assert forall q :: VersionsOf(s.versions, q) == (if q == "p" then [first] else []) by {
      forall q ensures VersionsOf(s.versions, q) == (if q == "p" then [first] else []) {
        VersionsAppend([], first, q);
        assert [] + [first] == [first];
      }
    }
    assert CurrentsOf([first]) == [first];
    s
  }

  /** When the read of the largest number fails, the code as written still
      inserts, as number 1: the history then holds version 1 twice. */
  lemma AsWrittenDuplicatesNumber()
    ensures var s := OneVersionStore();
            var a := SaveNewVersionAsWritten(s, "p", s.versions[0].slidesData, "v2", 1, false, true, true);
            var h := VersionsOf(a.store.versions, "p");
            && a.result.Ok? && !Valid(a.store)
            && |h| == 2 && h[0].versionNumber == 1 == h[1].versionNumber
  {
    var s := OneVersionStore();
    var a := SaveNewVersionAsWritten(s, "p", s.versions[0].slidesData, "v2", 1, false, true, true);
    VersionsAppend(ClearFlags(s.versions, "p"), a.store.versions[1], "p");
    VersionsAppend([], s.versions[0], "p");
    assert [] + [s.versions[0]] == [s.versions[0]];
    var h := VersionsOf(a.store.versions, "p");
    assert h[0].versionNumber == 1 && h[1].versionNumber == 1;
    assert !HistoryValid(h);
  }

  /** When the flag-clearing update fails, the code as written still inserts
      a current row: the history then has two current versions. */
  lemma AsWrittenTwoCurrents()
    ensures var s := OneVersionStore();
            var a := SaveNewVersionAsWritten(s, "p", s.versions[0].slidesData, "v2", 1, true, false, true);
            a.result.Ok? && !Valid(a.store) && |CurrentsOf(VersionsOf(a.store.versions, "p"))| == 2
  {
    var s := OneVersionStore();
    var a := SaveNewVersionAsWritten(s, "p", s.versions[0].slidesData, "v2", 1, true, false, true);
    var first, second := s.versions[0], a.store.versions[1];
    var h := VersionsOf(a.store.versions, "p");
    assert a.store.versions == [first, second] && first.isCurrent && second.isCurrent;
    assert h == [first, second] by {
      VersionsAppend([first], second, "p");
      VersionsAppend([], first, "p");
      assert [] + [first] == [first];
    }
    assert CurrentsOf(h) == [first, second] by {
      CurrentsAppend([first], second);
      CurrentsAppend([], first);
      assert [] + [first] == [first];
    }
    assert !HistoryValid(h);
  }
}
